=== FILE: README.md ===
# AIPG Art Gallery — a Dafny model of the gallery server's core

The AIPG Art Gallery is a web front end for the AI Power Grid. Its Go server
does several jobs:

- it turns a user's generation request into a Grid job payload;
- it reports job status with CDN links;
- it keeps a small gallery of finished creations;
- it reads model and recipe metadata from two on-chain registries, the
  ModelVault and the RecipeVault.

A Python script sets up the Supabase database the web app uses.

This project models the decision logic of that core as pure Dafny functions
and a few methods with loops. It proves what each piece promises about its
result. The modules follow the program:

| module | models |
|---|---|
| `Config` | the environment settings (`server/internal/config/config.go`) |
| `Presets` | the model-preset catalog (`server/internal/models/preset.go`) |
| `Gallery` | the JSON-backed gallery store (`server/internal/gallery/store.go`) |
| `Prompts` | category detection, prompt enhancement and truncation (`server/internal/prompts/enhance.go`) |
| `Cdn` | the R2 media URL rewriting (`server/internal/r2/client.go`) |
| `App` | the job-building and job-view helpers of the HTTP application (`server/internal/app/app.go`) |
| `AppGallery` | the gallery request rules of the HTTP application: page parameters and who may delete |
| `ModelVault` | model-record parsing, the model index and its fuzzy lookup (`server/internal/modelvault/client.go`) |
| `RecipeVault` | workflow decompression, model extraction from ComfyUI workflows and the recipe index (`server/internal/recipevault/client.go`) |
| `SetupSupabase` | `.env` parsing, project-reference extraction and the OAuth callback URL (`scripts/setup-supabase.py`) |

The support modules are:

- `Strs` holds the string operations of Go's `strings` package and Python's `str` that the core relies on:
  - trimming with Go's and Python's white-space sets;
  - ASCII lower-casing;
  - substring search;
  - split and join.
- `Decimal` holds `strconv.Atoi` and `Itoa`.
- `Indexing` holds the "build a map from a list, a later element overwriting an earlier one" pattern. Several loops of the source share this pattern.
- `Options` holds `Option`.

Effects become parameters. Each is listed under "Left out":

- Go's map iteration order is an explicit key order.
- `url.Parse` is a function from a URL to its path.
- gzip and JSON decoding are functions.
- The records read from the chain are a sequence.
- The `.env` file is its lines.
- The existence of the schema file is a flag.

Several branches of the source can never run, and the model proves this:

- the second, case-sensitive sampler lookup in `mapSamplerName`;
- the "suffix only" fallback of `EnhancePrompt`.

These branches are harmless, so they are recorded as lemmas rather than reported as defects.

Where the source tests a substring and also a longer string containing it, the model keeps both tests. Examples are `ltxv` and `ltx`, `sdxl` and `xl`, and `ti2v` and `i2v`. Lemmas such as `Prompts.LtxvImpliesLtx` show the longer test adds nothing.

## Model

| member | source | states |
|---|---|---|
| Config.GetEnv | server/internal/config/config.go:61-66 | a blank variable gives the fallback; otherwise the trimmed value, which is non-empty with no white space at either end |
| Config.SplitAndClean | server/internal/config/config.go:68-81 | an empty list gives no entries; any other list gives its comma-separated pieces cleaned; every entry is non-empty, has no surrounding white space and no comma |
| Config.CleanPiecesMembers | server/internal/config/config.go:72-80 | a text is an entry iff it is non-empty and is the trimmed form of some piece |
| Config.CleanPiecesAppend | server/internal/config/config.go:74-79 | pieces are cleaned one at a time, so the entries keep the order of their pieces |
| Config.SplitAndCleanOfJoin | server/internal/config/config.go:68-81 | for any comma-free pieces, padded or blank, splitting their comma join and cleaning gives the pieces trimmed, blank ones dropped, in order |
| Config.SplitAndCleanDropsPadding | server/internal/config/config.go:68-81 | " a ,, b" gives exactly a and b, for any clean comma-free a and b: padding is trimmed and the empty piece dropped |
| Config.SplitAndCleanJoin | server/internal/config/config.go:68-81 | clean, comma-free entries joined with commas are split back to exactly the same entries in the same order |
| Config.Load | server/internal/config/config.go:34-59 | the ModelVault is on when its variable is blank or "true"; R2 is on iff either access key variable is non-empty; the address defaults to ":4000"; the origin list is the split-and-cleaned variable |
| Config.EmptyEnvironmentDefaults | server/internal/config/config.go:34-59 | with no variables set the ModelVault is enabled, R2 is disabled and no origins are allowed |
| Config.BlankAccessKeyEnablesR2 | server/internal/config/config.go:50 | an access key made only of white space still enables R2, because that flag reads the variable untrimmed |
| Presets.PresetKeys | server/internal/models/preset.go:74-77 | a preset is indexed under its id exactly when the id is non-empty |
| Presets.LoadCatalog | server/internal/models/preset.go:61-81 | the catalog holds exactly the non-empty ids of the presets, each mapped to a preset with that id |
| Presets.GetReturnsLastWithId | server/internal/models/preset.go:72-86 | `Get` finds an id iff some preset carries it, and returns the last such preset in file order |
| Presets.List | server/internal/models/preset.go:88-94 | the list has one entry per catalog key, without duplicates, each entry being what `Get` returns for its id |
| Presets.ListCoversCatalog | server/internal/models/preset.go:88-94 | every preset in the catalog appears in the list |
| Gallery.Add | server/internal/gallery/store.go:48-74 | an item whose job id is present leaves the store unchanged; otherwise it goes to the front with its creation time filled in, the older items follow in order and the store is capped at its maximum size; distinct job ids stay distinct |
| Gallery.AddIdempotent | server/internal/gallery/store.go:52-57 | adding the same item twice has the effect of adding it once, for every store size |
| Gallery.PageSize | server/internal/gallery/store.go:81-83 | a non-positive limit means the whole store |
| Gallery.Collect | server/internal/gallery/store.go:85-101 | the loop returns the first `limit` items that pass the filter, in store order |
| Gallery.List | server/internal/gallery/store.go:77-104 | the listing is the public items of the requested type, or of every type for "" and "all", in store order, cut to the page size |
| Gallery.ListByWallet | server/internal/gallery/store.go:107-133 | an empty wallet gives nothing; otherwise the items whose wallet matches ignoring letter case, in order, cut to the page size |
| Gallery.FindJob | server/internal/gallery/store.go:140-141 | the position of the first item with the job id, or -1 iff there is none |
| Gallery.Remove | server/internal/gallery/store.go:136-149 | reports true iff the job id is present; a removal drops exactly the first item with the job id and keeps every other item in its order; with distinct ids the job id is gone afterwards and nothing else is |
| Gallery.AddThenRemove | server/internal/gallery/store.go:136-149 | removing a newly added item gives back the earlier items, minus the oldest one if adding evicted it |
| Prompts.DetectCategory | server/internal/prompts/enhance.go:21-36 | case-insensitive substring tests in priority order, each an iff: "flux" gives FLUX, then "sdxl" or "stable-diffusion-xl" gives SDXL, then "wan" gives WAN, then "ltx" gives LTX; a generic id contains none of them |
| Prompts.LtxvImpliesLtx | server/internal/prompts/enhance.go:31 | an id containing "ltxv" contains "ltx", so the first test of the LTX branch adds nothing |
| Prompts.DetectFluxDev | server/internal/prompts/enhance_test.go:12 | "Flux_Dev" is a FLUX image model |
| Prompts.DetectFluxSchnell | server/internal/prompts/enhance_test.go:13 | "flux_schnell" is a FLUX image model |
| Prompts.DetectSdxlVersion | server/internal/prompts/enhance_test.go:14 | "SDXL_1.0" is an SDXL image model |
| Prompts.DetectStableDiffusionXl | server/internal/prompts/enhance_test.go:15 | "stable-diffusion-xl" is an SDXL image model |
| Prompts.DetectWan22 | server/internal/prompts/enhance_test.go:16 | "WAN_2.2_T2V_14B" is a WAN video model |
| Prompts.DetectWan21 | server/internal/prompts/enhance_test.go:17 | "wan_21_fun" is a WAN video model |
| Prompts.DetectLtxv | server/internal/prompts/enhance_test.go:18 | "ltxv_13b" is an LTX video model |
| Prompts.DetectLtx | server/internal/prompts/enhance_test.go:19 | "ltx_video" is an LTX video model |
| Prompts.DetectGeneric | server/internal/prompts/enhance_test.go:20 | "unknown_model" is generic |
| Prompts.DefaultNegativePrompt | server/internal/prompts/enhance.go:39-52 | every category's default negative prompt is non-empty and fits in 512 characters |
| Prompts.GetEnhancements | server/internal/prompts/enhance.go:97-120 | no category has a prefix; every category has a non-empty suffix of at most 50 characters |
| Prompts.TruncatePrompt | server/internal/prompts/enhance.go:123-140 | a short prompt is unchanged; a long one becomes a prefix of at most `maxLen` characters, cut at the last space past two thirds of the window when there is one, and it never ends in a space, comma or full stop |
| Prompts.EnhancePrompt | server/internal/prompts/enhance.go:56-95 | the result never exceeds the maximum length; a blank prompt gives ""; a trimmed prompt of 512 characters or more is not enhanced but cut by `TruncatePrompt` (kept whole at exactly 512, otherwise cut at the word boundary with trailing " ,." dropped); a trimmed prompt with room for the suffix becomes the prompt, ", " and the suffix; one too long for the suffix but under 512 characters comes back trimmed and otherwise unchanged |
| Prompts.EnhanceAppendsSuffix | server/internal/prompts/enhance.go:75-85 | a trimmed prompt with room for the suffix becomes the prompt, ", " and the category suffix |
| Prompts.SuffixOnlyBranchUnreachable | server/internal/prompts/enhance.go:87-91 | no prompt reaches the suffix-only fallback: the prefix is always empty, so the full enhancement fits whenever the suffix alone fits |
| Prompts.ProcessPrompts | server/internal/prompts/enhance.go:143-161 | both prompts are at most 512 characters; the prompt is enhanced for the detected category; a blank negative prompt becomes the category default, whole; a given one is trimmed and, if longer than 512 characters, cut by `TruncatePrompt` at the word boundary |
| Prompts.ProcessPromptsKeepsNegative | server/internal/prompts/enhance_test.go:83-87 | a trimmed negative prompt that fits is returned unchanged |
| Cdn.WithExtension | server/internal/r2/client.go:177-180 | a name with a dot is kept; one without gets ".webp"; the result has a dot and gains no slash |
| Cdn.GenerateMediaURL | server/internal/r2/client.go:113-121 | the URL is the CDN prefix followed by the id and ".webp", and converting it to a CDN URL again changes nothing |
| Cdn.ManualFileName | server/internal/r2/client.go:147-153 | the fallback file name is the text after the last '/', up to but not including its first '?', and all of it when there is no '?' |
| Cdn.ConvertToCDN | server/internal/r2/client.go:125-185 | "" and URLs already on the CDN or in data form are kept; any other result is the CDN prefix followed by a slash-free file name with an extension |
| Cdn.ConvertParsedPath | server/internal/r2/client.go:163-182 | for a parsable URL, a path made only of slashes keeps the URL; otherwise the result is the CDN URL of the last path segment, with ".webp" when it has no extension |
| Cdn.LastSegmentNotEmpty | server/internal/r2/client.go:170-176 | a path that does not end in '/' has a non-empty last segment |
| Cdn.ConvertIdempotent | server/internal/r2/client.go:125-185 | converting an already converted URL changes nothing |
| App.ClampInt | server/internal/app/app.go:1401-1409 | a value below the lower bound gives the lower bound; otherwise a value above the upper bound gives the upper bound; a value within the bounds is kept; with ordered bounds the result lies within them |
| App.ClampIdempotent | server/internal/app/app.go:1401-1409 | with ordered bounds, clamping twice is clamping once |
| App.ClampInvertedBoundsNotIdempotent | server/internal/app/app.go:1401-1409 | with inverted bounds, clamping twice differs from clamping once, because the lower bound is checked first |
| App.PickInt | server/internal/app/app.go:1356-1361 | a positive value wins; otherwise the fallback |
| App.PickString | server/internal/app/app.go:1349-1354 | a value that is not blank wins, untrimmed; otherwise the fallback |
| App.PickIntInRange | server/internal/app/app.go:1372-1384 | the picked value, clamped to the preset's limits when it has them, and so within ordered limits |
| App.MapSamplerName | server/internal/app/app.go:780-826 | every sampler name maps to one of the Grid's sampler names; a name whose lower case is in the table (the ComfyUI aliases and the Grid names themselves) gets that table entry |
| App.UnknownSamplerIsEuler | server/internal/app/app.go:815-825 | a name whose lower case is not in the table maps to "k_euler", in any letter case |
| App.SamplerAliasExamples | server/internal/app/app.go:781-797 | ComfyUI's "euler" becomes "k_euler" and "uni_pc" becomes "dpmsolver" |
| App.SamplerValuesAreGrid | server/internal/app/app.go:781-813 | every entry of the sampler table names a Grid sampler |
| App.SamplerKeysLower | server/internal/app/app.go:781-813 | every key of the sampler table except "DDIM" is lower case |
| App.SecondSamplerLookupIsDead | server/internal/app/app.go:815-822 | when the lower-cased name misses the table, the name as given misses it too, so the second lookup never succeeds |
| App.MapSamplerNameIgnoresCase | server/internal/app/app.go:815-822 | a name and its lower-case form map to the same sampler |
| App.GridSamplersAreFixed | server/internal/app/app.go:798-813 | every Grid sampler name maps to itself |
| App.MapSamplerNameIdempotent | server/internal/app/app.go:780-826 | mapping a mapped name again changes nothing |
| App.GridModelName | server/internal/app/app.go:235-241 | a preset id in the table maps to its Grid model name; any other id is kept |
| App.GridModelNameIdempotent | server/internal/app/app.go:199-232 | only the three WAN 2.2 presets are renamed, and a Grid model name maps to itself |
| App.Validate | server/internal/app/app.go:768-776 | a request is valid iff neither the prompt nor the model id is blank; a blank prompt is reported first |
| App.IfPositive | server/internal/app/app.go:871-888 | a dimension is sent iff it is positive, and then unchanged |
| App.DefaultSourceProcessing | server/internal/app/app.go:893-909 | the mode is an image-input mode iff a source image is given, and a video mode iff the preset is a video preset |
| App.BuildJobParams | server/internal/app/app.go:835-888 | the sampler is a Grid sampler; Karras is set iff the scheduler is "karras" in any case; steps and dimensions are picked and clamped to the preset's limits, the dimensions sent only when positive; a seed is sent iff one is given |
| App.BuildCreateJobPayload | server/internal/app/app.go:828-947 | the payload carries the processed prompts, the Grid model name, NSFW censoring exactly when NSFW is off, trusted workers and R2 on, sharing iff the request is public, the request's source processing or the default, and the preset's kind as the media type when none is given |
| App.PayloadWellFormed | server/internal/app/app.go:828-947 | every payload has prompts within 512 characters, a Grid sampler, a known source-processing mode and exactly one model |
| App.FirstNonEmpty | server/internal/app/app.go:1421-1428 | "" iff every candidate is blank; otherwise the first candidate that is not blank |
| App.NormalizeBase64 | server/internal/app/app.go:1430-1442 | blank input gives ""; a data URL is trimmed and kept; bare data longer than 50 characters becomes a WebP data URL; shorter bare data is dropped |
| App.NormalizeBase64Idempotent | server/internal/app/app.go:1430-1442 | normalising a normalised value changes nothing |
| App.StatusOf | server/internal/app/app.go:973-980 | a faulted job is "faulted", then a done one is "completed", then one with processing workers is "processing", otherwise "queued" |
| App.GenerationViewOf | server/internal/app/app.go:983-1012 | a generation is a video iff it has a video URL or a video MIME type, and a video carries no base64; base64 is empty or a data URL; a video's URL is its converted video URL or, without one, its first non-blank URL converted; an image shows its normalised base64 and converted URL, or its data URL as base64 and no URL when it has no base64 of its own; every URL is left unchanged by the CDN converter |
| App.BuildJobView | server/internal/app/app.go:972-1026 | the view copies the job's counters and has one generation view per generation, in order |
| App.JobViewGenerationsMatch | server/internal/app/app.go:982-1013 | each generation view keeps its generation's id; a generation with a video URL is shown as a video at its converted URL; every URL is left unchanged by the CDN converter |
| AppGallery.ParseLimit | server/internal/app/app.go:1049-1054 | the page size is the given integer when it lies in [1, 100], otherwise 25 |
| AppGallery.ParseOffset | server/internal/app/app.go:1056-1061 | the offset is the given integer when it is non-negative, otherwise 0 |
| AppGallery.ParseLimitOfDecimal | server/internal/app/app.go:1049-1054 | a page size written in decimal is taken as written |
| AppGallery.ParseOffsetOfDecimal | server/internal/app/app.go:1056-1061 | an offset written in decimal is taken as written |
| AppGallery.NormalizeWallet | server/internal/app/app.go:1309 | a wallet normalises to "" iff it is blank |
| AppGallery.DeleteDecision | server/internal/app/app.go:1301-1330 | a missing job id gives 400, then a blank wallet header gives 401, then a missing item gives 404; otherwise deletion proceeds iff the item has no wallet or the same wallet after trimming and lower-casing, and is refused with 403 otherwise |
| AppGallery.DeleteIgnoresWalletSpelling | server/internal/app/app.go:1309-1330 | headers that normalise alike get the same decision |
| AppGallery.OwnerMayDelete | server/internal/app/app.go:1322-1330 | the stored wallet address, as written or lower-cased, may delete its item |
| ModelVault.TypeName | server/internal/modelvault/client.go:28-39 | the type name is one of text, image, video or unknown, and "unknown" iff the code is above 2 |
| ModelVault.TypeNameRoundTrip | server/internal/modelvault/client.go:22-39 | the name of a known type reads back as that type; the name of an unknown code reads back as nothing |
| ModelVault.GenerateDescription | server/internal/modelvault/client.go:517-559 | the families in priority order: WAN 2.2 (image-to-video for "i2v", else the HQ text-to-video text for "t2v" with "hq", else text-to-video for "t2v", else the generic WAN text), then FLUX (Kontext for "kontext", else Krea for "krea", else Schnell for "schnell", else the FLUX.1 text), then "xl" gives SDXL, then "chroma" gives Chroma, then "ltx" gives LTX, otherwise the name followed by " model" |
| ModelVault.SubsumedTests | server/internal/modelvault/client.go:521-551 | the "ti2v", "sdxl" and "ltxv" tests never decide anything, because each string contains the shorter one tested beside it |
| ModelVault.UnknownFamilyDescription | server/internal/modelvault/client.go:546-558 | a name of no known family is described as the name followed by " model" |
| ModelVault.WanImageToVideo | server/internal/modelvault/client.go:520-523 | a WAN 2.2 name is described as image-to-video iff it contains "i2v" ("ti2v" contains it) |
| ModelVault.WanBeforeFlux | server/internal/modelvault/client.go:520-533 | a name mentioning both WAN 2.2 and FLUX gets a WAN description |
| ModelVault.ParseModel | server/internal/modelvault/client.go:279-346 | a record with an all-zero hash is no model; otherwise the name, the hash and the generated description are kept, the type is the low byte of the stored value and the size fits 64 bits |
| ModelVault.ModelKeys | server/internal/modelvault/client.go:447-461 | an active model is indexed under its display name, its lower-cased name and its non-empty file name; an inactive one under nothing |
| ModelVault.FetchAllModels | server/internal/modelvault/client.go:390-479 | a disabled client gives an empty index; otherwise a key is present iff some fetched model carries it, and every indexed model is active and carries its key |
| ModelVault.IndexedAreActive | server/internal/modelvault/client.go:447-461 | every model in an index built from the fetched models is active and carries its key |
| ModelVault.FoldKey | server/internal/modelvault/client.go:500-502 | folding keeps the length and leaves no '.' or '-' |
| ModelVault.FoldKeyIsNormalizeName | server/internal/modelvault/client.go:500-502 | the ModelVault's fuzzy key is the RecipeVault's normalised name |
| ModelVault.FoldKeyIdempotent | server/internal/modelvault/client.go:500-502 | folding a folded key changes nothing |
| ModelVault.FirstFolded | server/internal/modelvault/client.go:499-506 | the fuzzy scan returns the first key in iteration order that folds like the target, and nothing iff none does |
| ModelVault.FindModel | server/internal/modelvault/client.go:482-509 | an exact key wins, then the lower-cased name, then a key that folds alike; the lookup fails iff no key folds like the name |
| ModelVault.FindIndexedModel | server/internal/modelvault/client.go:456-497 | a fetched active model is found by its display name and by any spelling that differs only in letter case |
| RecipeVault.NodeType | server/internal/recipevault/client.go:463-468 | "class_type" names the node when it is a string; otherwise "type" does |
| RecipeVault.InputString | server/internal/recipevault/client.go:471-474 | only non-empty string inputs are read |
| RecipeVault.FirstWidgetString | server/internal/recipevault/client.go:476-479 | only a non-empty first widget string is read |
| RecipeVault.ModelsOfNode | server/internal/recipevault/client.go:461-555 | a node's models are non-empty strings |
| RecipeVault.ModelsOfNodeByTable | server/internal/recipevault/client.go:481-554 | a node's models are exactly the named inputs of its loader type, plus the first widget value for checkpoint and UNET loaders |
| RecipeVault.ClassTypeTakesPrecedence | server/internal/recipevault/client.go:463-468 | with a string "class_type", the "type" field changes nothing |
| RecipeVault.WidgetsIgnoredElsewhere | server/internal/recipevault/client.go:476-554 | loaders other than checkpoint and UNET do not read widget values |
| RecipeVault.ScanNodeArray | server/internal/recipevault/client.go:558-565 | the models of a node array are the union of the models of its object elements |
| RecipeVault.ScanTopLevel | server/internal/recipevault/client.go:566-578 | the models of an API-format workflow are the union over its object values, skipping "extra", "_meta" and "links" |
| RecipeVault.ExtractModelsFromWorkflow | server/internal/recipevault/client.go:457-585 | a workflow with a "nodes" array is scanned through it, any other through its top-level values; every model found is non-empty |
| RecipeVault.DecompressWorkflow | server/internal/recipevault/client.go:304-338 | empty data and an unknown compression code are errors; a workflow is produced only for uncompressed or gzip data, and uncompressed data gives one iff it parses as a JSON object |
| RecipeVault.BrotliUnsupported | server/internal/recipevault/client.go:328-329 | Brotli data is rejected as "unsupported compression type: 2" |
| RecipeVault.NormalizeName | server/internal/recipevault/client.go:401 | dots and hyphens become underscores and letters become lower case, position by position |
| RecipeVault.NormalizeNameIdempotent | server/internal/recipevault/client.go:401 | normalising a normalised name changes nothing |
| RecipeVault.RecipeKeys | server/internal/recipevault/client.go:394-402 | a public recipe is indexed under its name and its normalised name; a private one under nothing |
| RecipeVault.FetchAllRecipes | server/internal/recipevault/client.go:341-420 | a disabled client gives an empty index; otherwise a key is present iff some fetched recipe carries it, and every indexed recipe is public and carries its key |
| RecipeVault.PublicRecipeFound | server/internal/recipevault/client.go:394-402 | a public recipe is found by its name and its normalised name unless a later recipe claims the same key |
| RecipeVault.PrivateRecipesHidden | server/internal/recipevault/client.go:394-396 | a key carried only by private recipes is not in the index |
| RecipeVault.ExtractModelsFromRecipes | server/internal/recipevault/client.go:423-453 | the models are exactly the union of the models of every recipe's workflow |
| RecipeVault.WorkflowModelsOf | server/internal/recipevault/client.go:557-578 | the set the workflow scan returns is the workflow's model set |
| SetupSupabase.ParseLine | scripts/setup-supabase.py:27-32 | a blank line, a comment or a line without '=' gives no entry, and any other line gives one; the entry is the stripped text before and after the stripped line's first '=', so the key never contains '=' |
| SetupSupabase.ParseLinePadded | scripts/setup-supabase.py:28-32 | white space around the line and around its first '=' is stripped: a non-empty key without '=' that does not start with '#', and any value, come back exactly, whatever white space pads them |
| SetupSupabase.ParseLineRoundTrip | scripts/setup-supabase.py:28-32 | a line written as key=value parses back to that key and value, even when the value contains '=' |
| SetupSupabase.LoadEnv | scripts/setup-supabase.py:19-33 | a key is set iff some parsed line assigns it |
| SetupSupabase.LastAssignmentWins | scripts/setup-supabase.py:27-32 | a key holds the value of its last assignment in the file |
| SetupSupabase.AppendedLineWins | scripts/setup-supabase.py:25-33 | a line appended to the file overrides earlier assignments to its key |
| SetupSupabase.MatchAt | scripts/setup-supabase.py:37 | a match at a position is the scheme, a non-empty dot-free reference and ".supabase.co" |
| SetupSupabase.MatchAtComplete | scripts/setup-supabase.py:37 | every match the pattern allows at a position is the one found there |
| SetupSupabase.FirstMatchFrom | scripts/setup-supabase.py:37 | the search stops at the first position with a match, and finds nothing iff no later position has one |
| SetupSupabase.ExtractProjectRef | scripts/setup-supabase.py:35-38 | the reference is non-empty and dot-free, the URL contains it between "https://" and ".supabase.co", and no earlier position matches |
| SetupSupabase.ExtractNoneIffNoMatch | scripts/setup-supabase.py:35-38 | no reference is found iff no position of the URL matches |
| SetupSupabase.ExtractExample | scripts/setup-supabase.py:35-38 | "https://abcdefgh.supabase.co" has reference "abcdefgh" |
| SetupSupabase.RemoveAll | scripts/setup-supabase.py:95 | removing every "/rest/v1" never lengthens the URL |
| SetupSupabase.RemoveAllAbsent | scripts/setup-supabase.py:95 | a URL without the pattern is unchanged |
| SetupSupabase.RemoveAllTrailing | scripts/setup-supabase.py:95 | a trailing occurrence of the pattern is removed without disturbing the rest |
| SetupSupabase.CallbackUrl | scripts/setup-supabase.py:95 | the callback URL begins with the URL without "/rest/v1" and ends with "/auth/v1/callback", with nothing in between |
| SetupSupabase.CallbackOfRestUrl | scripts/setup-supabase.py:95 | a project URL with or without a trailing "/rest/v1" gets the same callback URL |
| SetupSupabase.RunSetup | scripts/setup-supabase.py:40-120 | instructions are produced iff the `.env` file exists, sets a non-empty URL with a project reference, and the schema file exists; they carry that URL, its reference, its callback URL and whether a service key is set |

## Left out

- Floating-point settings are not modelled: CFG scale, denoising strength, the wait time, `pickFloat`, `pickFloatInRange` and `clampFloat`. The model has integers only.
- HTTP routing, handlers, CORS, JSON encoding and error replies are left out, except for the decisions modelled in `AppGallery`.
- The Postgres store, the favourites, job and user stores, caches, mutexes, rate limits and clocks are left out. The clock's reading in `Gallery.Add` is a parameter.
- Reading the preset file and decoding its JSON are left out, with their errors (`LoadCatalog` in `server/internal/models/preset.go`); the catalog is built from the decoded presets.
- Gallery persistence is left out: `NewStore`, `load` and `save` do file I/O. The store is a value with its maximum size.
- The R2 client's network operations are left out: `NewClient`, `GenerateDownloadURL`, `ObjectExists`, `DeleteObject` and `IsConfigured`.
- `url.Parse` is a parameter of `Cdn.ConvertToCDN` that returns the path or fails.
- Contract calls, ABI decoding, reflection and `GetConstraints` are left out, as are the count query and per-record fetch errors of `FetchAllModels` and `FetchAllRecipes`. The fetched records are a sequence, with `None` for a record that failed or is absent.
- Logging and the rate-limit warnings are left out.
- Go's random map iteration order is an explicit key order (`Indexing.IsKeyOrder`) wherever the result depends on it.
- gzip decompression and JSON parsing are parameters of `RecipeVault.DecompressWorkflow`. The two gzip error texts (reader creation and read) are one `GzipFailed` error.
- The model-list view (`handleListModels`, `buildModelView`, `lookupModelStats`) is left out. It joins presets with live Grid statistics and chain data fetched over the network.
- The Supabase script's printing is left out. The outcome records what the printed instructions are built from.
- Cdn.ConvertToCDN: the file name is the text after the last '/' of the trimmed path. This is the last element of `strings.Split` in the source, but no lemma ties the two together.
- Prompts.TruncatePrompt: lengths and the 512 limit count characters, not bytes. Go's `len` and `prompt[:maxLen]` count and cut UTF-8 bytes, so the two agree for ASCII text only. For other text Go cuts earlier and can split a multi-byte character; the model does neither.
- Prompts.EnhancePrompt: the cap and the room left for the suffix are measured in characters, as for `Prompts.TruncatePrompt`. They equal Go's byte counts for ASCII prompts only.
- Prompts.ProcessPrompts: the negative prompt's length is measured in characters, as for `Prompts.TruncatePrompt`.
- Letter case is folded for ASCII letters only (`Strs.ToLower`). Go's `strings.ToLower` and `strings.EqualFold` also fold other alphabets; the model names, ids and wallet addresses the core compares are ASCII.

=== FILE: app.dfy ===
/**
 * The deterministic helpers of the HTTP application (server/internal/app/app.go)
 * that turn a create-job request and a model preset into the payload sent to
 * the Grid API, and a job-status response into the view returned to the
 * browser. Floating-point parameters (cfg scale, denoise, wait time) are left
 * out, and the URL parser used by the CDN converter is a parameter.
 */
module App {
  import opened Options
  import opened Strs
  import opened Prompts
  import opened Presets
  import opened Cdn

  /* ---------------------------------------------------------------------- */
  /* Integer and string defaults                                            */
  /* ---------------------------------------------------------------------- */

  /** `clampInt`. With `lo <= hi` the result lies in `[lo, hi]` and a value
      already there is kept; with `lo > hi` a value below `lo` still gives
      `lo`, and any other value gives `hi`. */
  function ClampInt(value: int, lo: int, hi: int): (r: int)
    ensures lo <= hi ==> lo <= r <= hi
    ensures lo <= value <= hi ==> r == value
    ensures r == value || r == lo || r == hi
    ensures value < lo ==> r == lo
    ensures lo <= value && hi < value ==> r == hi
  {
    if value < lo then lo
    else if value > hi then hi
    else value
  }

  /** Clamping twice is clamping once, provided the bounds are ordered. */
  lemma ClampIdempotent(value: int, lo: int, hi: int)
    requires lo <= hi
    ensures ClampInt(ClampInt(value, lo, hi), lo, hi) == ClampInt(value, lo, hi)
  {
  }

  /** With inverted bounds, clamping is not idempotent. */
  lemma ClampInvertedBoundsNotIdempotent()
    ensures ClampInt(0, 2, 1) == 2 && ClampInt(ClampInt(0, 2, 1), 2, 1) == 1
  {
  }

  /** `pickInt`: a positive user value, else the fallback. */
  function PickInt(value: int, fallback: int): (r: int)
    ensures value > 0 ==> r == value
    ensures value <= 0 ==> r == fallback
  {
    if value > 0 then value else fallback
  }

  /** `pickString`: the value as given (untrimmed) unless it is blank, else
      the fallback. */
  function PickString(value: string, fallback: string): (r: string)
    ensures !IsBlank(value) ==> r == value
    ensures IsBlank(value) ==> r == fallback
  {
    if !IsBlank(value) then value else fallback
  }

  /** `pickIntInRange`: without limits this is `pickInt`; with limits the
      picked value (user value if positive, else the fallback) is clamped. */
  function PickIntInRange(userValue: int, fallback: int, limits: Option<RangeInt>): (r: int)
    ensures limits.None? ==> r == PickInt(userValue, fallback)
    ensures limits.Some? ==> r == ClampInt(PickInt(userValue, fallback), limits.value.min, limits.value.max)
    ensures limits.Some? && limits.value.min <= limits.value.max ==> limits.value.min <= r <= limits.value.max
  {
    match limits
    case None => PickInt(userValue, fallback)
    case Some(lim) =>
      if userValue <= 0 then ClampInt(fallback, lim.min, lim.max)
      else ClampInt(userValue, lim.min, lim.max)
  }

  /* ---------------------------------------------------------------------- */
  /* Sampler and model names                                                */
  /* ---------------------------------------------------------------------- */

  /** The "direct mappings" half of the table inside `mapSamplerName`:
      ComfyUI sampler names and their Grid names. */
  const SamplerAliases: map<string, string> := map[
    "uni_pc" := "dpmsolver",
    "unipc" := "dpmsolver",
    "uni_pc_bh2" := "dpmsolver",
    "dpm_2" := "k_dpm_2",
    "dpm_2_ancestral" := "k_dpm_2_a",
    "euler" := "k_euler",
    "euler_ancestral" := "k_euler_a",
    "heun" := "k_heun",
    "lms" := "k_lms",
    "dpm_fast" := "k_dpm_fast",
    "dpm_adaptive" := "k_dpm_adaptive",
    "dpmpp_2s_ancestral" := "k_dpmpp_2s_a",
    "dpmpp_2m" := "k_dpmpp_2m",
    "dpmpp_sde" := "k_dpmpp_sde",
    "ddim" := "DDIM"
  ]

  /** The sampler names the Grid API accepts. */
  const GridSamplers: set<string> := {
    "k_euler", "k_euler_a", "k_dpm_2", "k_dpm_2_a", "k_heun", "k_lms", "k_dpm_fast",
    "k_dpm_adaptive", "k_dpmpp_2s_a", "k_dpmpp_2m", "k_dpmpp_sde", "DDIM", "dpmsolver", "lcm"
  }

  /** The whole table: the direct mappings, and every Grid name passed
      through as itself. */
  const SamplerMap: map<string, string> := SamplerAliases + map g | g in GridSamplers :: g

  /** `mapSamplerName`: look up the lower-cased name, then the name as given,
      and fall back to `k_euler`. The result is always a Grid sampler, and a
      name whose lower case is in the table gets that entry. */
  function MapSamplerName(sampler: string): (r: string)
    ensures r in GridSamplers
    ensures ToLower(sampler) in SamplerMap ==> r == SamplerMap[ToLower(sampler)]
  {
    SamplerValuesAreGrid();
    var lower := ToLower(sampler);
    if lower in SamplerMap then SamplerMap[lower]
    else if sampler in SamplerMap then SamplerMap[sampler]
    else "k_euler"
  }

  lemma SamplerValuesAreGrid()
    ensures forall k :: k in SamplerMap ==> SamplerMap[k] in GridSamplers
  {
  }

  /** A string without upper-case ASCII letters is its own lower case. */
  lemma ToLowerOfLower(s: string)
    requires forall i :: 0 <= i < |s| ==> !('A' <= s[i] <= 'Z')
    ensures ToLower(s) == s
  {
  }

  /** Every key of the table has its lower case among the keys, so the
      second lookup, on the name as given, can never succeed. */
  lemma SecondSamplerLookupIsDead(sampler: string)
    ensures ToLower(sampler) !in SamplerMap ==> sampler !in SamplerMap
  {
    SamplerKeysLower();
    if sampler == "DDIM" {
      assert ToLower(sampler) == "ddim";
    }
  }

  /** Every key but `DDIM` is written in lower case. */
  lemma SamplerKeysLower()
    ensures forall k :: k in SamplerMap && k != "DDIM" ==> ToLower(k) == k
  {
    AliasKeysLower();
    GridNamesLower();
  }

  lemma AliasKeysLower()
    ensures forall k :: k in SamplerAliases ==> ToLower(k) == k
  {
    forall k | k in SamplerAliases ensures ToLower(k) == k {
      ToLowerOfLower(k);
    }
  }

  lemma GridNamesLower()
    ensures forall g :: g in GridSamplers && g != "DDIM" ==> ToLower(g) == g
  {
    forall g | g in GridSamplers && g != "DDIM" ensures ToLower(g) == g {
      ToLowerOfLower(g);
    }
  }

  /** The mapping ignores letter case. */
  lemma MapSamplerNameIgnoresCase(sampler: string)
    ensures MapSamplerName(ToLower(sampler)) == MapSamplerName(sampler)
  {
    ToLowerIdempotent(sampler);
    SecondSamplerLookupIsDead(sampler);
    SecondSamplerLookupIsDead(ToLower(sampler));
  }

  /** Grid names map to themselves. */
  lemma GridSamplersAreFixed(name: string)
    requires name in GridSamplers
    ensures MapSamplerName(name) == name
  {
    if name == "DDIM" {
      assert ToLower(name) == "ddim";
      DdimAlias();
    } else {
      GridNamesLower();
      assert ToLower(name) == name;
      GridNamePassesThrough(name);
    }
  }

  lemma DdimAlias()
    ensures "ddim" in SamplerMap && SamplerMap["ddim"] == "DDIM"
  {
    assert "ddim" !in GridSamplers;
  }

  lemma GridNamePassesThrough(g: string)
    requires g in GridSamplers
    ensures g in SamplerMap && SamplerMap[g] == g
  {
  }

  /** `mapSamplerName` is idempotent. */
  lemma MapSamplerNameIdempotent(sampler: string)
    ensures MapSamplerName(MapSamplerName(sampler)) == MapSamplerName(sampler)
  {
    GridSamplersAreFixed(MapSamplerName(sampler));
  }

  /** A name the table does not know, in any letter case, becomes
      `k_euler`: the second lookup cannot rescue it. */
  lemma UnknownSamplerIsEuler(sampler: string)
    ensures ToLower(sampler) !in SamplerMap ==> MapSamplerName(sampler) == "k_euler"
  {
    SecondSamplerLookupIsDead(sampler);
  }

  /** Two rows of the table: ComfyUI's `euler` and `uni_pc`. */
  lemma SamplerAliasExamples()
    ensures MapSamplerName("euler") == "k_euler"
    ensures MapSamplerName("uni_pc") == "dpmsolver"
  {
    ToLowerOfLower("euler");
    ToLowerOfLower("uni_pc");
  }

  /** `presetToGridName`: preset ids and the model names the Grid workers
      advertise. Most entries map a name to itself. */
  const PresetToGridName: map<string, string> := map[
    "wan2.2_ti2v_5B" := "wan2_2_ti2v_5b",
    "wan2.2-t2v-a14b" := "wan2_2_t2v_14b",
    "wan2.2-t2v-a14b-hq" := "wan2_2_t2v_14b_hq",
    "ltxv" := "ltxv",
    "FLUX.1-dev" := "FLUX.1-dev",
    "flux.1-krea-dev" := "flux.1-krea-dev",
    "FLUX.1-dev-Kontext-fp8-scaled" := "FLUX.1-dev-Kontext-fp8-scaled",
    "Flux.1-Schnell fp8 (Compact)" := "Flux.1-Schnell fp8 (Compact)",
    "Chroma" := "Chroma",
    "SDXL 1.0" := "SDXL 1.0",
    "ICBINP XL" := "ICBINP XL",
    "Juggernaut XL" := "Juggernaut XL",
    "Animagine XL" := "Animagine XL",
    "DreamShaper XL" := "DreamShaper XL",
    "Stable Cascade 1.0" := "Stable Cascade 1.0",
    "stable_diffusion" := "stable_diffusion",
    "stable_diffusion_2.1" := "stable_diffusion_2.1",
    "Deliberate" := "Deliberate",
    "Realistic Vision" := "Realistic Vision",
    "Anything v3" := "Anything v3",
    "Epic Diffusion" := "Epic Diffusion",
    "ICBINP - I Can't Believe It's Not Photography" := "ICBINP - I Can't Believe It's Not Photography",
    "Movie Diffusion" := "Movie Diffusion"
  ]

  /** `getGridModelName`: the mapped name, or the id itself when unmapped. */
  function GridModelName(presetId: string): (r: string)
    ensures presetId !in PresetToGridName ==> r == presetId
    ensures presetId in PresetToGridName ==> r == PresetToGridName[presetId]
  {
    if presetId in PresetToGridName then PresetToGridName[presetId] else presetId
  }

  /** Only the three WAN 2.2 ids are renamed, and a Grid name is never
      renamed again. */
  lemma GridModelNameIdempotent(presetId: string)
    ensures GridModelName(presetId) != presetId ==>
      presetId in {"wan2.2_ti2v_5B", "wan2.2-t2v-a14b", "wan2.2-t2v-a14b-hq"}
    ensures GridModelName(GridModelName(presetId)) == GridModelName(presetId)
  {
  }

  /* ---------------------------------------------------------------------- */
  /* Create-job requests                                                    */
  /* ---------------------------------------------------------------------- */

  /** `GenerationParams` without the floating-point cfg scale and denoise. */
  datatype GenerationParams = GenerationParams(
    width: int,
    height: int,
    steps: int,
    sampler: string,
    scheduler: string,
    seed: string,
    length: int,
    fps: int,
    tiling: bool,
    hiresFix: bool)

  /** `CreateJobRequest` without the API key, which the payload never uses. */
  datatype CreateJobRequest = CreateJobRequest(
    modelId: string,
    prompt: string,
    negativePrompt: string,
    walletAddress: string,
    params: GenerationParams,
    nsfw: bool,
    isPublic: bool,
    sourceImage: string,
    sourceMask: string,
    sourceProcessing: string,
    mediaType: string)

  /** `CreateJobRequest.Validate`: `None` when valid, else the error text. */
  function Validate(r: CreateJobRequest): (err: Option<string>)
    ensures err.None? <==> !IsBlank(r.prompt) && !IsBlank(r.modelId)
    ensures IsBlank(r.prompt) ==> err == Some("prompt is required")
    ensures !IsBlank(r.prompt) && IsBlank(r.modelId) ==> err == Some("modelId is required")
  {
    if IsBlank(r.prompt) then Some("prompt is required")
    else if IsBlank(r.modelId) then Some("modelId is required")
    else None
  }

  /** The `params` object of the payload. A key that Go adds to the map only
      conditionally is an `Option`; `length` stands for both the `length`
      and `video_length` keys, which always carry the same value. */
  datatype JobParams = JobParams(
    samplerName: string,
    scheduler: string,
    steps: int,
    karras: bool,
    hiresFix: bool,
    tiling: bool,
    width: Option<int>,
    height: Option<int>,
    seed: Option<string>,
    length: Option<int>,
    fps: Option<int>)

  /** `aipg.CreateJobPayload` without the unused `Extra` field. */
  datatype JobPayload = JobPayload(
    prompt: string,
    negativePrompt: string,
    models: seq<string>,
    nsfw: bool,
    censorNsfw: bool,
    trustedWorkers: bool,
    r2: bool,
    shared: bool,
    params: JobParams,
    sourceImage: string,
    sourceProcessing: string,
    sourceMask: string,
    walletAddress: string,
    mediaType: string)

  /** A size-like key is sent only when its value is positive. */
  function IfPositive(v: int): (r: Option<int>)
    ensures r.Some? <==> v > 0
    ensures r.Some? ==> r.value == v
  {
    if v > 0 then Some(v) else None
  }

  /** The source-processing mode a request without one gets: an image or a
      video job, from text or from a source image. */
  function DefaultSourceProcessing(presetKind: string, sourceImage: string): (mode: string)
    ensures mode in {"img2video", "img2img"} <==> sourceImage != []
    ensures mode in {"img2video", "txt2video"} <==> presetKind == "video"
    ensures mode in {"img2video", "txt2video", "img2img", "txt2img"}
  {
    if presetKind == "video" then (if sourceImage != [] then "img2video" else "txt2video")
    else if sourceImage != [] then "img2img" else "txt2img"
  }

  /** The `params` map: user values checked against the preset's limits,
      the sampler in Grid form, and the optional keys present exactly when
      their value is positive (or, for the seed, non-empty). */
  function BuildJobParams(gp: GenerationParams, preset: ModelPreset): (jp: JobParams)
    ensures jp.samplerName in GridSamplers
    ensures jp.samplerName == MapSamplerName(PickString(gp.sampler, preset.defaults.sampler))
    ensures jp.scheduler == PickString(gp.scheduler, preset.defaults.scheduler)
    ensures jp.karras <==> ToLower(jp.scheduler) == "karras"
    ensures jp.steps == PickIntInRange(gp.steps, preset.defaults.steps, preset.limits.steps)
    ensures jp.width == IfPositive(PickIntInRange(gp.width, preset.defaults.width, preset.limits.width))
    ensures jp.height == IfPositive(PickIntInRange(gp.height, preset.defaults.height, preset.limits.height))
    ensures jp.length == IfPositive(PickIntInRange(gp.length, preset.defaults.length, preset.limits.length))
    ensures jp.fps == IfPositive(PickIntInRange(gp.fps, preset.defaults.fps, preset.limits.fps))
    ensures jp.seed.Some? <==> gp.seed != []
    ensures jp.seed.Some? ==> jp.seed.value == gp.seed
    ensures jp.hiresFix == gp.hiresFix && jp.tiling == gp.tiling
  {
    var rawSampler := PickString(gp.sampler, preset.defaults.sampler);
    var width := PickIntInRange(gp.width, preset.defaults.width, preset.limits.width);
    var height := PickIntInRange(gp.height, preset.defaults.height, preset.limits.height);
    var steps := PickIntInRange(gp.steps, preset.defaults.steps, preset.limits.steps);
    var scheduler := PickString(gp.scheduler, preset.defaults.scheduler);
    var videoLength := PickIntInRange(gp.length, preset.defaults.length, preset.limits.length);
    var fps := PickIntInRange(gp.fps, preset.defaults.fps, preset.limits.fps);
    JobParams(
      samplerName := MapSamplerName(rawSampler),
      scheduler := scheduler,
      steps := steps,
      karras := ToLower(scheduler) == "karras",
      hiresFix := gp.hiresFix,
      tiling := gp.tiling,
      width := IfPositive(width),
      height := IfPositive(height),
      seed := if gp.seed != [] then Some(gp.seed) else None,
      length := IfPositive(videoLength),
      fps := IfPositive(fps))
  }

  /** `buildCreateJobPayload`, without its logging. */
  function BuildCreateJobPayload(req: CreateJobRequest, preset: ModelPreset): (p: JobPayload)
    ensures p.prompt == ProcessPrompts(req.prompt, req.negativePrompt, preset.id).0
    ensures p.negativePrompt == ProcessPrompts(req.prompt, req.negativePrompt, preset.id).1
    ensures p.models == [GridModelName(preset.id)]
    ensures p.censorNsfw == !p.nsfw && p.nsfw == req.nsfw
    ensures p.trustedWorkers && p.r2 && p.shared == req.isPublic
    ensures p.params == BuildJobParams(req.params, preset)
    ensures req.sourceProcessing != [] ==> p.sourceProcessing == req.sourceProcessing
    ensures req.sourceProcessing == [] ==> p.sourceProcessing == DefaultSourceProcessing(preset.kind, req.sourceImage)
    ensures p.mediaType == if req.mediaType == [] then preset.kind else req.mediaType
    ensures p.sourceImage == req.sourceImage && p.sourceMask == req.sourceMask
    ensures p.walletAddress == req.walletAddress
  {
    AssemblePayload(req, preset, ProcessPrompts(req.prompt, req.negativePrompt, preset.id))
  }

  /** The payload around an already processed prompt pair. */
  function AssemblePayload(req: CreateJobRequest, preset: ModelPreset, prompts: (string, string)): (p: JobPayload)
    ensures p.prompt == prompts.0 && p.negativePrompt == prompts.1
    ensures p.models == [GridModelName(preset.id)]
    ensures p.censorNsfw == !p.nsfw && p.nsfw == req.nsfw
    ensures p.trustedWorkers && p.r2 && p.shared == req.isPublic
    ensures p.params == BuildJobParams(req.params, preset)
    ensures req.sourceProcessing != [] ==> p.sourceProcessing == req.sourceProcessing
    ensures req.sourceProcessing == [] ==> p.sourceProcessing == DefaultSourceProcessing(preset.kind, req.sourceImage)
    ensures p.mediaType == if req.mediaType == [] then preset.kind else req.mediaType
    ensures p.sourceImage == req.sourceImage && p.sourceMask == req.sourceMask
    ensures p.walletAddress == req.walletAddress
  {
    var sourceProcessing :=
      if req.sourceProcessing == [] then DefaultSourceProcessing(preset.kind, req.sourceImage)
      else req.sourceProcessing;
    var mediaType := if req.mediaType == [] then preset.kind else req.mediaType;
    JobPayload(
      prompt := prompts.0,
      negativePrompt := prompts.1,
      models := [GridModelName(preset.id)],
      nsfw := req.nsfw,
      censorNsfw := !req.nsfw,
      trustedWorkers := true,
      r2 := true,
      shared := req.isPublic,
      params := BuildJobParams(req.params, preset),
      sourceImage := req.sourceImage,
      sourceProcessing := sourceProcessing,
      sourceMask := req.sourceMask,
      walletAddress := req.walletAddress,
      mediaType := mediaType)
  }

  /** What the payload promises the Grid API, for every request and preset:
      prompts within 512 characters, a Grid sampler, a known source-processing
      mode whenever the request left it empty, and the NSFW censor flag the
      opposite of the NSFW flag. */
  lemma PayloadWellFormed(req: CreateJobRequest, preset: ModelPreset)
    ensures var p := BuildCreateJobPayload(req, preset);
      && |p.prompt| <= MaxPromptLength && |p.negativePrompt| <= MaxPromptLength
      && p.params.samplerName in GridSamplers
      && (req.sourceProcessing == [] ==> p.sourceProcessing in {"img2video", "txt2video", "img2img", "txt2img"})
      && p.censorNsfw != p.nsfw
      && |p.models| == 1
  {
  }

  /* ---------------------------------------------------------------------- */
  /* Job-status views                                                       */
  /* ---------------------------------------------------------------------- */

  /** `aipg.Generation`. The JSON seed is any JSON value and is rendered with
      `%v`; the model takes the rendered text. */
  datatype Generation = Generation(
    id: string,
    img: string,
    imgUrl: string,
    image: string,
    mime: string,
    seed: string,
    workerId: string,
    worker: string,
    state: string,
    video: string)

  /** `aipg.JobStatusResponse` without the wait time and message. */
  datatype JobStatusResponse = JobStatusResponse(
    id: string,
    done: bool,
    faulted: bool,
    processing: int,
    finished: int,
    waiting: int,
    queuePosition: int,
    generations: seq<Generation>)

  datatype GenerationView = GenerationView(
    id: string,
    seed: string,
    kind: string,
    mimeType: string,
    url: string,
    base64: string,
    workerId: string,
    workerName: string)

  /** `JobView` without the wait time. */
  datatype JobView = JobView(
    jobId: string,
    status: string,
    faulted: bool,
    queuePosition: int,
    processing: int,
    finished: int,
    waiting: int,
    generations: seq<GenerationView>)

  /** The position of the first value that is not blank, or `|values|`. */
  function FirstNonBlank(values: seq<string>): (k: nat)
    ensures k <= |values|
    ensures forall j :: 0 <= j < k ==> IsBlank(values[j])
    ensures k < |values| ==> !IsBlank(values[k])
  {
    if values == [] then 0
    else if !IsBlank(values[0]) then 0
    else FirstNonBlank(values[1..]) + 1
  }

  /** `firstNonEmpty`: the first value that is not blank, returned as given,
      or the empty string when every value is blank. */
  function FirstNonEmpty(values: seq<string>): (r: string)
    ensures r == [] <==> forall i :: 0 <= i < |values| ==> IsBlank(values[i])
    ensures r != [] ==> r == values[FirstNonBlank(values)]
  {
    var k := FirstNonBlank(values);
    if k < |values| then values[k] else []
  }

  const DataImagePrefix: string := "data:image"
  const WebpDataUrlPrefix: string := "data:image/webp;base64,"

  /** `normalizeBase64`: blank gives the empty string; a data URL is kept
      (trimmed); bare base64 longer than 50 characters gets a WebP data-URL
      prefix; anything shorter is dropped. */
  function NormalizeBase64(raw: string): (r: string)
    ensures r == [] || HasPrefix(r, DataImagePrefix)
    ensures IsBlank(raw) ==> r == []
    ensures HasPrefix(TrimSpace(raw), DataImagePrefix) ==> r == TrimSpace(raw)
    ensures !HasPrefix(TrimSpace(raw), DataImagePrefix) && |TrimSpace(raw)| > 50 ==>
      r == WebpDataUrlPrefix + TrimSpace(raw)
    ensures !HasPrefix(TrimSpace(raw), DataImagePrefix) && |TrimSpace(raw)| <= 50 ==> r == []
  {
    var data := TrimSpace(raw);
    if data == [] then []
    else if HasPrefix(data, DataImagePrefix) then data
    else if |data| > 50 then (WebpHasImagePrefix(data); WebpDataUrlPrefix + data)
    else []
  }

  lemma WebpHasImagePrefix(data: string)
    ensures HasPrefix(WebpDataUrlPrefix + data, DataImagePrefix)
  {
    assert WebpDataUrlPrefix[..10] == DataImagePrefix;
    assert (WebpDataUrlPrefix + data)[..10] == WebpDataUrlPrefix[..10];
  }

  /** The WebP data URL built from a trimmed payload has nothing to trim. */
  lemma WebpDataUrlTrimmed(data: string)
    requires data != [] && !IsGoSpace(data[|data| - 1])
    ensures TrimSpace(WebpDataUrlPrefix + data) == WebpDataUrlPrefix + data
  {
    var r := WebpDataUrlPrefix + data;
    assert r[|r| - 1] == data[|data| - 1];
    assert r[0] == 'd';
    TrimmedIsFixpoint(r, IsGoSpace);
  }

  /** Normalising a normalised value changes nothing. */
  lemma NormalizeBase64Idempotent(raw: string)
    ensures NormalizeBase64(NormalizeBase64(raw)) == NormalizeBase64(raw)
  {
    var data := TrimSpace(raw);
    var r := NormalizeBase64(raw);
    if r == [] {
      assert IsBlank(r);
    } else if HasPrefix(data, DataImagePrefix) {
      TrimSpaceIdempotent(raw);
      assert r == data && TrimSpace(r) == r;
    } else {
      assert r == WebpDataUrlPrefix + data;
      WebpDataUrlTrimmed(data);
      WebpHasImagePrefix(data);
      assert TrimSpace(r) == r && HasPrefix(r, DataImagePrefix);
    }
  }

  /** The status word, by priority: faulted, completed, processing, queued. */
  function StatusOf(resp: JobStatusResponse): (s: string)
    ensures s == "faulted" <==> resp.faulted
    ensures s == "completed" <==> !resp.faulted && resp.done
    ensures s == "processing" <==> !resp.faulted && !resp.done && resp.processing > 0
    ensures s == "queued" <==> !resp.faulted && !resp.done && resp.processing <= 0
  {
    if resp.faulted then "faulted"
    else if resp.done then "completed"
    else if resp.processing > 0 then "processing"
    else "queued"
  }

  /** The view of one generation. A generation is a video when it names a
      video or its MIME type mentions video; its URLs go through the CDN
      converter, and an image without base64 data whose URL is itself a
      data URL shows that URL as its base64 data. */
  function GenerationViewOf(gen: Generation, parsePath: string -> Option<string>): (v: GenerationView)
    ensures v.id == gen.id && v.seed == gen.seed && v.mimeType == gen.mime
    ensures v.workerId == gen.workerId && v.workerName == gen.worker
    ensures v.kind == "video" <==> gen.video != [] || Contains(ToLower(gen.mime), "video")
    ensures v.kind != "video" ==> v.kind == "image"
    ensures v.kind == "video" ==> v.base64 == []
    ensures v.base64 == [] || HasPrefix(v.base64, DataImagePrefix)
    ensures v.url == [] || ConvertToCDN(v.url, parsePath) == v.url
    ensures gen.video != [] ==> v.url == ConvertToCDN(gen.video, parsePath)
    ensures gen.video == [] && Contains(ToLower(gen.mime), "video") ==>
      v.url == ConvertToCDN(FirstNonEmpty([gen.video, gen.imgUrl, gen.img]), parsePath)
    ensures v.kind == "image" ==>
      var rawUrl := FirstNonEmpty([gen.imgUrl, gen.img]);
      var b64 := NormalizeBase64(gen.image);
      && (b64 == [] && HasPrefix(rawUrl, DataImagePrefix) ==> v.base64 == rawUrl && v.url == [])
      && (!(b64 == [] && HasPrefix(rawUrl, DataImagePrefix)) ==>
            v.base64 == b64 && v.url == ConvertToCDN(rawUrl, parsePath))
  {
    var base := GenerationView(gen.id, gen.seed, "", gen.mime, [], [], gen.workerId, gen.worker);
    if gen.video != [] then
      ConvertIdempotent(gen.video, parsePath);
      base.(kind := "video", url := ConvertToCDN(gen.video, parsePath))
    else if Contains(ToLower(gen.mime), "video") then
      var rawUrl := FirstNonEmpty([gen.video, gen.imgUrl, gen.img]);
      ConvertIdempotent(rawUrl, parsePath);
      base.(kind := "video", url := if rawUrl != [] then ConvertToCDN(rawUrl, parsePath) else [])
    else
      var rawUrl := FirstNonEmpty([gen.imgUrl, gen.img]);
      var b64 := NormalizeBase64(gen.image);
      ConvertIdempotent(rawUrl, parsePath);
      if b64 == [] && HasPrefix(rawUrl, DataImagePrefix) then
        base.(kind := "image", base64 := rawUrl, url := [])
      else if rawUrl != [] then
        base.(kind := "image", base64 := b64, url := ConvertToCDN(rawUrl, parsePath))
      else
        base.(kind := "image", base64 := b64)
  }

  /** `buildJobView`: the status by priority and one view per generation, in
      order; the counters are copied. */
  function BuildJobView(resp: JobStatusResponse, parsePath: string -> Option<string>): (v: JobView)
    ensures v.jobId == resp.id && v.faulted == resp.faulted
    ensures v.status == StatusOf(resp)
    ensures v.processing == resp.processing && v.finished == resp.finished
    ensures v.waiting == resp.waiting && v.queuePosition == resp.queuePosition
    ensures |v.generations| == |resp.generations|
    ensures forall i :: 0 <= i < |v.generations| ==>
      v.generations[i] == GenerationViewOf(resp.generations[i], parsePath)
  {
    var views := seq(|resp.generations|, i requires 0 <= i < |resp.generations| =>
      GenerationViewOf(resp.generations[i], parsePath));
    JobView(resp.id, StatusOf(resp), resp.faulted, resp.queuePosition, resp.processing,
      resp.finished, resp.waiting, views)
  }

  /** Every generation in a view keeps the id of the generation it came
      from, a video's URL is the converted video URL, and no URL is changed
      by converting it again. */
  lemma JobViewGenerationsMatch(resp: JobStatusResponse, parsePath: string -> Option<string>)
    ensures var v := BuildJobView(resp, parsePath);
      forall i :: 0 <= i < |v.generations| ==>
        && v.generations[i].id == resp.generations[i].id
        && (resp.generations[i].video != [] ==>
              v.generations[i].kind == "video" && v.generations[i].url == ConvertToCDN(resp.generations[i].video, parsePath))
        && (v.generations[i].url == [] || ConvertToCDN(v.generations[i].url, parsePath) == v.generations[i].url)
  {
  }
}

=== FILE: app_gallery.dfy ===
/**
 * The gallery request rules of the HTTP application (server/internal/app/app.go):
 * how the `limit` and `offset` query parameters of a gallery listing are
 * sanitised, and who may delete a gallery item. The HTTP plumbing around
 * them (routing, JSON replies, the store call) is left out; the item the
 * store finds for the job id is a parameter.
 */
module AppGallery {
  import opened Options
  import opened Strs
  import opened Decimal
  import opened Gallery

  const DefaultPageSize: int := 25
  const MaxPageSize: int := 100

  /** The `limit` query parameter: a decimal integer in `[1, 100]`, or 25. */
  function ParseLimit(limitStr: string): (limit: int)
    ensures 1 <= limit <= MaxPageSize
    ensures (Atoi(limitStr).Some? && 1 <= Atoi(limitStr).value <= MaxPageSize) ==> limit == Atoi(limitStr).value
    ensures !(Atoi(limitStr).Some? && 1 <= Atoi(limitStr).value <= MaxPageSize) ==> limit == DefaultPageSize
  {
    if limitStr != [] then
      match Atoi(limitStr)
      case Some(l) => if l > 0 && l <= MaxPageSize then l else DefaultPageSize
      case None => DefaultPageSize
    else DefaultPageSize
  }

  /** The `offset` query parameter: a non-negative decimal integer, or 0. */
  function ParseOffset(offsetStr: string): (offset: int)
    ensures offset >= 0
    ensures (Atoi(offsetStr).Some? && Atoi(offsetStr).value >= 0) ==> offset == Atoi(offsetStr).value
    ensures !(Atoi(offsetStr).Some? && Atoi(offsetStr).value >= 0) ==> offset == 0
  {
    if offsetStr != [] then
      match Atoi(offsetStr)
      case Some(o) => if o >= 0 then o else 0
      case None => 0
    else 0
  }

  /** A page size a client writes in decimal is taken as written. */
  lemma ParseLimitOfDecimal(n: int)
    requires 1 <= n <= MaxPageSize
    ensures ParseLimit(Itoa(n)) == n
  {
    AtoiItoa(n);
  }

  /** An offset a client writes in decimal is taken as written. */
  lemma ParseOffsetOfDecimal(n: int)
    requires 0 <= n <= MaxInt64
    ensures ParseOffset(Itoa(n)) == n
  {
    AtoiItoa(n);
  }

  /** The decision of `handleDeleteGalleryItem`, with its HTTP status. A
      legacy item (one without a wallet) may be deleted by any wallet. */
  datatype DeleteOutcome =
    | BadRequest      // 400: no job id in the path
    | Unauthorized    // 401: no wallet header
    | NotFound        // 404: no such gallery item
    | Forbidden       // 403: the item belongs to another wallet
    | Proceed(legacy: bool)

  function StatusCode(o: DeleteOutcome): int {
    match o
    case BadRequest => 400
    case Unauthorized => 401
    case NotFound => 404
    case Forbidden => 403
    case Proceed(_) => 200
  }

  /** A wallet address as compared: trimmed and lower-cased. */
  function NormalizeWallet(w: string): (r: string)
    ensures r == [] <==> IsBlank(w)
  {
    BlankIffTrimsToEmpty(w);
    ToLower(TrimSpace(w))
  }

  /** The checks of `handleDeleteGalleryItem` in their order. */
  function DeleteDecision(jobId: string, walletHeader: string, item: Option<GalleryItem>): (o: DeleteOutcome)
    ensures o == BadRequest <==> jobId == []
    ensures o == Unauthorized <==> jobId != [] && IsBlank(walletHeader)
    ensures o == NotFound <==> jobId != [] && !IsBlank(walletHeader) && item.None?
    ensures o.Proceed? <==> (jobId != [] && !IsBlank(walletHeader) && item.Some?
      && (IsBlank(item.value.walletAddress)
          || NormalizeWallet(item.value.walletAddress) == NormalizeWallet(walletHeader)))
    ensures o.Proceed? ==> (o.legacy <==> IsBlank(item.value.walletAddress))
  {
    if jobId == [] then BadRequest
    else
      var requestWallet := NormalizeWallet(walletHeader);
      if requestWallet == [] then Unauthorized
      else match item
        case None => NotFound
        case Some(it) =>
          var itemWallet := NormalizeWallet(it.walletAddress);
          if itemWallet == [] then Proceed(true)
          else if itemWallet != requestWallet then Forbidden
          else Proceed(false)
  }

  /** Only the trimmed, lower-cased header matters: the owner may delete
      with any letter case and surrounding white space. */
  lemma DeleteIgnoresWalletSpelling(jobId: string, h1: string, h2: string, item: Option<GalleryItem>)
    requires NormalizeWallet(h1) == NormalizeWallet(h2)
    ensures DeleteDecision(jobId, h1, item) == DeleteDecision(jobId, h2, item)
  {
  }

  /** The owner of an item may always delete it, and the header may be the
      stored address in lower case. */
  lemma OwnerMayDelete(jobId: string, item: GalleryItem)
    requires jobId != [] && !IsBlank(item.walletAddress)
    ensures DeleteDecision(jobId, item.walletAddress, Some(item)) == Proceed(false)
    ensures DeleteDecision(jobId, ToLower(item.walletAddress), Some(item)) == Proceed(false)
  {
    var w := item.walletAddress;
    TrimSpaceLower(w);
    ToLowerIdempotent(TrimSpace(w));
    assert NormalizeWallet(ToLower(w)) == NormalizeWallet(w);
  }
}

=== FILE: cdn.dfy ===
/**
 * The CDN URL helpers of the R2 storage client (server/internal/r2/client.go):
 * every stored medium is served as `https://images.aipg.art/<file>`, and any
 * other storage URL is rewritten to that form from its last path segment.
 *
 * `url.Parse` is not modelled: it is a parameter `parsePath` that yields the
 * path component of a URL, or `None` when Go's parser reports an error.
 */
module Cdn {
  import opened Options
  import opened Strs

  const CdnPrefix: string := "https://images.aipg.art/"

  /** A file name as served by the CDN: a name without any `.` gets the
      `.webp` extension, a name with one is kept. */
  function WithExtension(name: string): (r: string)
    ensures '.' in r
    ensures '.' in name ==> r == name
    ensures '.' !in name ==> r == name + ".webp"
    ensures '/' !in name ==> '/' !in r
  {
    if '.' in name then name else name + ".webp"
  }

  predicate IsSlash(c: char) {
    c == '/'
  }

  /** The text after the last `sep`, or all of `s` when there is none: the
      last element of `strings.Split(s, sep)`, which is how the source picks
      the file name out of a path. */
  function AfterLast(s: string, sep: char): (r: string)
    ensures sep !in r && HasSuffixOf(s, r)
  {
    s[LastIndexOf(s, sep) + 1..]
  }

  predicate HasSuffixOf(s: string, t: string) {
    |t| <= |s| && s[|s| - |t|..] == t
  }

  /** The CDN URL that serves `file`. */
  function CdnUrl(file: string): (r: string)
    ensures HasPrefix(r, CdnPrefix) && r[|CdnPrefix|..] == file
  {
    CdnPrefix + file
  }

  /** `GenerateMediaURL`: the media type is ignored and the URL always
      succeeds. The URL is already in CDN form, so the converter leaves it
      alone whatever the URL parser does. */
  function GenerateMediaURL(procgenId: string, mediaType: string): (r: string)
    ensures HasPrefix(r, CdnPrefix) && r[|CdnPrefix|..] == procgenId + ".webp"
    ensures forall parsePath: string -> Option<string> :: ConvertToCDN(r, parsePath) == r
  {
    CdnUrl(procgenId + ".webp")
  }

  /** The file name taken from a URL the parser rejected: the last `/`-piece,
      without anything from the first `?` on. */
  function ManualFileName(mediaUrl: string): (r: string)
    ensures '/' !in r && '?' !in r
    ensures HasPrefix(AfterLast(mediaUrl, '/'), r)
    ensures '?' !in AfterLast(mediaUrl, '/') ==> r == AfterLast(mediaUrl, '/')
    ensures |r| < |AfterLast(mediaUrl, '/')| ==> AfterLast(mediaUrl, '/')[|r|] == '?'
  {
    var filename := AfterLast(mediaUrl, '/');
    var q := IndexOf(filename, '?');
    if q != -1 then filename[..q] else filename
  }

  /** `ConvertToCDNURL`. */
  function ConvertToCDN(mediaUrl: string, parsePath: string -> Option<string>): (r: string)
    ensures mediaUrl == [] ==> r == []
    ensures HasPrefix(mediaUrl, CdnPrefix) || HasPrefix(mediaUrl, "data:") ==> r == mediaUrl
    ensures r == mediaUrl || (HasPrefix(r, CdnPrefix) && '/' !in r[|CdnPrefix|..] && '.' in r[|CdnPrefix|..])
    ensures mediaUrl != [] && !HasPrefix(mediaUrl, CdnPrefix) && !HasPrefix(mediaUrl, "data:")
      && parsePath(mediaUrl).None?
      ==> r == CdnUrl(WithExtension(ManualFileName(mediaUrl)))
  {
    if mediaUrl == [] then []
    else if HasPrefix(mediaUrl, CdnPrefix) then mediaUrl
    else if HasPrefix(mediaUrl, "data:") then mediaUrl
    else match parsePath(mediaUrl)
      case None =>
        // `strings.Split` never returns an empty slice, so the manual
        // fallback always builds a CDN URL.
        CdnUrl(WithExtension(ManualFileName(mediaUrl)))
      case Some(p) =>
        var path := TrimBy(p, IsSlash);
        if path == [] then mediaUrl
        else
          var filename := AfterLast(path, '/');
          if filename == [] then mediaUrl
          else CdnUrl(WithExtension(filename))
  }

  /** For a URL the parser accepts, the result is the input when the path is
      only slashes, and otherwise the CDN URL of the path's last segment. */
  lemma ConvertParsedPath(mediaUrl: string, parsePath: string -> Option<string>)
    requires mediaUrl != [] && !HasPrefix(mediaUrl, CdnPrefix) && !HasPrefix(mediaUrl, "data:")
    requires parsePath(mediaUrl).Some?
    ensures var path := TrimBy(parsePath(mediaUrl).value, IsSlash);
      && (path == [] ==> ConvertToCDN(mediaUrl, parsePath) == mediaUrl)
      && (path != [] ==> ConvertToCDN(mediaUrl, parsePath) == CdnUrl(WithExtension(AfterLast(path, '/'))))
  {
    var path := TrimBy(parsePath(mediaUrl).value, IsSlash);
    if path != [] {
      LastSegmentNotEmpty(path);
    }
  }

  /** After trimming `/` from both ends, the last segment of a non-empty path
      is never empty, so the `filename == ""` test of the parsed branch
      cannot succeed. */
  lemma LastSegmentNotEmpty(path: string)
    requires path != [] && path[|path| - 1] != '/'
    ensures AfterLast(path, '/') != []
  {
  }

  /** Converting twice is converting once, whatever the URL parser does. */
  lemma ConvertIdempotent(mediaUrl: string, parsePath: string -> Option<string>)
    ensures ConvertToCDN(ConvertToCDN(mediaUrl, parsePath), parsePath) == ConvertToCDN(mediaUrl, parsePath)
  {
  }
}

=== FILE: config.dfy ===
/**
 * Server configuration from the process environment
 * (server/internal/config/config.go). The environment is a map; a variable
 * that is not set reads as the empty string, as with Go's `os.Getenv`.
 */
module Config {
  import opened Strs

  type Env = map<string, string>

  /** `os.Getenv`. */
  function Getenv(env: Env, key: string): string {
    if key in env then env[key] else []
  }

  /** `getEnv`: the trimmed value when it is not blank, else the fallback. */
  function GetEnv(env: Env, key: string, fallback: string): (r: string)
    ensures IsBlank(Getenv(env, key)) ==> r == fallback
    ensures !IsBlank(Getenv(env, key)) ==>
      && r == TrimSpace(Getenv(env, key))
      && r != [] && !IsGoSpace(r[0]) && !IsGoSpace(r[|r| - 1])
  {
    BlankIffTrimsToEmpty(Getenv(env, key));
    var value := TrimSpace(Getenv(env, key));
    if value != [] then value else fallback
  }

  /** A non-empty entry with no white space at either end. */
  predicate IsCleanEntry(s: string) {
    s != [] && !IsGoSpace(s[0]) && !IsGoSpace(s[|s| - 1])
  }

  /** The cleaning step of `splitAndClean`: trim each piece and drop the
      empty ones, keeping the order. */
  function CleanPieces(parts: seq<string>): seq<string> {
    CleanBy(parts, TrimSpace)
  }

  /** Cleaning with a given trimming function. */
  function CleanBy(parts: seq<string>, trim: string -> string): seq<string>
    decreases |parts|
  {
    if parts == [] then []
    else (if trim(parts[0]) != [] then [trim(parts[0])] else []) + CleanBy(parts[1..], trim)
  }

  /** Every entry is non-empty and has no white space at either end. */
  lemma CleanPiecesAreClean(parts: seq<string>)
    ensures forall i :: 0 <= i < |CleanPieces(parts)| ==> IsCleanEntry(CleanPieces(parts)[i])
  {
    forall p ensures TrimSpace(p) != [] ==> IsCleanEntry(TrimSpace(p)) {
      TrimmedIsClean(p);
    }
    CleanByMembers(parts, TrimSpace);
    forall i | 0 <= i < |CleanPieces(parts)| ensures IsCleanEntry(CleanPieces(parts)[i]) {
      assert CleanPieces(parts)[i] in CleanBy(parts, TrimSpace);
    }
  }

  /** A text is an entry exactly when it is non-empty and some piece trims
      to it. */
  lemma CleanPiecesMembers(parts: seq<string>)
    ensures forall x :: x in CleanPieces(parts) <==>
      x != [] && exists j :: 0 <= j < |parts| && TrimSpace(parts[j]) == x
  {
    CleanByMembers(parts, TrimSpace);
  }

  lemma {:induction false} CleanByMembers(parts: seq<string>, trim: string -> string)
    ensures forall x :: x in CleanBy(parts, trim) <==>
      x != [] && exists j :: 0 <= j < |parts| && trim(parts[j]) == x
    decreases |parts|
  {
    if parts != [] {
      CleanByMembers(parts[1..], trim);
      assert forall j :: 1 <= j < |parts| ==> parts[j] == parts[1..][j - 1];
    }
  }

  /** Cleaning works piece by piece, so the entries keep the order of the
      pieces they come from. */
  lemma CleanPiecesAppend(a: seq<string>, b: seq<string>)
    ensures CleanPieces(a + b) == CleanPieces(a) + CleanPieces(b)
  {
    CleanByAppend(a, b, TrimSpace);
  }

  lemma {:induction false} CleanByAppend(a: seq<string>, b: seq<string>, trim: string -> string)
    ensures CleanBy(a + b, trim) == CleanBy(a, trim) + CleanBy(b, trim)
    decreases |a|
  {
    if a == [] {
      assert a + b == b;
    } else {
      assert (a + b)[0] == a[0] && (a + b)[1..] == a[1..] + b;
      CleanByAppend(a[1..], b, trim);
    }
  }

  /** One piece is cleaned to its trimmed text, or to nothing when blank. */
  lemma CleanOne(p: string)
    ensures CleanPieces([p]) == if TrimSpace(p) != [] then [TrimSpace(p)] else []
  {
    var h := if TrimSpace(p) != [] then [TrimSpace(p)] else [];
    assert [p][1..] == [];
    assert CleanBy([p], TrimSpace) == h + CleanBy([], TrimSpace);
    assert h + [] == h;
  }

  lemma TrimmedIsClean(s: string)
    ensures TrimSpace(s) != [] ==> IsCleanEntry(TrimSpace(s))
  {
  }

  /** `splitAndClean`: the comma-separated, trimmed, non-empty entries of a
      list such as `GALLERY_ALLOWED_ORIGINS`, in order. */
  function SplitAndClean(raw: string): (out: seq<string>)
    ensures raw == [] ==> out == []
    ensures raw != [] ==> out == CleanPieces(Split(raw, ','))
    ensures forall i :: 0 <= i < |out| ==> IsCleanEntry(out[i]) && ',' !in out[i]
  {
    if raw == [] then []
    else
      var parts := Split(raw, ',');
      SplitPiecesLackSep(raw, ',');
      CleanPiecesAreClean(parts);
      CleanKeepsCommaFree(parts);
      CleanPieces(parts)
  }

  /** Trimming never adds a character, so comma-free pieces stay comma-free. */
  lemma CleanKeepsCommaFree(parts: seq<string>)
    requires forall i :: 0 <= i < |parts| ==> ',' !in parts[i]
    ensures forall i :: 0 <= i < |CleanPieces(parts)| ==> ',' !in CleanPieces(parts)[i]
  {
    CleanPiecesMembers(parts);
    forall i | 0 <= i < |CleanPieces(parts)| ensures ',' !in CleanPieces(parts)[i] {
      var x := CleanPieces(parts)[i];
      assert x in CleanPieces(parts);
      var j :| 0 <= j < |parts| && TrimSpace(parts[j]) == x;
      TrimByChars(parts[j], IsGoSpace);
    }
  }

  /** Splitting joined pieces and cleaning them gives the pieces trimmed,
      with the blank ones dropped, whatever white space pads them. */
  lemma SplitAndCleanOfJoin(pieces: seq<string>)
    requires |pieces| >= 1
    requires forall i :: 0 <= i < |pieces| ==> ',' !in pieces[i]
    ensures SplitAndClean(Join(pieces, ',')) == CleanPieces(pieces)
  {
    SplitJoin(pieces, ',');
    if Join(pieces, ',') == [] {
      JoinEmpty(pieces);
      CleanOne(pieces[0]);
    }
  }

  lemma JoinEmpty(parts: seq<string>)
    requires |parts| >= 1 && Join(parts, ',') == []
    ensures parts == [[]]
  {
  }

  /** Padding around entries and an empty entry between them are dropped:
      `" a ,, b"` gives `a` and `b`, for any clean, comma-free `a` and `b`. */
  lemma SplitAndCleanDropsPadding(a: string, b: string)
    requires IsCleanEntry(a) && IsCleanEntry(b) && ',' !in a && ',' !in b
    ensures SplitAndClean(" " + a + " ,, " + b) == [a, b]
  {
    var pieces := [" " + a + " ", "", " " + b];
    PaddedPiecesJoin(a, b);
    SplitAndCleanOfJoin(pieces);
    PaddedPiecesClean(a, b);
  }

  lemma PaddedPiecesJoin(a: string, b: string)
    requires ',' !in a && ',' !in b
    ensures Join([" " + a + " ", "", " " + b], ',') == " " + a + " ,, " + b
    ensures forall i :: 0 <= i < 3 ==> ',' !in [" " + a + " ", "", " " + b][i]
  {
    var pieces := [" " + a + " ", "", " " + b];
    assert Join(pieces[2..], ',') == " " + b;
    assert Join(pieces[1..], ',') == [','] + " " + b;
  }

  lemma PaddedPiecesClean(a: string, b: string)
    requires IsCleanEntry(a) && IsCleanEntry(b)
    ensures CleanPieces([" " + a + " ", "", " " + b]) == [a, b]
  {
    var pieces := [" " + a + " ", "", " " + b];
    CleanThree(pieces[0], pieces[1], pieces[2]);
    CleanPadded(" ", a, " ");
    assert " " + b == " " + b + "";
    CleanPadded(" ", b, "");
    CleanOne("");
  }

  lemma CleanPadded(w1: string, s: string, w2: string)
    requires forall i :: 0 <= i < |w1| ==> IsGoSpace(w1[i])
    requires forall i :: 0 <= i < |w2| ==> IsGoSpace(w2[i])
    requires s != [] && !IsGoSpace(s[0]) && !IsGoSpace(s[|s| - 1])
    ensures CleanPieces([w1 + s + w2]) == [s]
  {
    TrimPadded(w1, s, w2, IsGoSpace);
    CleanOne(w1 + s + w2);
  }

  lemma CleanThree(x: string, y: string, z: string)
    ensures CleanPieces([x, y, z]) == CleanPieces([x]) + CleanPieces([y]) + CleanPieces([z])
  {
    assert [x, y, z] == [x] + [y, z] && [y, z] == [y] + [z];
    CleanPiecesAppend([x], [y, z]);
    CleanPiecesAppend([y], [z]);
  }

  /** Entries that are already clean survive a join and a split-and-clean
      unchanged. */
  lemma {:induction false} SplitAndCleanJoin(entries: seq<string>)
    requires |entries| >= 1
    requires forall i :: 0 <= i < |entries| ==> IsCleanEntry(entries[i]) && ',' !in entries[i]
    ensures SplitAndClean(Join(entries, ',')) == entries
  {
    SplitJoin(entries, ',');
    assert Join(entries, ',') != [] by {
      JoinNotEmpty(entries, ',');
    }
    CleanOfClean(entries);
  }

  lemma JoinNotEmpty(parts: seq<string>, sep: char)
    requires |parts| >= 1 && parts[0] != []
    ensures Join(parts, sep) != []
  {
  }

  lemma {:induction false} CleanOfClean(entries: seq<string>)
    requires forall i :: 0 <= i < |entries| ==> IsCleanEntry(entries[i])
    ensures CleanPieces(entries) == entries
    decreases |entries|
  {
    if entries != [] {
      TrimmedIsFixpoint(entries[0], IsGoSpace);
      CleanOfClean(entries[1..]);
    }
  }

  /** `Config` as the server reads it. */
  datatype Config = Config(
    address: string,
    apiBaseUrl: string,
    clientAgent: string,
    defaultApiKey: string,
    modelPresetPath: string,
    allowedOrigins: seq<string>,
    galleryStorePath: string,
    modelVaultEnabled: bool,
    modelVaultRpcUrl: string,
    modelVaultContractAddress: string,
    r2Enabled: bool,
    r2TransientEndpoint: string,
    r2TransientBucket: string,
    r2PermanentBucket: string,
    r2AccessKeyId: string,
    r2AccessKeySecret: string,
    r2SharedAccessKeyId: string,
    r2SharedAccessKey: string)

  /** `Load`. */
  function Load(env: Env): (c: Config)
    ensures c.modelVaultEnabled <==>
      (IsBlank(Getenv(env, "MODELVAULT_ENABLED")) || TrimSpace(Getenv(env, "MODELVAULT_ENABLED")) == "true")
    ensures c.r2Enabled <==> Getenv(env, "AWS_ACCESS_KEY_ID") != [] || Getenv(env, "SHARED_AWS_ACCESS_ID") != []
    ensures IsBlank(Getenv(env, "GALLERY_SERVER_ADDR")) ==> c.address == ":4000"
    ensures c.allowedOrigins == SplitAndClean(Getenv(env, "GALLERY_ALLOWED_ORIGINS"))
    ensures c.defaultApiKey == Getenv(env, "AIPG_API_KEY")
  {
    Config(
      address := GetEnv(env, "GALLERY_SERVER_ADDR", ":4000"),
      apiBaseUrl := GetEnv(env, "AIPG_API_URL", "https://api.aipowergrid.io/api/v2"),
      clientAgent := GetEnv(env, "AIPG_CLIENT_AGENT", "AIPG-Art-Gallery:v2"),
      defaultApiKey := Getenv(env, "AIPG_API_KEY"),
      modelPresetPath := GetEnv(env, "MODEL_PRESETS_PATH", "./server/config/model_presets.json"),
      allowedOrigins := SplitAndClean(Getenv(env, "GALLERY_ALLOWED_ORIGINS")),
      galleryStorePath := GetEnv(env, "GALLERY_STORE_PATH", "./data/gallery.json"),
      modelVaultEnabled := GetEnv(env, "MODELVAULT_ENABLED", "true") == "true",
      modelVaultRpcUrl := GetEnv(env, "MODELVAULT_RPC_URL", "https://mainnet.base.org"),
      modelVaultContractAddress := GetEnv(env, "MODELVAULT_CONTRACT", "0x79F39f2a0eA476f53994812e6a8f3C8CFe08c609"),
      r2Enabled := Getenv(env, "AWS_ACCESS_KEY_ID") != [] || Getenv(env, "SHARED_AWS_ACCESS_ID") != [],
      r2TransientEndpoint := GetEnv(env, "R2_TRANSIENT_ACCOUNT",
        "https://a223539ccf6caa2d76459c9727d276e6.r2.cloudflarestorage.com"),
      r2TransientBucket := GetEnv(env, "R2_TRANSIENT_BUCKET", "horde-transient"),
      r2PermanentBucket := GetEnv(env, "R2_PERMANENT_BUCKET", "horde-permanent"),
      r2AccessKeyId := Getenv(env, "AWS_ACCESS_KEY_ID"),
      r2AccessKeySecret := Getenv(env, "AWS_SECRET_ACCESS_KEY"),
      r2SharedAccessKeyId := Getenv(env, "SHARED_AWS_ACCESS_ID"),
      r2SharedAccessKey := Getenv(env, "SHARED_AWS_ACCESS_KEY"))
  }

  /** With nothing set, the model vault is on and R2 is off. */
  lemma EmptyEnvironmentDefaults()
    ensures Load(map[]).modelVaultEnabled && !Load(map[]).r2Enabled
    ensures Load(map[]).allowedOrigins == []
  {
  }

  /** A white-space-only access key still switches R2 on: the R2 flag reads
      the variables untrimmed, unlike every `getEnv` setting. */
  lemma BlankAccessKeyEnablesR2()
    ensures Load(map["AWS_ACCESS_KEY_ID" := " "]).r2Enabled
  {
  }
}

=== FILE: decimal.dfy ===
/**
 * Decimal integers as text: Go's `strconv.Atoi` (used to read the `limit`
 * and `offset` query parameters) and the `%d` / `strconv.Itoa` rendering
 * (used in error messages), on the platform's 64-bit `int`.
 */
module Decimal {
  import opened Options

  const MinInt64: int := -0x8000_0000_0000_0000
  const MaxInt64: int := 0x7FFF_FFFF_FFFF_FFFF

  predicate IsDigit(c: char) {
    '0' <= c <= '9'
  }

  predicate AllDigits(s: string) {
    forall i :: 0 <= i < |s| ==> IsDigit(s[i])
  }

  /** The value of a run of decimal digits, most significant first. */
  function DigitsValue(s: string): nat
    requires AllDigits(s)
  {
    if s == [] then 0
    else DigitsValue(s[..|s| - 1]) * 10 + (s[|s| - 1] as int - '0' as int)
  }

  /** `strconv.Atoi`: an optional `+` or `-` followed by at least one decimal
      digit, with a value inside the 64-bit range; anything else (the empty
      string included) is a syntax or range error, modelled as `None`. */
  function Atoi(s: string): (r: Option<int>)
    ensures r.Some? ==> MinInt64 <= r.value <= MaxInt64
    ensures r.Some? ==> |s| > 0
    ensures r.Some? && AllDigits(s) ==> r.value >= 0
  {
    if s == [] then None
    else
      var negative := s[0] == '-';
      var body := if s[0] == '-' || s[0] == '+' then s[1..] else s;
      if body == [] || !AllDigits(body) then None
      else
        var v: int := if negative then 0 - (DigitsValue(body) as int) else DigitsValue(body) as int;
        if v < MinInt64 || v > MaxInt64 then None else Some(v)
  }

  /** The decimal digits of a natural number, without leading zeros. */
  function NatDigits(n: nat): (s: string)
    ensures |s| >= 1 && AllDigits(s)
    ensures DigitsValue(s) == n
    ensures s[0] != '0' || n == 0
    decreases n
  {
    var last := ['0' + ((n % 10) as char)] ;
    if n < 10 then last
    else
      var front := NatDigits(n / 10);
      assert (front + last)[..|front + last| - 1] == front;
      front + last
  }

  /** `strconv.Itoa` / `fmt.Sprintf("%d", n)`. */
  function Itoa(n: int): string {
    if n < 0 then "-" + NatDigits(-n) else NatDigits(n)
  }

  /** Reading back a rendered 64-bit integer gives the integer. */
  lemma AtoiItoa(n: int)
    requires MinInt64 <= n <= MaxInt64
    ensures Atoi(Itoa(n)) == Some(n)
  {
    var s := Itoa(n);
    if n < 0 {
      assert s[1..] == NatDigits(-n);
    }
  }
}

=== FILE: gallery.dfy ===
/**
 * The in-memory gallery store (server/internal/gallery/store.go): a list of
 * generations, newest first, capped at `maxItems`, with at most one entry per
 * job id. The store is a value here and every mutating method returns the
 * next store. The clock read by `Add` is a parameter. File persistence and
 * the mutex are left out.
 */
module Gallery {
  import opened Strs

  /** `GalleryItem`; `kind` is the JSON `type` field ("image" or "video"). */
  datatype GalleryItem = GalleryItem(
    jobId: string,
    modelId: string,
    modelName: string,
    prompt: string,
    negativePrompt: string,
    kind: string,
    isNsfw: bool,
    isPublic: bool,
    walletAddress: string,
    createdAt: int)

  /** `Store` without its file path and lock. Go's `items[:maxItems]` panics
      on a negative bound, so the bound is a `nat`. */
  datatype Store = Store(items: seq<GalleryItem>, maxItems: nat)

  /** No two items share a job id: the invariant `Add` and `Remove` keep. */
  predicate DistinctJobIds(items: seq<GalleryItem>) {
    forall i, j :: 0 <= i < j < |items| ==> items[i].jobId != items[j].jobId
  }

  predicate HasJob(items: seq<GalleryItem>, jobId: string) {
    exists i :: 0 <= i < |items| && items[i].jobId == jobId
  }

  /** The first `n` elements, or all of them when there are fewer. */
  function Take<T>(xs: seq<T>, n: nat): (r: seq<T>)
    ensures |r| == if |xs| <= n then |xs| else n
    ensures r == xs[..|r|]
  {
    if |xs| <= n then xs else xs[..n]
  }

  /** The elements of `xs` that satisfy `keep`, in order. */
  function Filter<T>(xs: seq<T>, keep: T -> bool): (r: seq<T>)
    ensures |r| <= |xs|
    ensures forall i :: 0 <= i < |r| ==> keep(r[i]) && r[i] in xs
    decreases |xs|
  {
    if xs == [] then []
    else
      var last := xs[|xs| - 1];
      Filter(xs[..|xs| - 1], keep) + (if keep(last) then [last] else [])
  }

  /** Filtering a prefix gives a prefix of the filtered whole. */
  lemma {:induction false} FilterPrefix<T>(xs: seq<T>, keep: T -> bool, n: nat)
    requires n <= |xs|
    ensures var f := Filter(xs[..n], keep); |f| <= |Filter(xs, keep)| && Filter(xs, keep)[..|f|] == f
    decreases |xs| - n
  {
    if n < |xs| {
      FilterPrefix(xs, keep, n + 1);
      assert xs[..n + 1][..n] == xs[..n];
    } else {
      assert xs[..n] == xs;
    }
  }

  /** `Add`: a job already in the store changes nothing. Otherwise the item,
      stamped with `now` when it carries no creation time, goes in front of
      the others and the list is cut to `maxItems`. */
  function Add(s: Store, item: GalleryItem, now: int): (r: Store)
    ensures r.maxItems == s.maxItems
    ensures HasJob(s.items, item.jobId) ==> r == s
    ensures !HasJob(s.items, item.jobId) ==>
      && |r.items| == (if |s.items| + 1 <= s.maxItems then |s.items| + 1 else s.maxItems)
      && (|r.items| > 0 ==>
            && r.items[0] == item.(createdAt := if item.createdAt == 0 then now else item.createdAt)
            && r.items[1..] == s.items[..|r.items| - 1])
    ensures DistinctJobIds(s.items) ==> DistinctJobIds(r.items)
  {
    if HasJob(s.items, item.jobId) then s
    else
      var stamped := if item.createdAt == 0 then item.(createdAt := now) else item;
      var prepended := [stamped] + s.items;
      var kept := if |prepended| > s.maxItems then prepended[..s.maxItems] else prepended;
      assert kept == prepended[..|kept|];
      assert forall i :: 1 <= i < |kept| ==> kept[i] == s.items[i - 1];
      Store(kept, s.maxItems)
  }

  /** Adding the same item twice is adding it once. */
  lemma AddIdempotent(s: Store, item: GalleryItem, now: int)
    ensures Add(Add(s, item, now), item, now) == Add(s, item, now)
  {
    var r := Add(s, item, now);
    if !HasJob(s.items, item.jobId) && s.maxItems > 0 {
      assert r.items[0].jobId == item.jobId;
    }
  }

  /** Does `item` appear in the public listing for `typeFilter`? */
  predicate Listed(item: GalleryItem, typeFilter: string) {
    item.isPublic && (typeFilter == "" || typeFilter == "all" || item.kind == typeFilter)
  }

  /** The effective page size: a non-positive limit means the whole store. */
  function PageSize(limit: int, count: nat): (n: nat)
    ensures limit > 0 ==> n == limit
    ensures limit <= 0 ==> n == count
  {
    if limit <= 0 then count else limit
  }

  /** `List`: the first `limit` public items matching the type filter, in
      store order. */
  method List(s: Store, typeFilter: string, limit: int) returns (result: seq<GalleryItem>)
    ensures result == Take(Filter(s.items, item => Listed(item, typeFilter)), PageSize(limit, |s.items|))
  {
    var keep := item => Listed(item, typeFilter);
    result := Collect(s.items, keep, PageSize(limit, |s.items|));
  }

  /** The item belongs to the wallet, compared without regard to letter case. */
  predicate SameWallet(item: GalleryItem, walletAddress: string) {
    ToLower(item.walletAddress) == ToLower(walletAddress)
  }

  /** `ListByWallet`: an empty wallet lists nothing; otherwise the first
      `limit` items whose wallet equals the query up to letter case, in store
      order. */
  method ListByWallet(s: Store, walletAddress: string, limit: int) returns (result: seq<GalleryItem>)
    ensures walletAddress == [] ==> result == []
    ensures walletAddress != [] ==>
      result == Take(Filter(s.items, item => SameWallet(item, walletAddress)), PageSize(limit, |s.items|))
  {
    if walletAddress == [] {
      return [];
    }
    var keep := item => SameWallet(item, walletAddress);
    result := Collect(s.items, keep, PageSize(limit, |s.items|));
  }

  /** The scan shared by `List` and `ListByWallet`: append the items `keep`
      accepts and stop once `lim` have been collected. A limit of zero only
      arises from an empty store, where the scan does nothing. */
  method Collect(items: seq<GalleryItem>, keep: GalleryItem -> bool, lim: nat) returns (result: seq<GalleryItem>)
    requires lim > 0 || items == []
    ensures result == Take(Filter(items, keep), lim)
  {
    result := [];
    var i := 0;
    while i < |items|
      invariant 0 <= i <= |items|
      invariant result == Filter(items[..i], keep)
      invariant |result| < lim || items == []
    {
      assert items[..i + 1][..i] == items[..i];
      if keep(items[i]) {
        result := result + [items[i]];
        if |result| >= lim {
          FilterPrefix(items, keep, i + 1);
          return;
        }
      }
      i := i + 1;
    }
    assert items[..i] == items;
  }

  /** The index of the first item with the job id, if any. */
  function FindJob(items: seq<GalleryItem>, jobId: string): (r: int)
    ensures -1 <= r < |items|
    ensures r == -1 <==> !HasJob(items, jobId)
    ensures r >= 0 ==> items[r].jobId == jobId && forall j :: 0 <= j < r ==> items[j].jobId != jobId
  {
    if items == [] then -1
    else if items[0].jobId == jobId then 0
    else
      var k := FindJob(items[1..], jobId);
      if k < 0 then -1 else k + 1
  }

  /** `Remove`: deletes the first item with the job id and reports whether
      there was one; the other items keep their order. */
  function Remove(s: Store, jobId: string): (r: (Store, bool))
    ensures r.1 <==> HasJob(s.items, jobId)
    ensures !r.1 ==> r.0 == s
    ensures r.1 ==> |r.0.items| == |s.items| - 1
    ensures r.0.maxItems == s.maxItems
    ensures forall x :: x in r.0.items ==> x in s.items
    ensures DistinctJobIds(s.items) ==> DistinctJobIds(r.0.items) && !HasJob(r.0.items, jobId)
    ensures DistinctJobIds(s.items) ==>
      forall x :: x in s.items && x.jobId != jobId ==> x in r.0.items
    ensures r.1 ==> exists i :: (0 <= i < |s.items| && s.items[i].jobId == jobId
      && (forall j :: 0 <= j < i ==> s.items[j].jobId != jobId)
      && r.0.items == s.items[..i] + s.items[i + 1..])
  {
    var i := FindJob(s.items, jobId);
    if i < 0 then (s, false)
    else
      var rest := s.items[..i] + s.items[i + 1..];
      RemoveAtFacts(s.items, i);
      assert s.items[i].jobId == jobId && rest == s.items[..i] + s.items[i + 1..];
      (Store(rest, s.maxItems), true)
  }

  /** Deleting index `i` keeps every other element, in order. */
  lemma RemoveAtFacts(items: seq<GalleryItem>, i: int)
    requires 0 <= i < |items|
    ensures var rest := items[..i] + items[i + 1..];
      && (forall j :: 0 <= j < |rest| ==> rest[j] == items[if j < i then j else j + 1])
      && (forall x :: x in rest ==> x in items)
      && (DistinctJobIds(items) ==>
            (DistinctJobIds(rest) && forall j :: 0 <= j < |rest| ==> rest[j].jobId != items[i].jobId))
      && (forall x :: x in items && x != items[i] ==> x in rest)
  {
    var rest := items[..i] + items[i + 1..];
    forall x | x in items && x != items[i] ensures x in rest {
      var k :| 0 <= k < |items| && items[k] == x;
      if k < i { assert rest[k] == x; } else { assert rest[k - 1] == x; }
    }
  }

  /** Removing an item right after adding it gives back the previous items,
      cut to make room for it. */
  lemma AddThenRemove(s: Store, item: GalleryItem, now: int)
    requires s.maxItems > 0 && !HasJob(s.items, item.jobId)
    ensures var before := Take(s.items, s.maxItems - 1);
      Remove(Add(s, item, now), item.jobId) == (Store(before, s.maxItems), true)
  {
    var a := Add(s, item, now);
    RemoveFront(a, item.jobId);
    assert a.items[1..] == Take(s.items, s.maxItems - 1);
  }

  /** Removing the job at the front drops just the front item. */
  lemma RemoveFront(s: Store, jobId: string)
    requires |s.items| > 0 && s.items[0].jobId == jobId
    ensures Remove(s, jobId) == (Store(s.items[1..], s.maxItems), true)
  {
    assert s.items[..0] + s.items[1..] == s.items[1..];
  }
}

=== FILE: indexing.dfy ===
/**
 * The indexing loop that recurs across the server: walk a list in order and
 * store each element under every one of its keys, `m[k] = x`, so that a later
 * element overwrites an earlier one on a shared key. The preset catalog, the
 * on-chain model index and the recipe index are all built this way. Also the
 * iteration order of such a map, which Go leaves unspecified.
 */
module Indexing {

  /** Element `i` is the last one of `xs` that carries key `k`. */
  predicate IsLastWith<T>(xs: seq<T>, keys: T -> seq<string>, k: string, i: int) {
    && 0 <= i < |xs| && k in keys(xs[i])
    && forall j :: i < j < |xs| ==> k !in keys(xs[j])
  }

  /** Some element of `xs` carries key `k`. */
  ghost predicate SomeCarries<T>(xs: seq<T>, keys: T -> seq<string>, k: string) {
    exists i :: 0 <= i < |xs| && k in keys(xs[i])
  }

  /** The map after the loop: a key is present exactly when some element
      carries it, and it holds the last element that does. */
  function BuildIndex<T>(xs: seq<T>, keys: T -> seq<string>): (m: map<string, T>)
    ensures IsIndexOf(xs, keys, m)
    decreases |xs|
  {
    if xs == [] then map[]
    else
      var prev := BuildIndex(xs[..|xs| - 1], keys);
      StoreLast(xs, keys, prev);
      StoreAll(prev, keys(xs[|xs| - 1]), xs[|xs| - 1])
  }

  /** `m[k] = x` for each key `k` of `ks` in turn. */
  function StoreAll<T>(m: map<string, T>, ks: seq<string>, x: T): (r: map<string, T>)
    ensures forall k :: k in r <==> k in m || k in ks
    ensures forall k :: k in r ==> r[k] == if k in ks then x else m[k]
    decreases |ks|
  {
    if ks == [] then m else StoreAll(m[ks[0] := x], ks[1..], x)
  }

  /** `m` is the index of `xs`: the keys are those some element carries, and
      each key holds the last element that carries it. */
  ghost predicate IsIndexOf<T>(xs: seq<T>, keys: T -> seq<string>, m: map<string, T>) {
    && (forall k :: k in m <==> SomeCarries(xs, keys, k))
    && (forall k :: k in m ==> exists i :: IsLastWith(xs, keys, k, i) && m[k] == xs[i])
  }

  /** One loop iteration: storing the last element over the index of the
      others gives the index of the whole list. */
  lemma StoreLast<T>(xs: seq<T>, keys: T -> seq<string>, prev: map<string, T>)
    requires |xs| > 0 && IsIndexOf(xs[..|xs| - 1], keys, prev)
    ensures IsIndexOf(xs, keys, StoreAll(prev, keys(xs[|xs| - 1]), xs[|xs| - 1]))
  {
    var front := xs[..|xs| - 1];
    var last := xs[|xs| - 1];
    var m := StoreAll(prev, keys(last), last);
    forall k ensures k in m <==> SomeCarries(xs, keys, k) {
      if SomeCarries(xs, keys, k) && k !in keys(last) {
        var i :| 0 <= i < |xs| && k in keys(xs[i]);
        assert front[i] == xs[i];
      }
      if SomeCarries(front, keys, k) {
        var i :| 0 <= i < |front| && k in keys(front[i]);
        assert xs[i] == front[i];
      }
    }
    forall k | k in m ensures exists i :: IsLastWith(xs, keys, k, i) && m[k] == xs[i] {
      if k in keys(last) {
        assert IsLastWith(xs, keys, k, |xs| - 1);
      } else {
        var i :| IsLastWith(front, keys, k, i) && prev[k] == front[i];
        assert xs[i] == front[i];
        assert IsLastWith(xs, keys, k, i);
      }
    }
  }

  /** The last carrier of a key is unique, so the index is fully determined:
      whatever element is the last to carry `k` is the one stored under `k`. */
  lemma IndexHoldsLastCarrier<T>(xs: seq<T>, keys: T -> seq<string>, k: string, i: int)
    requires IsLastWith(xs, keys, k, i)
    ensures k in BuildIndex(xs, keys) && BuildIndex(xs, keys)[k] == xs[i]
  {
    var m := BuildIndex(xs, keys);
    assert SomeCarries(xs, keys, k);
    var j :| IsLastWith(xs, keys, k, j) && m[k] == xs[j];
  }

  /** `order` lists every key of `m` exactly once: one possible iteration
      order of a Go map, which the language leaves unspecified. */
  ghost predicate IsKeyOrder<V>(m: map<string, V>, order: seq<string>) {
    && (forall k :: k in m <==> k in order)
    && (forall i, j :: 0 <= i < j < |order| ==> order[i] != order[j])
  }
}

=== FILE: model_vault.dfy ===
/**
 * The ModelVault client (server/internal/modelvault/client.go): the model
 * type names, the parsing of an on-chain model record, the generated
 * description, the name index over the active models and the three-tier
 * name lookup. The chain calls, the ABI decoding, the constraints, the cache
 * and the rate limit are left out; the records as fetched are parameters,
 * and so is the iteration order of the index, which Go leaves unspecified.
 */
module ModelVault {
  import opened Options
  import opened Strs
  import opened Indexing
  import RecipeVault

  /* ---------------------------------------------------------------------- */
  /* Model types                                                            */
  /* ---------------------------------------------------------------------- */

  /** `ModelType`, a `uint8`. */
  newtype ModelType = t: int | 0 <= t < 256

  const TextModel: ModelType := 0
  const ImageModel: ModelType := 1
  const VideoModel: ModelType := 2

  /** `ModelType.String`. */
  function TypeName(t: ModelType): (name: string)
    ensures name in {"text", "image", "video", "unknown"}
    ensures name == "unknown" <==> t > 2
  {
    match t
    case 0 => "text"
    case 1 => "image"
    case 2 => "video"
    case _ => "unknown"
  }

  /** The type a name stands for; the inverse of `TypeName` on the three
      known types. */
  function TypeOfName(name: string): Option<ModelType> {
    if name == "text" then Some(TextModel)
    else if name == "image" then Some(ImageModel)
    else if name == "video" then Some(VideoModel)
    else None
  }

  /** The three known types have distinct names, and every other value is
      "unknown". */
  lemma TypeNameRoundTrip(t: ModelType)
    ensures t <= 2 ==> TypeOfName(TypeName(t)) == Some(t)
    ensures t > 2 ==> TypeOfName(TypeName(t)) == None
  {
  }

  /* ---------------------------------------------------------------------- */
  /* Descriptions                                                           */
  /* ---------------------------------------------------------------------- */

  /** The name denotes a WAN 2.2 model. */
  predicate IsWan22(lower: string) {
    Contains(lower, "wan2.2") || Contains(lower, "wan2_2")
  }

  /** The descriptions of the WAN 2.2 family. */
  const WanDescriptions: set<string> := {
    "WAN 2.2 Image-to-Video generation model",
    "WAN 2.2 Text-to-Video 14B model - High quality mode",
    "WAN 2.2 Text-to-Video model",
    "WAN 2.2 Video generation model"}

  /** The descriptions of the FLUX family. */
  const FluxDescriptions: set<string> := {
    "FLUX Kontext model for context-aware image generation",
    "FLUX Krea model - Advanced image generation",
    "FLUX Schnell - Fast image generation",
    "FLUX.1 model for high-quality image generation"}

  /** `generateDescription`: the lower-cased name is tested against the
      model families in priority order (WAN 2.2, FLUX, SDXL, Chroma, LTX);
      a name of no known family is described as "<name> model". */
  function GenerateDescription(displayName: string): (d: string)
    ensures IsWan22(ToLower(displayName)) ==> d in WanDescriptions
    ensures !IsWan22(ToLower(displayName)) && Contains(ToLower(displayName), "flux") ==> d in FluxDescriptions
    ensures var lower := ToLower(displayName);
      && (IsWan22(lower) && Contains(lower, "i2v") ==> d == "WAN 2.2 Image-to-Video generation model")
      && (IsWan22(lower) && !Contains(lower, "i2v") && Contains(lower, "t2v") && Contains(lower, "hq") ==>
            d == "WAN 2.2 Text-to-Video 14B model - High quality mode")
      && (IsWan22(lower) && !Contains(lower, "i2v") && Contains(lower, "t2v") && !Contains(lower, "hq") ==>
            d == "WAN 2.2 Text-to-Video model")
      && (IsWan22(lower) && !Contains(lower, "i2v") && !Contains(lower, "t2v") ==>
            d == "WAN 2.2 Video generation model")
    ensures var lower := ToLower(displayName);
      && (!IsWan22(lower) && Contains(lower, "flux") && Contains(lower, "kontext") ==>
            d == "FLUX Kontext model for context-aware image generation")
      && (!IsWan22(lower) && Contains(lower, "flux") && !Contains(lower, "kontext") && Contains(lower, "krea") ==>
            d == "FLUX Krea model - Advanced image generation")
      && ((!IsWan22(lower) && Contains(lower, "flux") && !Contains(lower, "kontext") && !Contains(lower, "krea")
           && Contains(lower, "schnell")) ==> d == "FLUX Schnell - Fast image generation")
      && ((!IsWan22(lower) && Contains(lower, "flux") && !Contains(lower, "kontext") && !Contains(lower, "krea")
           && !Contains(lower, "schnell")) ==> d == "FLUX.1 model for high-quality image generation")
    ensures var lower := ToLower(displayName);
      && (!IsWan22(lower) && !Contains(lower, "flux") && Contains(lower, "xl") ==>
            d == "Stable Diffusion XL model")
      && (!IsWan22(lower) && !Contains(lower, "flux") && !Contains(lower, "xl") && Contains(lower, "chroma") ==>
            d == "Chroma model for image generation")
      && ((!IsWan22(lower) && !Contains(lower, "flux") && !Contains(lower, "xl") && !Contains(lower, "chroma")
           && Contains(lower, "ltx")) ==> d == "LTX Video generation model")
      && ((!IsWan22(lower) && !Contains(lower, "flux") && !Contains(lower, "xl") && !Contains(lower, "chroma")
           && !Contains(lower, "ltx")) ==> d == displayName + " model")
  {
    var lower := ToLower(displayName);
    SubsumedTests(lower);
    if Contains(lower, "wan2.2") || Contains(lower, "wan2_2") then
      if Contains(lower, "ti2v") || Contains(lower, "i2v") then "WAN 2.2 Image-to-Video generation model"
      else if Contains(lower, "t2v") then
        if Contains(lower, "hq") then "WAN 2.2 Text-to-Video 14B model - High quality mode"
        else "WAN 2.2 Text-to-Video model"
      else "WAN 2.2 Video generation model"
    else if Contains(lower, "flux") then
      if Contains(lower, "kontext") then "FLUX Kontext model for context-aware image generation"
      else if Contains(lower, "krea") then "FLUX Krea model - Advanced image generation"
      else if Contains(lower, "schnell") then "FLUX Schnell - Fast image generation"
      else "FLUX.1 model for high-quality image generation"
    else if Contains(lower, "sdxl") || Contains(lower, "xl") then "Stable Diffusion XL model"
    else if Contains(lower, "chroma") then "Chroma model for image generation"
    else if Contains(lower, "ltxv") || Contains(lower, "ltx") then "LTX Video generation model"
    else displayName + " model"
  }

  /** Three tests of `generateDescription` are subsumed by a shorter one:
      `ti2v` contains `i2v`, `sdxl` contains `xl`, `ltxv` contains `ltx`. */
  lemma SubsumedTests(s: string)
    ensures Contains(s, "ti2v") ==> Contains(s, "i2v")
    ensures Contains(s, "sdxl") ==> Contains(s, "xl")
    ensures Contains(s, "ltxv") ==> Contains(s, "ltx")
  {
    if !Contains(s, "i2v") {
      SubstringMissing(s, "ti2v", "i2v", 1);
    }
    if !Contains(s, "xl") {
      SubstringMissing(s, "sdxl", "xl", 2);
    }
    if !Contains(s, "ltx") {
      SubstringMissing(s, "ltxv", "ltx", 0);
    }
  }

  /** A name of no known family is described by itself. */
  lemma UnknownFamilyDescription(displayName: string)
    requires var lower := ToLower(displayName);
      !IsWan22(lower) && !Contains(lower, "flux") && !Contains(lower, "xl")
      && !Contains(lower, "chroma") && !Contains(lower, "ltx")
    ensures GenerateDescription(displayName) == displayName + " model"
  {
    var lower := ToLower(displayName);
    SubstringMissing(lower, "sdxl", "xl", 2);
    SubstringMissing(lower, "ltxv", "ltx", 0);
  }

  /** A longer pattern is missing when a piece of it is. */
  lemma SubstringMissing(s: string, long: string, short: string, at: nat)
    requires at + |short| <= |long| && long[at..at + |short|] == short
    requires !Contains(s, short)
    ensures !Contains(s, long)
  {
    forall i | 0 <= i <= |s| - |long| ensures !OccursAt(s, long, i) {
      assert !OccursAt(s, short, i + at);
      var window := s[i..i + |long|];
      var piece := window[at..at + |short|];
      var there := s[i + at..i + at + |short|];
      assert piece == there by {
        forall t | 0 <= t < |short| ensures piece[t] == there[t] {
          assert window[at + t] == s[i + at + t];
        }
      }
    }
  }

  /** Among the WAN 2.2 tests, `ti2v` is subsumed by `i2v`, so a WAN 2.2
      name is an image-to-video model exactly when it contains `i2v`. */
  lemma WanImageToVideo(displayName: string)
    requires IsWan22(ToLower(displayName))
    ensures GenerateDescription(displayName) == "WAN 2.2 Image-to-Video generation model"
      <==> Contains(ToLower(displayName), "i2v")
  {
    var lower := ToLower(displayName);
    if !Contains(lower, "i2v") {
      SubstringMissing(lower, "ti2v", "i2v", 1);
    }
  }

  /** The WAN 2.2 test comes first: a WAN 2.2 FLUX-named model is still a
      WAN model. */
  lemma WanBeforeFlux()
    ensures GenerateDescription("wan2.2-flux") in WanDescriptions
  {
    assert OccursAt(ToLower("wan2.2-flux"), "wan2.2", 0);
  }

  /* ---------------------------------------------------------------------- */
  /* Model records                                                          */
  /* ---------------------------------------------------------------------- */

  /** The fields of the tuple `getModel` returns, as read by reflection: a
      field that is missing or of the wrong kind reads as its zero value. */
  datatype RawModel = RawModel(
    modelHash: seq<Byte>,
    modelType: nat,
    fileName: string,
    name: string,
    isNsfw: bool,
    sizeBytes: nat,
    baseModel: string,
    format: string,
    isActive: bool)

  /** `OnChainModel`, without the constraints and the capability flags. */
  datatype OnChainModel = OnChainModel(
    modelHash: seq<Byte>,
    modelType: ModelType,
    fileName: string,
    displayName: string,
    description: string,
    isNsfw: bool,
    sizeBytes: nat,
    baseModel: string,
    architecture: string,
    isActive: bool)

  /** The hash only counts when it is a 32-byte array; otherwise it stays
      all zero. */
  predicate IsEmptyHash(h: seq<Byte>) {
    |h| != 32 || forall i :: 0 <= i < |h| ==> h[i] == 0
  }

  /** The parsing step of `GetModel`: a record with an empty hash is no
      model; otherwise the display name is the record's name, its
      description is generated from it, the type is the low byte of the
      stored value and the size is truncated to 64 bits. */
  function ParseModel(raw: RawModel): (m: Option<OnChainModel>)
    ensures m.None? <==> IsEmptyHash(raw.modelHash)
    ensures m.Some? ==>
      && m.value.displayName == raw.name
      && m.value.description == GenerateDescription(m.value.displayName)
      && m.value.modelHash == raw.modelHash && !IsEmptyHash(m.value.modelHash)
      && m.value.modelType as int == raw.modelType % 256
      && m.value.sizeBytes < 0x1_0000_0000_0000_0000
  {
    if IsEmptyHash(raw.modelHash) then None
    else
      Some(OnChainModel(
        modelHash := raw.modelHash,
        modelType := (raw.modelType % 256) as ModelType,
        fileName := raw.fileName,
        displayName := raw.name,
        description := GenerateDescription(raw.name),
        isNsfw := raw.isNsfw,
        sizeBytes := raw.sizeBytes % 0x1_0000_0000_0000_0000,
        baseModel := raw.baseModel,
        architecture := raw.format,
        isActive := raw.isActive))
  }

  /* ---------------------------------------------------------------------- */
  /* The name index and lookup                                              */
  /* ---------------------------------------------------------------------- */

  /** The keys `FetchAllModels` stores a model under: an active model under
      its display name, its lower-cased display name, and its file name when
      that is not empty; an inactive one under none. */
  function ModelKeys(m: OnChainModel): (ks: seq<string>)
    ensures forall k :: k in ks <==>
      m.isActive && (k == m.displayName || k == ToLower(m.displayName) || (m.fileName != "" && k == m.fileName))
  {
    if !m.isActive then []
    else [m.displayName, ToLower(m.displayName)] + (if m.fileName != "" then [m.fileName] else [])
  }

  /** `FetchAllModels` over the records fetched for ids 1..count (`None`
      for a failed call or an empty hash): each active model is stored under
      its keys in id order, so a later model wins a shared key. A disabled
      client gives nothing. */
  function FetchAllModels(enabled: bool, fetched: seq<Option<OnChainModel>>): (index: map<string, OnChainModel>)
    ensures !enabled ==> index == map[]
    ensures enabled ==> forall k :: k in index <==> SomeCarries(Somes(fetched), ModelKeys, k)
    ensures forall k :: k in index ==> index[k].isActive && k in ModelKeys(index[k])
  {
    if !enabled then map[]
    else
      var index := BuildIndex(Somes(fetched), ModelKeys);
      IndexedAreActive(Somes(fetched), index);
      index
  }

  lemma IndexedAreActive(models: seq<OnChainModel>, index: map<string, OnChainModel>)
    requires IsIndexOf(models, ModelKeys, index)
    ensures forall k :: k in index ==> index[k].isActive && k in ModelKeys(index[k])
  {
    forall k | k in index ensures index[k].isActive && k in ModelKeys(index[k]) {
      var i :| IsLastWith(models, ModelKeys, k, i) && index[k] == models[i];
    }
  }

  /** A key as the third tier compares it: lower case, with `.` and `-`
      mapped to `_`. */
  function FoldKey(s: string): (r: string)
    ensures |r| == |s| && '.' !in r && '-' !in r
  {
    ReplaceChar(ReplaceChar(ToLower(s), '.', '_'), '-', '_')
  }

  /** The lookup folds names exactly as the recipe index normalises them:
      lower-casing commutes with the replacements. */
  lemma FoldKeyIsNormalizeName(s: string)
    ensures FoldKey(s) == RecipeVault.NormalizeName(s)
  {
    var a := FoldKey(s);
    var b := RecipeVault.NormalizeName(s);
    forall i | 0 <= i < |s| ensures a[i] == b[i] {
      var c := s[i];
      assert ToLower(s)[i] == LowerChar(c);
    }
  }

  /** Folding is idempotent. */
  lemma FoldKeyIdempotent(s: string)
    ensures FoldKey(FoldKey(s)) == FoldKey(s)
  {
    FoldKeyIsNormalizeName(s);
    FoldKeyIsNormalizeName(FoldKey(s));
    RecipeVault.NormalizeNameIdempotent(s);
  }

  /** The first key in `order` that folds to `target`. */
  function FirstFolded(order: seq<string>, target: string): (k: Option<string>)
    ensures k.Some? ==> k.value in order && FoldKey(k.value) == target
    ensures k.None? <==> forall i :: 0 <= i < |order| ==> FoldKey(order[i]) != target
    ensures k.Some? ==> exists i :: (0 <= i < |order| && order[i] == k.value
      && forall j :: 0 <= j < i ==> FoldKey(order[j]) != target)
  {
    if order == [] then None
    else if FoldKey(order[0]) == target then
      assert order[0] == order[0];
      Some(order[0])
    else
      var rest := FirstFolded(order[1..], target);
      if rest.Some? then
        FirstFoldedShift(order, target, rest.value);
        rest
      else rest
  }

  lemma FirstFoldedShift(order: seq<string>, target: string, k: string)
    requires order != [] && FoldKey(order[0]) != target
    requires exists i :: (0 <= i < |order[1..]| && order[1..][i] == k
      && forall j :: 0 <= j < i ==> FoldKey(order[1..][j]) != target)
    ensures exists i :: (0 <= i < |order| && order[i] == k
      && forall j :: 0 <= j < i ==> FoldKey(order[j]) != target)
  {
    var i :| 0 <= i < |order[1..]| && order[1..][i] == k
      && forall j :: 0 <= j < i ==> FoldKey(order[1..][j]) != target;
    assert order[i + 1] == k;
    forall j | 0 <= j < i + 1 ensures FoldKey(order[j]) != target {
      if j > 0 { assert order[j] == order[1..][j - 1]; }
    }
  }

  /** `FindModel` on the index, with `order` the index's iteration order:
      the exact key, else the lower-cased key, else the first key that folds
      to the same text as the name, else nothing. */
  function FindModel(models: map<string, OnChainModel>, order: seq<string>, name: string): (m: Option<OnChainModel>)
    requires IsKeyOrder(models, order)
    ensures name in models ==> m == Some(models[name])
    ensures name !in models && ToLower(name) in models ==> m == Some(models[ToLower(name)])
    ensures name !in models && ToLower(name) !in models ==>
      (m.Some? <==> exists k :: k in models && FoldKey(k) == FoldKey(name))
    ensures m.Some? ==> exists k :: k in models && FoldKey(k) == FoldKey(name) && m.value == models[k]
  {
    if name in models then
      FoldKeyIdempotent(name);
      Some(models[name])
    else if ToLower(name) in models then
      LowerFolds(name);
      Some(models[ToLower(name)])
    else
      match FirstFolded(order, FoldKey(name))
      case None =>
        assert forall k :: k in models ==> k in order;
        None
      case Some(k) => Some(models[k])
  }

  /** The lower-cased name folds like the name. */
  lemma LowerFolds(name: string)
    ensures FoldKey(ToLower(name)) == FoldKey(name)
  {
    ToLowerIdempotent(name);
  }

  /** An active model that is the last to claim its display name is found
      by that name, and by any spelling of it that differs only in letter
      case when that spelling is not itself a key. */
  lemma FindIndexedModel(fetched: seq<Option<OnChainModel>>, i: int, order: seq<string>, spelling: string)
    requires IsKeyOrder(FetchAllModels(true, fetched), order)
    requires 0 <= i < |Somes(fetched)| && Somes(fetched)[i].isActive
    requires IsLastWith(Somes(fetched), ModelKeys, Somes(fetched)[i].displayName, i)
    requires IsLastWith(Somes(fetched), ModelKeys, ToLower(Somes(fetched)[i].displayName), i)
    requires ToLower(spelling) == ToLower(Somes(fetched)[i].displayName)
    requires spelling !in FetchAllModels(true, fetched)
    ensures FindModel(FetchAllModels(true, fetched), order, Somes(fetched)[i].displayName) == Some(Somes(fetched)[i])
    ensures FindModel(FetchAllModels(true, fetched), order, spelling) == Some(Somes(fetched)[i])
  {
    var ms := Somes(fetched);
    var m := ms[i];
    IndexHoldsLastCarrier(ms, ModelKeys, m.displayName, i);
    IndexHoldsLastCarrier(ms, ModelKeys, ToLower(m.displayName), i);
  }
}

=== FILE: options.dfy ===
/** Optional values: Go's nil results and `, ok` lookups, Python's `None`. */
module Options {

  datatype Option<+T> = None | Some(value: T) {

    /** The wrapped value, or `default` when there is none. */
    function GetOr(default: T): T {
      match this
      case Some(v) => v
      case None => default
    }
  }

  /** The values of the `Some` elements of `xs`, in order: what a loop that
      skips the absent ones collects. */
  function Somes<T>(xs: seq<Option<T>>): (ys: seq<T>)
    ensures |ys| <= |xs|
    ensures forall y :: y in ys ==> Some(y) in xs
    decreases |xs|
  {
    if xs == [] then []
    else
      var front := Somes(xs[..|xs| - 1]);
      match xs[|xs| - 1]
      case None => front
      case Some(y) => front + [y]
  }
}

=== FILE: presets.dfy ===
/**
 * The model preset catalog (server/internal/models/preset.go): presets are
 * read from a JSON list and indexed by id; presets without an id are dropped
 * and, on a repeated id, the later preset replaces the earlier one.
 */
module Presets {
  import opened Options
  import opened Indexing

  /** `RangeInt`: inclusive bounds for an integer generation parameter. */
  datatype RangeInt = RangeInt(min: int, max: int, step: int)

  /** `ModelLimits` without the floating-point `cfgScale` range. */
  datatype Limits = Limits(
    width: Option<RangeInt>,
    height: Option<RangeInt>,
    steps: Option<RangeInt>,
    length: Option<RangeInt>,
    fps: Option<RangeInt>)

  /** `ModelDefaults` without the floating-point `cfgScale` and `denoise`. */
  datatype Defaults = Defaults(
    width: int,
    height: int,
    steps: int,
    sampler: string,
    scheduler: string,
    length: int,
    fps: int,
    tiling: bool,
    hiresFix: bool)

  /** `ModelPreset`; `kind` is the JSON `type` field ("image" or "video"). */
  datatype ModelPreset = ModelPreset(
    id: string,
    displayName: string,
    kind: string,
    description: string,
    tags: seq<string>,
    samplers: seq<string>,
    schedulers: seq<string>,
    capabilities: seq<string>,
    defaults: Defaults,
    limits: Limits)

  /** `Catalog`: presets by id. */
  datatype Catalog = Catalog(items: map<string, ModelPreset>)

  /** The keys a preset is stored under: its id, unless the id is empty. */
  function PresetKeys(p: ModelPreset): (ks: seq<string>)
    ensures forall k :: k in ks <==> k != [] && k == p.id
  {
    if p.id == [] then [] else [p.id]
  }

  /** The loop of `LoadCatalog` over the decoded preset list. */
  function LoadCatalog(presets: seq<ModelPreset>): (c: Catalog)
    ensures forall id :: id in c.items <==> id != [] && exists i :: 0 <= i < |presets| && presets[i].id == id
    ensures forall id :: id in c.items ==> c.items[id].id == id
  {
    CatalogFacts(presets);
    Catalog(BuildIndex(presets, PresetKeys))
  }

  lemma CatalogFacts(presets: seq<ModelPreset>)
    ensures var items := BuildIndex(presets, PresetKeys);
      && (forall id :: id in items <==> id != [] && exists i :: 0 <= i < |presets| && presets[i].id == id)
      && (forall id :: id in items ==> items[id].id == id)
  {
    var items := BuildIndex(presets, PresetKeys);
    forall id | id in items ensures items[id].id == id {
      var i :| IsLastWith(presets, PresetKeys, id, i) && items[id] == presets[i];
    }
    forall id | id != [] && exists i :: 0 <= i < |presets| && presets[i].id == id
      ensures id in items
    {
      var i :| 0 <= i < |presets| && presets[i].id == id;
      assert id in PresetKeys(presets[i]);
    }
  }

  /** `Catalog.Get`. */
  function Get(c: Catalog, id: string): Option<ModelPreset> {
    if id in c.items then Some(c.items[id]) else None
  }

  /** `Get` on a loaded catalog succeeds exactly for the non-empty ids some
      preset carries, and returns the last preset carrying the id. */
  lemma GetReturnsLastWithId(presets: seq<ModelPreset>, id: string)
    ensures Get(LoadCatalog(presets), id).Some? <==>
      id != [] && exists i :: 0 <= i < |presets| && presets[i].id == id
    ensures forall i | IsLastWith(presets, PresetKeys, id, i) ::
      Get(LoadCatalog(presets), id) == Some(presets[i])
  {
    forall i | IsLastWith(presets, PresetKeys, id, i)
      ensures Get(LoadCatalog(presets), id) == Some(presets[i])
    {
      IndexHoldsLastCarrier(presets, PresetKeys, id, i);
    }
  }

  /** `Catalog.List`, visiting the ids in `order`, Go's map iteration order.
      Every catalog entry is listed once and is found again by its own id. */
  function List(c: Catalog, order: seq<string>): (r: seq<ModelPreset>)
    requires IsKeyOrder(c.items, order)
    requires forall id :: id in c.items ==> c.items[id].id == id
    ensures |r| == |order|
    ensures forall i :: 0 <= i < |r| ==> Get(c, r[i].id) == Some(r[i])
    ensures forall id :: id in c.items ==> exists i :: 0 <= i < |r| && r[i].id == id
    ensures forall i, j :: 0 <= i < j < |r| ==> r[i].id != r[j].id
  {
    var r := seq(|order|, i requires 0 <= i < |order| => c.items[order[i]]);
    ListCoversCatalog(c, order, r);
    r
  }

  lemma ListCoversCatalog(c: Catalog, order: seq<string>, r: seq<ModelPreset>)
    requires IsKeyOrder(c.items, order)
    requires |r| == |order| && forall i :: 0 <= i < |r| ==> r[i] == c.items[order[i]]
    requires forall id :: id in c.items ==> c.items[id].id == id
    ensures forall id :: id in c.items ==> exists i :: 0 <= i < |r| && r[i].id == id
  {
    forall id | id in c.items ensures exists i :: 0 <= i < |r| && r[i].id == id {
      var i :| 0 <= i < |order| && order[i] == id;
      assert r[i].id == id;
    }
  }
}

=== FILE: prompts.dfy ===
/**
 * Prompt processing for generation jobs (server/internal/prompts/enhance.go):
 * the model category is read off the model id, the positive prompt gets a
 * category-specific quality suffix and is kept within 512 characters by cutting at
 * a word boundary, and a blank negative prompt is replaced by a category default.
 */
module Prompts {
  import opened Strs

  const MaxPromptLength: nat := 512

  /** `ModelCategory`. Go declares it as an `int`; every value outside the
      five constants behaves like `Generic` in the switches below. */
  datatype Category = FluxImage | SdxlImage | WanVideo | LtxVideo | Generic

  /** `DetectCategory`: substring tests on the lower-cased id, in a fixed
      priority order. */
  function DetectCategory(modelId: string): (c: Category)
    ensures var lower := ToLower(modelId);
      && (c == FluxImage <==> Contains(lower, "flux"))
      && (c == SdxlImage <==>
            (!Contains(lower, "flux") && (Contains(lower, "sdxl") || Contains(lower, "stable-diffusion-xl"))))
      && (c == WanVideo <==>
            (!Contains(lower, "flux") && !Contains(lower, "sdxl")
             && !Contains(lower, "stable-diffusion-xl") && Contains(lower, "wan")))
      && (c == LtxVideo <==> (c != FluxImage && c != SdxlImage && c != WanVideo && Contains(lower, "ltx")))
      && (c == Generic ==> !Contains(lower, "ltx"))
  {
    var lower := ToLower(modelId);
    LtxvImpliesLtx(lower);
    if Contains(lower, "flux") then FluxImage
    else if Contains(lower, "sdxl") || Contains(lower, "stable-diffusion-xl") then SdxlImage
    else if Contains(lower, "wan") then WanVideo
    else if Contains(lower, "ltxv") || Contains(lower, "ltx") then LtxVideo
    else Generic
  }

  /** The `ltxv` test never decides anything: every id containing `ltxv`
      also contains `ltx`. */
  lemma LtxvImpliesLtx(s: string)
    ensures Contains(s, "ltxv") ==> Contains(s, "ltx")
  {
    if Contains(s, "ltxv") {
      var i :| 0 <= i <= |s| - 4 && OccursAt(s, "ltxv", i);
      assert s[i..i + 3] == s[i..i + 4][..3];
      assert OccursAt(s, "ltx", i);
    }
  }

  /* The id/category table of the package's own unit test, one row per lemma. */

  lemma DetectFluxDev()
    ensures DetectCategory("Flux_Dev") == FluxImage
  {
    assert OccursAt(ToLower("Flux_Dev"), "flux", 0);
  }

  lemma DetectFluxSchnell()
    ensures DetectCategory("flux_schnell") == FluxImage
  {
    assert OccursAt(ToLower("flux_schnell"), "flux", 0);
  }

  lemma DetectSdxlVersion()
    ensures DetectCategory("SDXL_1.0") == SdxlImage
  {
    NotContainsByMissingChar(ToLower("SDXL_1.0"), "flux", 'f');
    assert OccursAt(ToLower("SDXL_1.0"), "sdxl", 0);
  }

  lemma DetectStableDiffusionXl()
    ensures DetectCategory("stable-diffusion-xl") == SdxlImage
  {
    var s := ToLower("stable-diffusion-xl");
    assert s == "stable-diffusion-xl";
    NotContainsByMissingPair(s, "flux");
    assert OccursAt(s, "stable-diffusion-xl", 0);
  }

  lemma DetectWan22()
    ensures DetectCategory("WAN_2.2_T2V_14B") == WanVideo
  {
    var w := ToLower("WAN_2.2_T2V_14B");
    assert w == "wan_2.2_t2v_14b";
    NotContainsByMissingChar(w, "flux", 'f');
    NotContainsByMissingChar(w, "sdxl", 's');
    NotContainsByMissingChar(w, "stable-diffusion-xl", 's');
    assert OccursAt(w, "wan", 0);
  }

  lemma DetectWan21()
    ensures DetectCategory("wan_21_fun") == WanVideo
  {
    var w := ToLower("wan_21_fun");
    assert w == "wan_21_fun";
    NotContainsByMissingChar(w, "flux", 'l');
    NotContainsByMissingChar(w, "sdxl", 's');
    NotContainsByMissingChar(w, "stable-diffusion-xl", 's');
    assert OccursAt(w, "wan", 0);
  }

  lemma DetectLtxv()
    ensures DetectCategory("ltxv_13b") == LtxVideo
  {
    var l := ToLower("ltxv_13b");
    assert l == "ltxv_13b";
    NotContainsByMissingChar(l, "flux", 'f');
    NotContainsByMissingChar(l, "sdxl", 's');
    NotContainsByMissingChar(l, "stable-diffusion-xl", 's');
    NotContainsByMissingChar(l, "wan", 'w');
    assert OccursAt(l, "ltxv", 0);
  }

  lemma DetectLtx()
    ensures DetectCategory("ltx_video") == LtxVideo
  {
    var l := ToLower("ltx_video");
    assert l == "ltx_video";
    NotContainsByMissingChar(l, "flux", 'f');
    NotContainsByMissingChar(l, "sdxl", 's');
    NotContainsByMissingChar(l, "stable-diffusion-xl", 's');
    NotContainsByMissingChar(l, "wan", 'w');
    assert OccursAt(l, "ltx", 0);
  }

  lemma DetectGeneric()
    ensures DetectCategory("unknown_model") == Generic
  {
    var u := ToLower("unknown_model");
    assert u == "unknown_model";
    NotContainsByMissingChar(u, "flux", 'f');
    NotContainsByMissingChar(u, "sdxl", 's');
    NotContainsByMissingChar(u, "stable-diffusion-xl", 's');
    NotContainsByMissingChar(u, "wan", 'a');
    NotContainsByMissingChar(u, "ltxv", 't');
    NotContainsByMissingChar(u, "ltx", 't');
  }

  /** `DefaultNegativePrompt`: a fixed text per category, never empty and
      always within the prompt cap, so it is sent whole. The longer texts are
      written as a few concatenated pieces. */
  function DefaultNegativePrompt(c: Category): (r: string)
    ensures r != [] && |r| <= MaxPromptLength
  {
    match c
    case FluxImage =>
      "blurry, low quality, distorted, deformed" + ", ugly, bad anatomy, watermark, signature" + ", text"
    case SdxlImage =>
      "blurry, low quality, distorted, deformed" + ", ugly, bad anatomy, bad hands, watermark"
        + ", signature, text, cropped"
    case WanVideo =>
      "static, frozen, blurry, low quality" + ", distorted, jittery, flickering, watermark"
    case LtxVideo =>
      "static, blurry, low quality, distorted" + ", artifacts, flickering, watermark, text"
    case Generic => "blurry, low quality, distorted, watermark"
  }

  /** `getEnhancements`: a (prefix, suffix) pair per category. The prefix is
      empty for every category; the suffix never is. */
  function GetEnhancements(c: Category): (r: (string, string))
    ensures r.0 == []
    ensures 0 < |r.1| <= 50
  {
    match c
    case FluxImage => ("", "high quality, detailed, sharp focus")
    case SdxlImage => ("", "masterpiece, best quality, highly detailed")
    case WanVideo => ("", "smooth motion, cinematic, high quality video")
    case LtxVideo => ("", "smooth motion, high quality, detailed")
    case Generic => ("", "high quality")
  }

  function Suffix(c: Category): string {
    GetEnhancements(c).1
  }

  /** The characters `truncatePrompt` strips from the end of a cut prompt. */
  predicate IsTrailPunct(ch: char) {
    ch == ' ' || ch == ',' || ch == '.'
  }

  /** `truncatePrompt`: a prompt within `maxLen` is returned unchanged. A
      longer one is cut to its first `maxLen` characters, then at the last
      space of that window if the space lies beyond two thirds of `maxLen`,
      and finally loses any trailing spaces, commas and full stops. */
  function TruncatePrompt(prompt: string, maxLen: nat): (r: string)
    ensures |prompt| <= maxLen ==> r == prompt
    ensures |prompt| > maxLen ==>
      && |r| <= maxLen && HasPrefix(prompt, r)
      && (r == [] || !IsTrailPunct(r[|r| - 1]))
    ensures |prompt| > maxLen ==>
      var k := LastIndexOf(prompt[..maxLen], ' ');
      var end := if k > maxLen * 2 / 3 then k else maxLen;
      |r| <= end && forall i :: |r| <= i < end ==> IsTrailPunct(prompt[i])
  {
    if |prompt| <= maxLen then prompt
    else
      var truncated := prompt[..maxLen];
      var lastSpace := LastIndexOf(truncated, ' ');
      var end := if lastSpace > maxLen * 2 / 3 then lastSpace else maxLen;
      var cut := truncated[..end];
      CutFacts(prompt, cut);
      TrimRightBy(cut, IsTrailPunct)
  }

  /** Trimming a prefix of `prompt` leaves a prefix of `prompt` from which only
      trailing punctuation was dropped. */
  lemma CutFacts(prompt: string, cut: string)
    requires HasPrefix(prompt, cut)
    ensures var r := TrimRightBy(cut, IsTrailPunct);
      && HasPrefix(prompt, r)
      && forall i :: |r| <= i < |cut| ==> IsTrailPunct(prompt[i])
  {
    var r := TrimRightBy(cut, IsTrailPunct);
    assert r == cut[..|r|];
    forall i | |r| <= i < |cut| ensures IsTrailPunct(prompt[i]) {
      assert prompt[i] == cut[i];
    }
  }

  /** `EnhancePrompt`. */
  function EnhancePrompt(prompt: string, c: Category): (r: string)
    ensures |r| <= MaxPromptLength
    ensures IsBlank(prompt) ==> r == []
    ensures |TrimSpace(prompt)| >= MaxPromptLength ==> r == TruncatePrompt(TrimSpace(prompt), MaxPromptLength)
    ensures var p := TrimSpace(prompt);
      0 < |p| <= MaxPromptLength - |Suffix(c)| - 2 ==> r == p + ", " + Suffix(c)
    ensures var p := TrimSpace(prompt);
      MaxPromptLength - |Suffix(c)| - 2 < |p| < MaxPromptLength ==> r == p
  {
    var p := TrimSpace(prompt);
    if p == [] then p
    else if |p| >= MaxPromptLength then TruncatePrompt(p, MaxPromptLength)
    else
      var (prefix, suffix) := GetEnhancements(c);
      var available := MaxPromptLength - |prefix| - |suffix| - 2;
      if |p| <= available then
        var withPrefix := if prefix != [] then prefix + " " + p else p;
        var enhanced := if suffix != [] then withPrefix + ", " + suffix else withPrefix;
        TruncatePrompt(enhanced, MaxPromptLength)
      else if |suffix| > 0 && |p| + |suffix| + 2 <= MaxPromptLength then
        TruncatePrompt(p + ", " + suffix, MaxPromptLength)
      else
        TruncatePrompt(p, MaxPromptLength)
  }

  /** The path condition of the "add only the suffix" branch of `EnhancePrompt`. */
  predicate ReachesSuffixOnlyBranch(prompt: string, c: Category) {
    var p := TrimSpace(prompt);
    var (prefix, suffix) := GetEnhancements(c);
    && p != [] && |p| < MaxPromptLength
    && |p| > MaxPromptLength - |prefix| - |suffix| - 2
    && |suffix| > 0 && |p| + |suffix| + 2 <= MaxPromptLength
  }

  /** Because the prefix is always empty, a prompt too long for the full
      enhancement is also too long for the suffix alone: that branch is dead. */
  lemma SuffixOnlyBranchUnreachable(prompt: string, c: Category)
    ensures !ReachesSuffixOnlyBranch(prompt, c)
  {
  }

  /** A trimmed, non-empty prompt that leaves room for the suffix comes back
      as exactly `prompt + ", " + suffix`; nothing is put in front of it. */
  lemma EnhanceAppendsSuffix(p: string, c: Category)
    requires p != [] && !IsGoSpace(p[0]) && !IsGoSpace(p[|p| - 1])
    requires |p| <= MaxPromptLength - |Suffix(c)| - 2
    ensures EnhancePrompt(p, c) == p + ", " + Suffix(c)
  {
    TrimmedIsFixpoint(p, IsGoSpace);
  }

  /** `ProcessPrompts`: the enhanced prompt and the final negative prompt. */
  function ProcessPrompts(prompt: string, negativePrompt: string, modelId: string): (r: (string, string))
    ensures |r.0| <= MaxPromptLength && |r.1| <= MaxPromptLength
    ensures r.0 == EnhancePrompt(prompt, DetectCategory(modelId))
    ensures IsBlank(negativePrompt) ==> r.1 == DefaultNegativePrompt(DetectCategory(modelId))
    ensures !IsBlank(negativePrompt) && |TrimSpace(negativePrompt)| <= MaxPromptLength ==>
      r.1 == TrimSpace(negativePrompt)
    ensures !IsBlank(negativePrompt) && |TrimSpace(negativePrompt)| > MaxPromptLength ==>
      r.1 == TruncatePrompt(TrimSpace(negativePrompt), MaxPromptLength)
  {
    var category := DetectCategory(modelId);
    var enhanced := EnhancePrompt(prompt, category);
    var trimmed := TrimSpace(negativePrompt);
    var negative := if trimmed == [] then DefaultNegativePrompt(category) else trimmed;
    var final := if |negative| > MaxPromptLength then TruncatePrompt(negative, MaxPromptLength) else negative;
    (enhanced, final)
  }

  /** A given negative prompt that is already trimmed and within the cap is
      kept as it is, whatever the prompt and the model (the package test
      checks this for "blurry"). */
  lemma ProcessPromptsKeepsNegative(prompt: string, negative: string, modelId: string)
    requires negative != [] && !IsGoSpace(negative[0]) && !IsGoSpace(negative[|negative| - 1])
    requires |negative| <= MaxPromptLength
    ensures ProcessPrompts(prompt, negative, modelId).1 == negative
  {
    TrimmedIsFixpoint(negative, IsGoSpace);
    BlankIffTrimsToEmpty(negative);
  }
}

=== FILE: recipe_vault.dfy ===
/**
 * The RecipeVault client (server/internal/recipevault/client.go): which model
 * files a ComfyUI workflow loads, how an on-chain workflow blob becomes a
 * workflow, and how the public recipes are indexed and their models
 * collected. The chain calls, the ABI decoding, the cache and the rate limit
 * are left out; the recipes as fetched, the gzip decoder and the JSON parser
 * are parameters.
 */
module RecipeVault {
  import opened Options
  import opened Strs
  import opened Decimal
  import opened Indexing

  /* ---------------------------------------------------------------------- */
  /* Workflow JSON                                                          */
  /* ---------------------------------------------------------------------- */

  /** A decoded JSON value, as `encoding/json` produces it for an
      `interface{}`. Numbers play no part in the model and keep only their
      text. */
  datatype Json =
    | JNull
    | JBool(b: bool)
    | JNum(text: string)
    | JStr(s: string)
    | JArr(items: seq<Json>)
    | JObj(fields: map<string, Json>)

  /** A workflow or a node: a JSON object. */
  type Object = map<string, Json>

  /** The node's type: `class_type` when it is a string, else `type` when
      that is a string, else empty. */
  function NodeType(node: Object): (t: string)
    ensures "class_type" in node && node["class_type"].JStr? ==> t == node["class_type"].s
    ensures !("class_type" in node && node["class_type"].JStr?) && "type" in node && node["type"].JStr? ==>
      t == node["type"].s
  {
    if "class_type" in node && node["class_type"].JStr? then node["class_type"].s
    else if "type" in node && node["type"].JStr? then node["type"].s
    else ""
  }

  /** A non-empty string under `field` of the node's `inputs` object. */
  function InputString(node: Object, field: string): (r: Option<string>)
    ensures r.Some? ==> r.value != ""
  {
    if "inputs" in node && node["inputs"].JObj? then
      var inputs := node["inputs"].fields;
      if field in inputs && inputs[field].JStr? && inputs[field].s != "" then Some(inputs[field].s) else None
    else None
  }

  /** A non-empty string as the first element of `widgets_values`. */
  function FirstWidgetString(node: Object): (r: Option<string>)
    ensures r.Some? ==> r.value != ""
  {
    if "widgets_values" in node && node["widgets_values"].JArr? then
      var wv := node["widgets_values"].items;
      if |wv| > 0 && wv[0].JStr? && wv[0].s != "" then Some(wv[0].s) else None
    else None
  }

  /** The loader node types `extractModelFromNode` knows. */
  datatype Loader =
    | CheckpointLoaderSimple
    | DualCLIPLoader
    | UNETLoader
    | WanVideoModelLoader
    | VAELoader
    | CLIPLoader
    | OtherNode

  /** The loader a node type names; a type string equals at most one of the
      names, so the source's six tests are exclusive. */
  function LoaderOf(nodeType: string): Loader {
    match nodeType
    case "CheckpointLoaderSimple" => CheckpointLoaderSimple
    case "DualCLIPLoader" => DualCLIPLoader
    case "UNETLoader" => UNETLoader
    case "WanVideoModelLoader" => WanVideoModelLoader
    case "VAELoader" => VAELoader
    case "CLIPLoader" => CLIPLoader
    case _ => OtherNode
  }

  /** The `inputs` fields each loader names a model file in: the reference
      table for `ModelsOfNode`. */
  function DesignatedFields(loader: Loader): seq<string> {
    match loader
    case CheckpointLoaderSimple => ["ckpt_name"]
    case DualCLIPLoader => ["clip_name1", "clip_name2"]
    case UNETLoader => ["unet_name"]
    case WanVideoModelLoader => ["model_name", "model"]
    case VAELoader => ["vae_name"]
    case CLIPLoader => ["clip_name"]
    case OtherNode => []
  }

  /** The loaders whose native form names the model in `widgets_values[0]`. */
  predicate ReadsFirstWidget(loader: Loader) {
    loader == CheckpointLoaderSimple || loader == UNETLoader
  }

  function AsSet(o: Option<string>): (r: set<string>)
    ensures forall x :: x in r <==> o == Some(x)
  {
    match o
    case None => {}
    case Some(x) => {x}
  }

  /** `extractModelFromNode`: one test per loader type, in the source's
      order. Every name it reports is non-empty. */
  function ModelsOfNode(node: Object): (models: set<string>)
    ensures forall m :: m in models ==> m != ""
  {
    var t := LoaderOf(NodeType(node));
    var widget := AsSet(FirstWidgetString(node));
    (if t == CheckpointLoaderSimple then AsSet(InputString(node, "ckpt_name")) + widget else {})
    + (if t == DualCLIPLoader then AsSet(InputString(node, "clip_name1")) + AsSet(InputString(node, "clip_name2")) else {})
    + (if t == UNETLoader then AsSet(InputString(node, "unet_name")) + widget else {})
    + (if t == WanVideoModelLoader then AsSet(InputString(node, "model_name")) + AsSet(InputString(node, "model")) else {})
    + (if t == VAELoader then AsSet(InputString(node, "vae_name")) else {})
    + (if t == CLIPLoader then AsSet(InputString(node, "clip_name")) else {})
  }

  /** The tests of `ModelsOfNode` agree with the loader table: a name is
      found exactly when it sits under one of the loader's designated
      `inputs` fields, or in `widgets_values[0]` for the two loaders that
      use it. */
  lemma ModelsOfNodeByTable(node: Object, m: string)
    ensures var loader := LoaderOf(NodeType(node));
      m in ModelsOfNode(node) <==>
        ((exists f :: f in DesignatedFields(loader) && InputString(node, f) == Some(m))
         || (ReadsFirstWidget(loader) && FirstWidgetString(node) == Some(m)))
  {
    match LoaderOf(NodeType(node))
    case CheckpointLoaderSimple => assert "ckpt_name" in ["ckpt_name"];
    case DualCLIPLoader =>
    case UNETLoader => assert "unet_name" in ["unet_name"];
    case WanVideoModelLoader =>
    case VAELoader => assert "vae_name" in ["vae_name"];
    case CLIPLoader => assert "clip_name" in ["clip_name"];
    case OtherNode =>
  }

  /** A string `class_type` decides the node type: `type` is then ignored. */
  lemma ClassTypeTakesPrecedence(node: Object, other: Json)
    requires "class_type" in node && node["class_type"].JStr?
    ensures NodeType(node["type" := other]) == NodeType(node)
    ensures ModelsOfNode(node["type" := other]) == ModelsOfNode(node)
  {
    var n2 := node["type" := other];
    assert forall f :: InputString(n2, f) == InputString(node, f);
    assert FirstWidgetString(n2) == FirstWidgetString(node);
  }

  /** `widgets_values` matters only to checkpoint and UNet loaders. */
  lemma WidgetsIgnoredElsewhere(node: Object, wv: Json)
    requires !ReadsFirstWidget(LoaderOf(NodeType(node)))
    requires "class_type" in node && node["class_type"].JStr?
    ensures ModelsOfNode(node["widgets_values" := wv]) == ModelsOfNode(node)
  {
    var n2 := node["widgets_values" := wv];
    assert NodeType(n2) == NodeType(node);
    assert forall f :: InputString(n2, f) == InputString(node, f);
  }

  /** The top-level keys the simple format never treats as nodes. */
  predicate IsMetadataKey(k: string) {
    k == "extra" || k == "_meta" || k == "links"
  }

  /** The workflow is in native form: it has a `nodes` array. */
  predicate HasNodesArray(workflow: Object) {
    "nodes" in workflow && workflow["nodes"].JArr?
  }

  /** `extractModelsFromWorkflow`. In native form the object elements of
      `nodes` are scanned; otherwise every top-level object value except the
      metadata ones. The scan visits the keys in an arbitrary order, as Go's
      map iteration does, and the result is a set. */
  method ExtractModelsFromWorkflow(workflow: Object) returns (models: set<string>)
    ensures HasNodesArray(workflow) ==> forall m :: m in models <==>
      exists i :: 0 <= i < |workflow["nodes"].items| && workflow["nodes"].items[i].JObj?
        && m in ModelsOfNode(workflow["nodes"].items[i].fields)
    ensures !HasNodesArray(workflow) ==> forall m :: m in models <==>
      exists k :: k in workflow && !IsMetadataKey(k) && workflow[k].JObj? && m in ModelsOfNode(workflow[k].fields)
    ensures forall m :: m in models ==> m != ""
  {
    if HasNodesArray(workflow) {
      models := ScanNodeArray(workflow["nodes"].items, ModelsOfNode);
    } else {
      models := ScanTopLevel(workflow, ModelsOfNode);
    }
  }

  /** The native-form scan: the union of `nodeModels` over the object
      elements of `nodes`, visited in order. */
  method ScanNodeArray(nodes: seq<Json>, nodeModels: Object -> set<string>) returns (models: set<string>)
    ensures forall m :: m in models <==>
      exists i :: 0 <= i < |nodes| && nodes[i].JObj? && m in nodeModels(nodes[i].fields)
  {
    models := {};
    var i := 0;
    while i < |nodes|
      invariant 0 <= i <= |nodes|
      invariant forall m :: m in models <==>
        exists j :: 0 <= j < i && nodes[j].JObj? && m in nodeModels(nodes[j].fields)
    {
      if nodes[i].JObj? {
        models := models + nodeModels(nodes[i].fields);
      }
      i := i + 1;
    }
  }

  /** The simple-form scan: the union of `nodeModels` over the top-level
      object values except the metadata ones, visited in an arbitrary key
      order. */
  method ScanTopLevel(workflow: Object, nodeModels: Object -> set<string>) returns (models: set<string>)
    ensures forall m :: m in models <==>
      exists k :: k in workflow && !IsMetadataKey(k) && workflow[k].JObj? && m in nodeModels(workflow[k].fields)
  {
    models := {};
    var todo := workflow.Keys;
    while todo != {}
      invariant todo <= workflow.Keys
      invariant forall m :: m in models <==>
        exists k :: k in workflow && k !in todo && !IsMetadataKey(k) && workflow[k].JObj?
          && m in nodeModels(workflow[k].fields)
      decreases |todo|
    {
      var k :| k in todo;
      if !IsMetadataKey(k) && workflow[k].JObj? {
        models := models + nodeModels(workflow[k].fields);
      }
      todo := todo - {k};
    }
  }

  /* ---------------------------------------------------------------------- */
  /* Workflow blobs                                                         */
  /* ---------------------------------------------------------------------- */

  const CompressionNone: int := 0
  const CompressionGzip: int := 1
  const CompressionBrotli: int := 2

  /** Why a workflow blob gave no workflow. */
  datatype WorkflowError =
    | EmptyData
    | GzipFailed
    | UnsupportedCompression(code: int)
    | JsonFailed

  /** The start of each error text (a failure from a library call is
      followed by that library's message, which is not modelled). */
  function ErrorText(e: WorkflowError): string {
    match e
    case EmptyData => "empty workflow data"
    case GzipFailed => "failed to decompress gzip"
    case UnsupportedCompression(code) => "unsupported compression type: " + Itoa(code)
    case JsonFailed => "failed to parse workflow JSON"
  }

  /** What `decompressWorkflow` gives: a workflow, none, or an error. A JSON
      `null` decodes to no workflow and no error, as `json.Unmarshal` into a
      map does. */
  datatype Decoded = Decoded(workflow: Option<Object>, error: Option<WorkflowError>)

  /** `decompressWorkflow`, with the gzip decoder and the JSON parser as
      parameters. */
  function DecompressWorkflow(data: seq<Byte>, compression: int,
                              gunzip: seq<Byte> -> Option<seq<Byte>>,
                              parseJson: seq<Byte> -> Option<Json>): (r: Decoded)
    ensures data == [] ==> r == Decoded(None, Some(EmptyData))
    ensures data != [] && compression != CompressionNone && compression != CompressionGzip ==>
      r == Decoded(None, Some(UnsupportedCompression(compression)))
    ensures r.workflow.Some? ==> r.error.None?
    ensures r.workflow.Some? ==> compression in {CompressionNone, CompressionGzip} && data != []
    ensures data != [] && compression == CompressionNone ==>
      (r.workflow.Some? <==> parseJson(data).Some? && parseJson(data).value.JObj?)
  {
    if data == [] then Decoded(None, Some(EmptyData))
    else
      var text :=
        if compression == CompressionGzip then gunzip(data)
        else if compression == CompressionNone then Some(data)
        else None;
      if compression != CompressionNone && compression != CompressionGzip then
        Decoded(None, Some(UnsupportedCompression(compression)))
      else if text.None? then Decoded(None, Some(GzipFailed))
      else match parseJson(text.value)
        case None => Decoded(None, Some(JsonFailed))
        case Some(JNull) => Decoded(None, None)
        case Some(JObj(fields)) => Decoded(Some(fields), None)
        case Some(_) => Decoded(None, Some(JsonFailed))
  }

  /** Brotli, which the SDK defines, is not supported. */
  lemma BrotliUnsupported(data: seq<Byte>, gunzip: seq<Byte> -> Option<seq<Byte>>,
                          parseJson: seq<Byte> -> Option<Json>)
    requires data != []
    ensures DecompressWorkflow(data, CompressionBrotli, gunzip, parseJson).error
      == Some(UnsupportedCompression(2))
    ensures ErrorText(UnsupportedCompression(2)) == "unsupported compression type: 2"
  {
    assert NatDigits(2) == "2";
  }

  /* ---------------------------------------------------------------------- */
  /* Recipes                                                                */
  /* ---------------------------------------------------------------------- */

  /** `OnChainRecipeInfo`, without the fields nothing here reads. */
  datatype Recipe = Recipe(
    recipeId: int,
    name: string,
    isPublic: bool,
    compression: int,
    workflow: Option<Object>,
    workflowError: string)

  /** A recipe name as a lookup key: `.` and `-` become `_`, then lower case. */
  function NormalizeName(name: string): (r: string)
    ensures |r| == |name|
    ensures '.' !in r && '-' !in r
    ensures forall i :: 0 <= i < |name| ==>
      r[i] == (if name[i] == '.' || name[i] == '-' then '_' else LowerChar(name[i]))
  {
    ToLower(ReplaceChar(ReplaceChar(name, '.', '_'), '-', '_'))
  }

  /** A normalised name is its own key. */
  lemma NormalizeNameIdempotent(name: string)
    ensures NormalizeName(NormalizeName(name)) == NormalizeName(name)
  {
  }

  /** The keys `FetchAllRecipes` stores a recipe under: a public recipe
      under its name and its normalised name, any other under none. */
  function RecipeKeys(r: Recipe): (ks: seq<string>)
    ensures forall k :: k in ks <==> r.isPublic && (k == r.name || k == NormalizeName(r.name))
  {
    if r.isPublic then [r.name, NormalizeName(r.name)] else []
  }

  /** The outcome of fetching one recipe id: `None` when the call failed or
      returned no recipe, which the loop skips. */
  type Fetched = Option<Recipe>

  /** `FetchAllRecipes` over the recipes fetched for ids 1..count: a
      disabled client gives nothing; otherwise each public recipe is stored
      under its keys in id order, so a later recipe wins a shared key. */
  function FetchAllRecipes(enabled: bool, fetched: seq<Fetched>): (index: map<string, Recipe>)
    ensures !enabled ==> index == map[]
    ensures enabled ==> forall k :: k in index <==> SomeCarries(Somes(fetched), RecipeKeys, k)
    ensures forall k :: k in index ==> index[k].isPublic && (k == index[k].name || k == NormalizeName(index[k].name))
  {
    if !enabled then map[]
    else
      var index := BuildIndex(Somes(fetched), RecipeKeys);
      FetchedKeysFacts(Somes(fetched), index);
      index
  }

  lemma FetchedKeysFacts(recipes: seq<Recipe>, index: map<string, Recipe>)
    requires IsIndexOf(recipes, RecipeKeys, index)
    ensures forall k :: k in index ==> index[k].isPublic && (k == index[k].name || k == NormalizeName(index[k].name))
  {
    forall k | k in index
      ensures index[k].isPublic && (k == index[k].name || k == NormalizeName(index[k].name))
    {
      var i :| IsLastWith(recipes, RecipeKeys, k, i) && index[k] == recipes[i];
    }
  }

  /** No key of `a` is a key of `b`. */
  predicate NoSharedKey(a: Recipe, b: Recipe) {
    forall k :: k in RecipeKeys(a) ==> k !in RecipeKeys(b)
  }

  /** A public recipe can be looked up by its exact name and by its
      normalised name, unless a later public recipe claims the key. */
  lemma PublicRecipeFound(fetched: seq<Fetched>, i: int)
    requires 0 <= i < |Somes(fetched)| && Somes(fetched)[i].isPublic
    requires forall j :: i < j < |Somes(fetched)| ==>
      RecipeKeys(Somes(fetched)[j]) == [] || NoSharedKey(Somes(fetched)[j], Somes(fetched)[i])
    ensures var r := Somes(fetched)[i];
      && FetchAllRecipes(true, fetched)[r.name] == r
      && FetchAllRecipes(true, fetched)[NormalizeName(r.name)] == r
  {
    var rs := Somes(fetched);
    var r := rs[i];
    assert IsLastWith(rs, RecipeKeys, r.name, i);
    assert IsLastWith(rs, RecipeKeys, NormalizeName(r.name), i);
    IndexHoldsLastCarrier(rs, RecipeKeys, r.name, i);
    IndexHoldsLastCarrier(rs, RecipeKeys, NormalizeName(r.name), i);
  }

  /** A name only private recipes have is not a key. */
  lemma PrivateRecipesHidden(fetched: seq<Fetched>, k: string)
    requires forall r :: r in Somes(fetched) && (k == r.name || k == NormalizeName(r.name)) ==> !r.isPublic
    ensures k !in FetchAllRecipes(true, fetched)
  {
  }

  /** `ExtractModelsFromRecipes`: the union of the models of every indexed
      recipe that has a workflow; a recipe without one is skipped. */
  method ExtractModelsFromRecipes(recipes: map<string, Recipe>) returns (models: set<string>)
    ensures forall m :: m in models <==>
      exists k :: k in recipes && recipes[k].workflow.Some? && m in WorkflowModels(recipes[k].workflow.value)
  {
    models := {};
    var todo := recipes.Keys;
    while todo != {}
      invariant todo <= recipes.Keys
      invariant forall m :: m in models <==>
        exists k :: k in recipes && k !in todo && recipes[k].workflow.Some?
          && m in WorkflowModels(recipes[k].workflow.value)
      decreases |todo|
    {
      var k :| k in todo;
      if recipes[k].workflow.Some? {
        var found := ExtractModelsFromWorkflow(recipes[k].workflow.value);
        WorkflowModelsOf(recipes[k].workflow.value, found);
        models := models + found;
      }
      todo := todo - {k};
    }
  }

  /** The models of a workflow, as a set: the independent definition the
      scan in `ExtractModelsFromWorkflow` computes. */
  function WorkflowModels(workflow: Object): set<string> {
    if HasNodesArray(workflow) then
      var nodes := workflow["nodes"].items;
      set i, m | 0 <= i < |nodes| && nodes[i].JObj? && m in ModelsOfNode(nodes[i].fields) :: m
    else
      set k, m | k in workflow && !IsMetadataKey(k) && workflow[k].JObj? && m in ModelsOfNode(workflow[k].fields) :: m
  }

  /** The scan's result is `WorkflowModels`. */
  lemma WorkflowModelsOf(workflow: Object, found: set<string>)
    requires HasNodesArray(workflow) ==> forall m :: m in found <==>
      exists i :: 0 <= i < |workflow["nodes"].items| && workflow["nodes"].items[i].JObj?
        && m in ModelsOfNode(workflow["nodes"].items[i].fields)
    requires !HasNodesArray(workflow) ==> forall m :: m in found <==>
      exists k :: k in workflow && !IsMetadataKey(k) && workflow[k].JObj? && m in ModelsOfNode(workflow[k].fields)
    ensures found == WorkflowModels(workflow)
  {
  }
}

=== FILE: setup_supabase.dfy ===
/**
 * The Supabase setup script (scripts/setup-supabase.py): it reads `.env`,
 * takes the project reference out of the Supabase URL, and prints the SQL
 * and OAuth instructions, including the OAuth callback URL.
 *
 * File reads become parameters: the `.env` file is its lines (after Python's
 * newline translation) or `None` when it does not exist, and the schema file
 * is a flag telling whether it exists. Printing is left out; the outcome
 * records what the instructions are built from.
 */
module SetupSupabase {
  import opened Options
  import opened Strs
  import opened Indexing

  /* ---------------------------------------------------------------------- */
  /* `.env` parsing                                                         */
  /* ---------------------------------------------------------------------- */

  /** One line of `load_env`: stripped; blank lines and `#` comments add
      nothing; otherwise the line splits at its first `=` into a stripped key
      and a stripped value, and a line without `=` adds nothing. */
  function ParseLine(raw: string): (entry: Option<(string, string)>)
    ensures entry.Some? ==> '=' !in entry.value.0
    ensures IsPyBlankOrComment(raw) ==> entry.None?
    ensures '=' !in raw ==> entry.None?
    ensures !IsPyBlankOrComment(raw) && '=' in PyStrip(raw) ==> entry.Some?
    ensures entry.Some? ==> IsStripped(entry.value.0) && IsStripped(entry.value.1)
    ensures entry.Some? ==> exists k :: (IsFirstEquals(PyStrip(raw), k)
      && entry.value == (PyStrip(PyStrip(raw)[..k]), PyStrip(PyStrip(raw)[k + 1..])))
  {
    var line := PyStrip(raw);
    TrimByChars(raw, IsPySpace);
    if line == [] || line[0] == '#' then None
    else
      var k := IndexOf(line, '=');
      if k < 0 then None
      else
        TrimByChars(line[..k], IsPySpace);
        StripIsStripped(line[..k]);
        StripIsStripped(line[k + 1..]);
        assert IsFirstEquals(line, k);
        Some((PyStrip(line[..k]), PyStrip(line[k + 1..])))
  }

  /** Position `k` of `line` holds its first `=`. */
  predicate IsFirstEquals(line: string, k: int) {
    0 <= k < |line| && line[k] == '=' && '=' !in line[..k]
  }

  /** `strip()` leaves no white space at either end. */
  lemma StripIsStripped(s: string)
    ensures IsStripped(PyStrip(s))
  {
    var r := PyStrip(s);
    assert r == [] || (!IsPySpace(r[0]) && !IsPySpace(r[|r| - 1]));
  }

  /** After stripping, the line is empty or starts with `#`. */
  predicate IsPyBlankOrComment(raw: string) {
    var line := PyStrip(raw);
    line == [] || line[0] == '#'
  }

  /** A text with no white space at either end (possibly empty). */
  predicate IsStripped(s: string) {
    s == [] || (!IsPySpace(s[0]) && !IsPySpace(s[|s| - 1]))
  }

  /** Writing `key=value` and parsing it back gives the pair, for a
      non-empty stripped key without `=` that does not start a comment, and
      any stripped value (which may itself contain `=`). */
  lemma ParseLineRoundTrip(key: string, value: string)
    requires key != [] && IsStripped(key) && '=' !in key && key[0] != '#'
    requires IsStripped(value)
    ensures ParseLine(key + "=" + value) == Some((key, value))
  {
    var line := key + "=" + value;
    JoinedLineShape(key, value);
    JoinedLineStripped(key, value);
    assert line[0] == key[0];
    TrimmedIsFixpoint(key, IsPySpace);
    TrimmedIsFixpoint(value, IsPySpace);
    assert PyStrip(line[..|key|]) == key && PyStrip(line[|key| + 1..]) == value;
  }

  /** Only white space (in Python's sense). */
  predicate IsPyPadding(w: string) {
    forall i :: 0 <= i < |w| ==> IsPySpace(w[i])
  }

  /** White space around the line and around the first `=` is stripped: the
      entry is the text on either side of the first `=`, stripped. */
  lemma ParseLinePadded(w1: string, key: string, w2: string, w3: string, value: string, w4: string)
    requires IsPyPadding(w1) && IsPyPadding(w2) && IsPyPadding(w3) && IsPyPadding(w4)
    requires key != [] && IsStripped(key) && '=' !in key && key[0] != '#'
    requires IsStripped(value)
    ensures ParseLine(w1 + key + w2 + "=" + w3 + value + w4) == Some((key, value))
  {
    var raw := w1 + key + w2 + "=" + w3 + value + w4;
    var rest := if value == [] then [] else w3 + value;
    PaddedRawStrips(w1, key, w2, w3, value, w4);
    StrippedParts(key, w2, w3, value);
    ParseKeyRest(raw, key, w2, rest);
  }

  /** Stripping the padded line leaves `key`, its padding, `=` and the
      padded value, or nothing after `=` when the value is empty. */
  lemma PaddedRawStrips(w1: string, key: string, w2: string, w3: string, value: string, w4: string)
    requires IsPyPadding(w1) && IsPyPadding(w2) && IsPyPadding(w3) && IsPyPadding(w4)
    requires key != [] && IsStripped(key) && IsStripped(value)
    ensures PyStrip(w1 + key + w2 + "=" + w3 + value + w4)
      == key + w2 + "=" + (if value == [] then [] else w3 + value)
  {
    PaddedLineStrip(w1, key, w2, w3, value, w4);
    assert key + w2 + "=" + w3 + value == (key + w2 + "=") + (w3 + value);
  }

  /** A line that strips to `key`, padding, `=` and `rest` gives the key and
      the stripped rest. */
  lemma ParseKeyRest(raw: string, key: string, w2: string, rest: string)
    requires PyStrip(raw) == key + w2 + "=" + rest
    requires IsPyPadding(w2) && key != [] && '=' !in key && key[0] != '#'
    ensures ParseLine(raw) == Some((PyStrip(key + w2), PyStrip(rest)))
  {
    var line := key + w2 + "=" + rest;
    var k := |key| + |w2|;
    EqualsAfterPadding(key, w2, rest);
    assert line[..k] == key + w2;
    ParseLineSplits(raw, line, k);
    assert PyStrip(line[..k]) == PyStrip(key + w2);
    assert PyStrip(line[k + 1..]) == PyStrip(rest);
  }

  /** In `key`, padding, `=` and `rest`, the first `=` follows the padding. */
  lemma EqualsAfterPadding(key: string, w2: string, rest: string)
    requires IsPyPadding(w2) && key != [] && '=' !in key
    ensures var line := key + w2 + "=" + rest; var k := |key| + |w2|;
      && 0 <= k < |line| && line[0] == key[0]
      && IndexOf(line, '=') == k && line[..k] == key + w2 && line[k + 1..] == rest
  {
    var line := key + w2 + "=" + rest;
    SplitAtEquals(key + w2, rest);
    FirstEqualsAt(line, key, w2);
  }

  /** Cutting `a + "=" + b` at the `=` gives back `a` and `b`. */
  lemma SplitAtEquals(a: string, b: string)
    ensures var line := a + "=" + b;
      && |a| < |line| && line[..|a|] == a && line[|a|] == '=' && line[|a| + 1..] == b
  {
  }

  /** The first `=` of a line that starts with the key, its padding and
      `=` is the one after the padding. */
  lemma FirstEqualsAt(line: string, key: string, w2: string)
    requires IsPyPadding(w2) && key != [] && '=' !in key
    requires |key| + |w2| < |line| && line[..|key| + |w2|] == key + w2 && line[|key| + |w2|] == '='
    ensures line[0] == key[0] && IndexOf(line, '=') == |key| + |w2|
  {
    var k := |key| + |w2|;
    assert line[0] == line[..k][0];
    assert '=' !in line[..k] by {
      assert forall i :: 0 <= i < |w2| ==> w2[i] != '=';
    }
    IndexOfAt(line, '=', k);
  }

  /** Both halves strip to the key and the value. */
  lemma StrippedParts(key: string, w2: string, w3: string, value: string)
    requires IsPyPadding(w2) && IsPyPadding(w3)
    requires key != [] && IsStripped(key) && IsStripped(value)
    ensures PyStrip(key + w2) == key
    ensures PyStrip(if value == [] then [] else w3 + value) == value
  {
    assert key + w2 == [] + key + w2;
    TrimPadded([], key, w2, IsPySpace);
    if value != [] {
      assert w3 + value == w3 + value + [];
      TrimPadded(w3, value, [], IsPySpace);
    }
  }

  /** A line that strips to a non-comment with its first `=` at `k` gives
      the stripped text on either side of that `=`. */
  lemma ParseLineSplits(raw: string, line: string, k: int)
    requires PyStrip(raw) == line && line != [] && line[0] != '#'
    requires 0 <= k < |line| && IndexOf(line, '=') == k
    ensures ParseLine(raw) == Some((PyStrip(line[..k]), PyStrip(line[k + 1..])))
  {
  }

  /** Stripping a padded line leaves the key, the padding before `=`, the
      `=` and, when there is a value, the padding after it and the value. */
  lemma PaddedLineStrip(w1: string, key: string, w2: string, w3: string, value: string, w4: string)
    requires IsPyPadding(w1) && IsPyPadding(w2) && IsPyPadding(w3) && IsPyPadding(w4)
    requires key != [] && !IsPySpace(key[0])
    requires IsStripped(value)
    ensures var head := key + w2 + "=";
      PyStrip(w1 + key + w2 + "=" + w3 + value + w4) == if value == [] then head else head + w3 + value
  {
    var head := key + w2 + "=";
    if value == [] {
      var tail := w3 + w4;
      assert w1 + key + w2 + "=" + w3 + value + w4 == w1 + head + tail;
      assert IsPyPadding(tail) by {
        forall i | 0 <= i < |tail| ensures IsPySpace(tail[i]) {
          if i < |w3| { assert tail[i] == w3[i]; } else { assert tail[i] == w4[i - |w3|]; }
        }
      }
      TrimPadded(w1, head, tail, IsPySpace);
    } else {
      var core := head + w3 + value;
      assert w1 + key + w2 + "=" + w3 + value + w4 == w1 + core + w4;
      assert core[|core| - 1] == value[|value| - 1];
      TrimPadded(w1, core, w4, IsPySpace);
    }
  }

  /** The first `=` of `key=value` follows the key. */
  lemma JoinedLineShape(key: string, value: string)
    requires '=' !in key
    ensures var line := key + "=" + value;
      && IndexOf(line, '=') == |key|
      && line[..|key|] == key && line[|key| + 1..] == value
  {
    var line := key + "=" + value;
    assert line == key + ['='] + value;
    assert line[..|key|] == key && line[|key|] == '=' && line[|key| + 1..] == value;
    IndexOfAt(line, '=', |key|);
  }

  /** `key=value` is already stripped. */
  lemma JoinedLineStripped(key: string, value: string)
    requires key != [] && IsStripped(key) && IsStripped(value)
    ensures PyStrip(key + "=" + value) == key + "=" + value
  {
    var line := key + "=" + value;
    assert line[0] == key[0];
    assert line[|line| - 1] == if value == [] then '=' else value[|value| - 1];
    TrimmedIsFixpoint(line, IsPySpace);
  }

  /** Each line parsed on its own. */
  function ParsedLines(lines: seq<string>): (ps: seq<Option<(string, string)>>)
    ensures |ps| == |lines|
    ensures forall i :: 0 <= i < |lines| ==> ps[i] == ParseLine(lines[i])
  {
    seq(|lines|, i requires 0 <= i < |lines| => ParseLine(lines[i]))
  }

  /** The `key=value` entries of the file, in line order. */
  function Entries(lines: seq<string>): (es: seq<(string, string)>)
    ensures |es| <= |lines|
    ensures forall e :: e in es ==> Some(e) in ParsedLines(lines)
  {
    Somes(ParsedLines(lines))
  }

  /** The key an entry assigns. */
  function EntryKey(e: (string, string)): seq<string> {
    [e.0]
  }

  /** `load_env` over the file's lines: `env[key] = value` for each entry in
      order, so a later assignment to a key replaces an earlier one. */
  function LoadEnv(lines: seq<string>): (env: map<string, string>)
    ensures forall k :: k in env <==> SomeCarries(Entries(lines), EntryKey, k)
  {
    var index := BuildIndex(Entries(lines), EntryKey);
    map k | k in index :: index[k].1
  }

  /** The value stored under a key is the one from the last entry that
      assigns the key. */
  lemma LastAssignmentWins(lines: seq<string>, k: string, i: int)
    requires IsLastWith(Entries(lines), EntryKey, k, i)
    ensures k in LoadEnv(lines) && LoadEnv(lines)[k] == Entries(lines)[i].1
  {
    IndexHoldsLastCarrier(Entries(lines), EntryKey, k, i);
  }

  /** Appending `key=value` to the file sets the key to the value, whatever
      the earlier lines said. */
  lemma AppendedLineWins(lines: seq<string>, key: string, value: string)
    requires key != [] && IsStripped(key) && '=' !in key && key[0] != '#'
    requires IsStripped(value)
    ensures var more := lines + [key + "=" + value];
      key in LoadEnv(more) && LoadEnv(more)[key] == value
  {
    var more := lines + [key + "=" + value];
    ParseLineRoundTrip(key, value);
    EntriesAppend(lines, key + "=" + value);
    var es := Entries(more);
    assert es == Entries(lines) + [(key, value)];
    LastAssignmentWins(more, key, |es| - 1);
  }

  /** A line appended to the file adds its entry, if any, after the others. */
  lemma EntriesAppend(lines: seq<string>, line: string)
    ensures Entries(lines + [line]) ==
      Entries(lines) + (if ParseLine(line).Some? then [ParseLine(line).value] else [])
  {
    var more := lines + [line];
    assert ParsedLines(more) == ParsedLines(lines) + [ParseLine(line)];
    assert ParsedLines(more)[..|more| - 1] == ParsedLines(lines);
  }

  /* ---------------------------------------------------------------------- */
  /* Project reference                                                      */
  /* ---------------------------------------------------------------------- */

  const SchemePrefix: string := "https://"
  const HostSuffix: string := ".supabase.co"

  /** The longest run of non-`.` characters of `s` starting at `j`. */
  function NonDotRun(s: string, j: nat): (run: string)
    requires j <= |s|
    ensures j + |run| <= |s| && run == s[j..j + |run|]
    ensures '.' !in run
    ensures j + |run| == |s| || s[j + |run|] == '.'
    decreases |s| - j
  {
    if j == |s| || s[j] == '.' then []
    else
      var rest := NonDotRun(s, j + 1);
      assert s[j..j + 1 + |rest|] == [s[j]] + s[j + 1..j + 1 + |rest|];
      [s[j]] + rest
  }

  /** The regular expression `https://([^.]+)\.supabase\.co` matches at `i`
      with group `g`. */
  predicate IsRefMatch(s: string, i: int, g: string) {
    && 0 <= i <= |s|
    && g != [] && '.' !in g
    && HasPrefix(s[i..], SchemePrefix + g + HostSuffix)
  }

  /** The match attempt at position `i`: the greedy group is the maximal
      dot-free run, and backtracking cannot help because a shorter run is
      followed by a character that is not a `.`. */
  function MatchAt(s: string, i: nat): (g: Option<string>)
    requires i <= |s|
    ensures g.Some? ==> IsRefMatch(s, i, g.value)
  {
    if HasPrefix(s[i..], SchemePrefix) then
      var j := i + |SchemePrefix|;
      var run := NonDotRun(s, j);
      if run != [] && HasPrefix(s[j + |run|..], HostSuffix) then
        MatchShape(s, i, run);
        Some(run)
      else None
    else None
  }

  lemma MatchShape(s: string, i: nat, run: string)
    requires i + |SchemePrefix| + |run| <= |s|
    requires HasPrefix(s[i..], SchemePrefix)
    requires run == s[i + |SchemePrefix|..i + |SchemePrefix| + |run|]
    requires HasPrefix(s[i + |SchemePrefix| + |run|..], HostSuffix)
    ensures HasPrefix(s[i..], SchemePrefix + run + HostSuffix)
  {
    var t := SchemePrefix + run + HostSuffix;
    var j := i + |SchemePrefix| + |run|;
    forall k | 0 <= k < |t| ensures s[i + k] == t[k] {
      if k < |SchemePrefix| {
        assert s[i..][k] == SchemePrefix[k];
      } else if k < |SchemePrefix| + |run| {
        assert t[k] == run[k - |SchemePrefix|];
      } else {
        assert s[j..][k - |SchemePrefix| - |run|] == HostSuffix[k - |SchemePrefix| - |run|];
      }
    }
    assert s[i..][..|t|] == t;
  }

  /** Any match of the regular expression at `i` is the one `MatchAt` finds:
      the group of a match is unique. */
  lemma MatchAtComplete(s: string, i: nat, g: string)
    requires IsRefMatch(s, i, g)
    ensures MatchAt(s, i) == Some(g)
  {
    var t := SchemePrefix + g + HostSuffix;
    var j := i + |SchemePrefix|;
    assert s[i..][..|SchemePrefix|] == t[..|SchemePrefix|] == SchemePrefix;
    assert HasPrefix(s[i..], SchemePrefix);
    var run := NonDotRun(s, j);
    // Both `run` and `g` are dot-free runs from `j`; `g` is followed by a
    // `.`, and so is `run` (or the end), so neither can be shorter.
    forall k | 0 <= k < |g| ensures s[j + k] == g[k] {
      assert s[i..][|SchemePrefix| + k] == t[|SchemePrefix| + k];
    }
    assert s[j + |g|] == '.' by {
      assert s[i..][|SchemePrefix| + |g|] == t[|SchemePrefix| + |g|];
    }
    assert forall k :: j <= k < j + |g| ==> s[k] != '.';
    assert forall k :: j <= k < j + |run| ==> s[k] != '.';
    assert |run| == |g|;
    assert run == g;
    forall k | 0 <= k < |HostSuffix| ensures s[j + |g| + k] == HostSuffix[k] {
      assert s[i..][|SchemePrefix| + |g| + k] == t[|SchemePrefix| + |g| + k];
    }
    assert s[j + |run|..][..|HostSuffix|] == HostSuffix;
  }

  /** `re.search` from position `i` on: the leftmost position where the
      expression matches. */
  function FirstMatchFrom(s: string, i: nat): (p: Option<nat>)
    requires i <= |s|
    ensures p.Some? ==> i <= p.value <= |s| && MatchAt(s, p.value).Some?
    ensures p.Some? ==> forall q :: i <= q < p.value ==> MatchAt(s, q).None?
    ensures p.None? ==> forall q :: i <= q <= |s| ==> MatchAt(s, q).None?
    decreases |s| - i
  {
    if MatchAt(s, i).Some? then Some(i)
    else if i == |s| then None
    else FirstMatchFrom(s, i + 1)
  }

  /** `extract_project_ref`: the group of the leftmost match, if any. */
  function ExtractProjectRef(url: string): (r: Option<string>)
    ensures r.Some? ==> r.value != [] && '.' !in r.value && Contains(url, SchemePrefix + r.value + HostSuffix)
    ensures r.Some? ==> exists p :: (0 <= p <= |url| && IsRefMatch(url, p, r.value)
      && forall q, g :: 0 <= q < p ==> !IsRefMatch(url, q, g))
  {
    match FirstMatchFrom(url, 0)
    case None => None
    case Some(p) =>
      var g := MatchAt(url, p).value;
      var t := SchemePrefix + g + HostSuffix;
      assert OccursAt(url, t, p) by {
        assert url[p..p + |t|] == url[p..][..|t|];
      }
      NoEarlierMatch(url, p);
      Some(g)
  }

  lemma NoEarlierMatch(url: string, p: nat)
    requires p <= |url|
    requires forall q :: 0 <= q < p ==> MatchAt(url, q).None?
    ensures forall q, g :: 0 <= q < p ==> !IsRefMatch(url, q, g)
  {
    forall q, g | 0 <= q < p && IsRefMatch(url, q, g) ensures false {
      MatchAtComplete(url, q, g);
    }
  }

  /** `extract_project_ref` finds nothing exactly when the regular
      expression matches nowhere. */
  lemma ExtractNoneIffNoMatch(url: string)
    ensures ExtractProjectRef(url).None? <==> forall p, g :: 0 <= p <= |url| ==> !IsRefMatch(url, p, g)
  {
    if ExtractProjectRef(url).None? {
      forall p, g | 0 <= p <= |url| ensures !IsRefMatch(url, p, g) {
        if IsRefMatch(url, p, g) {
          MatchAtComplete(url, p, g);
        }
      }
    }
  }

  /** The documented example. */
  lemma ExtractExample()
    ensures ExtractProjectRef("https://abcdefgh.supabase.co") == Some("abcdefgh")
  {
    var s := "https://abcdefgh.supabase.co";
    assert IsRefMatch(s, 0, "abcdefgh") by {
      assert s[0..] == s == SchemePrefix + "abcdefgh" + HostSuffix;
    }
    MatchAtComplete(s, 0, "abcdefgh");
  }

  /* ---------------------------------------------------------------------- */
  /* Callback URL                                                           */
  /* ---------------------------------------------------------------------- */

  /** Python's `s.replace(pat, "")`: removes the non-overlapping occurrences
      of `pat`, scanning left to right in one pass. */
  function RemoveAll(s: string, pat: string): (r: string)
    requires pat != []
    ensures |r| <= |s|
    decreases |s|
  {
    if |s| < |pat| then s
    else if HasPrefix(s, pat) then RemoveAll(s[|pat|..], pat)
    else [s[0]] + RemoveAll(s[1..], pat)
  }

  /** Text without the pattern is left alone. */
  lemma {:induction false} RemoveAllAbsent(s: string, pat: string)
    requires pat != [] && !Contains(s, pat)
    ensures RemoveAll(s, pat) == s
    decreases |s|
  {
    if |s| >= |pat| {
      assert !OccursAt(s, pat, 0);
      assert !Contains(s[1..], pat) by {
        forall i | 0 <= i <= |s[1..]| - |pat| ensures !OccursAt(s[1..], pat, i) {
          assert s[1..][i..i + |pat|] == s[i + 1..i + 1 + |pat|];
          assert !OccursAt(s, pat, i + 1);
        }
      }
      RemoveAllAbsent(s[1..], pat);
    }
  }

  /** A pattern whose last character occurs nowhere else in it cannot
      overlap itself, so a trailing occurrence is removed on its own. */
  lemma {:induction false} RemoveAllTrailing(a: string, pat: string)
    requires pat != [] && pat[|pat| - 1] !in pat[..|pat| - 1]
    ensures RemoveAll(a + pat, pat) == RemoveAll(a, pat)
    decreases |a|
  {
    var s := a + pat;
    if a == [] {
      assert s == pat;
      assert HasPrefix(s, pat);
      assert s[|pat|..] == [];
    } else if HasPrefix(s, pat) {
      // A match starting inside `a` must lie wholly inside `a`.
      if |a| < |pat| {
        NoStraddle(a, pat);
        assert false;
      }
      assert HasPrefix(a, pat) by {
        assert a[..|pat|] == s[..|pat|];
      }
      assert s[|pat|..] == a[|pat|..] + pat;
      RemoveAllTrailing(a[|pat|..], pat);
    } else {
      assert s[1..] == a[1..] + pat;
      RemoveAllTrailing(a[1..], pat);
      if |a| >= |pat| {
        assert a[..|pat|] == s[..|pat|];
      }
    }
  }

  /** With a unique last character, the pattern cannot occur at the start of
      `a + pat` when `a` is shorter than it. */
  lemma NoStraddle(a: string, pat: string)
    requires pat != [] && pat[|pat| - 1] !in pat[..|pat| - 1]
    requires 0 < |a| < |pat|
    ensures !HasPrefix(a + pat, pat)
  {
    var s := a + pat;
    var m := |a|;
    assert s[|pat| - 1] == pat[|pat| - 1 - m];
    assert pat[..|pat| - 1][|pat| - 1 - m] == pat[|pat| - 1 - m];
    assert s[..|pat|][|pat| - 1] != pat[|pat| - 1];
  }

  const RestPath: string := "/rest/v1"
  const CallbackPath: string := "/auth/v1/callback"

  /** The OAuth callback URL: the Supabase URL with every `/rest/v1`
      removed, followed by `/auth/v1/callback`. */
  function CallbackUrl(supabaseUrl: string): (r: string)
    ensures HasPrefix(r, RemoveAll(supabaseUrl, RestPath))
    ensures |r| == |RemoveAll(supabaseUrl, RestPath)| + |CallbackPath|
    ensures r[|r| - |CallbackPath|..] == CallbackPath
  {
    var base := RemoveAll(supabaseUrl, RestPath);
    assert (base + CallbackPath)[..|base|] == base;
    assert (base + CallbackPath)[|base|..] == CallbackPath;
    base + CallbackPath
  }

  /** A project URL, with or without the REST API path, gives the project's
      callback. */
  lemma CallbackOfRestUrl(base: string)
    requires !Contains(base, RestPath)
    ensures CallbackUrl(base) == base + CallbackPath
    ensures CallbackUrl(base + RestPath) == base + CallbackPath
  {
    RemoveAllAbsent(base, RestPath);
    assert RestPath[..|RestPath| - 1] == "/rest/v";
    RemoveAllTrailing(base, RestPath);
  }

  /* ---------------------------------------------------------------------- */
  /* The script's flow                                                      */
  /* ---------------------------------------------------------------------- */

  /** What `main` ends with: exit status 1 with a reason, or the
      instructions built from the project reference and callback URL. */
  datatype Outcome =
    | ExitFailure(reason: string)
    | Instructions(projectRef: string, supabaseUrl: string, callbackUrl: string, hasServiceKey: bool)

  const UrlKey: string := "NEXT_PUBLIC_SUPABASE_URL"
  const ServiceKeyName: string := "SUPABASE_SERVICE_ROLE_KEY"

  /** `main`: a missing `.env` (an exception caught by the handler), a
      missing or empty URL, a URL without a project reference and a missing
      schema file all end with exit status 1. */
  function RunSetup(envLines: Option<seq<string>>, schemaExists: bool): (o: Outcome)
    ensures o.Instructions? <==>
      && envLines.Some?
      && UrlKey in LoadEnv(envLines.value) && LoadEnv(envLines.value)[UrlKey] != []
      && ExtractProjectRef(LoadEnv(envLines.value)[UrlKey]).Some?
      && schemaExists
    ensures o.Instructions? ==>
      && o.supabaseUrl == LoadEnv(envLines.value)[UrlKey]
      && Some(o.projectRef) == ExtractProjectRef(o.supabaseUrl)
      && o.callbackUrl == CallbackUrl(o.supabaseUrl)
      && (o.hasServiceKey <==>
            ServiceKeyName in LoadEnv(envLines.value) && LoadEnv(envLines.value)[ServiceKeyName] != [])
  {
    match envLines
    case None => ExitFailure("Error: .env file not found")
    case Some(lines) =>
      var env := LoadEnv(lines);
      var url := if UrlKey in env then env[UrlKey] else [];
      if url == [] then ExitFailure("NEXT_PUBLIC_SUPABASE_URL not found in .env")
      else match ExtractProjectRef(url)
        case None => ExitFailure("Invalid Supabase URL format")
        case Some(projectRef) =>
          if !schemaExists then ExitFailure("supabase/schema.sql not found")
          else
            var hasKey := ServiceKeyName in env && env[ServiceKeyName] != [];
            Instructions(projectRef, url, CallbackUrl(url), hasKey)
  }
}

=== FILE: strs.dfy ===
/**
 * String primitives shared by the whole model: the parts of Go's `strings`
 * package and of Python's `str` methods that the modelled code calls.
 *
 * Strings are `seq<char>`. The model assumes ASCII content wherever a length
 * matters, so `|s|` agrees with Go's byte-counting `len(s)`.
 */
module Strs {

  /** A byte of the byte strings read from the chain. */
  newtype Byte = b: int | 0 <= b < 256

  /* ---------------------------------------------------------------------- */
  /* Character classes                                                      */
  /* ---------------------------------------------------------------------- */

  /** Unicode White_Space characters above U+00FF. */
  predicate IsWideSpace(c: char) {
    c == '\U{1680}' || ('\U{2000}' <= c <= '\U{200A}') || c == '\U{2028}' || c == '\U{2029}'
    || c == '\U{202F}' || c == '\U{205F}' || c == '\U{3000}'
  }

  /** Go's `unicode.IsSpace`, the set `strings.TrimSpace` removes. */
  predicate IsGoSpace(c: char) {
    c == ' ' || c == '\t' || c == '\n' || c == '\U{000B}' || c == '\U{000C}' || c == '\r'
    || c == '\U{0085}' || c == '\U{00A0}' || IsWideSpace(c)
  }

  /** Python's `str.isspace`, the set `str.strip()` removes: Go's set plus the
      four ASCII information separators U+001C..U+001F. */
  predicate IsPySpace(c: char) {
    IsGoSpace(c) || ('\U{001C}' <= c <= '\U{001F}')
  }

  /** ASCII lower-casing of one character (`unicode.ToLower` restricted to ASCII). */
  function LowerChar(c: char): char {
    if 'A' <= c <= 'Z' then (c as int + 32) as char else c
  }

  /** `strings.ToLower` under the ASCII assumption. */
  function ToLower(s: string): (r: string)
    ensures |r| == |s|
    ensures forall i :: 0 <= i < |s| ==> r[i] == LowerChar(s[i])
  {
    seq(|s|, i requires 0 <= i < |s| => LowerChar(s[i]))
  }

  lemma ToLowerIdempotent(s: string)
    ensures ToLower(ToLower(s)) == ToLower(s)
  {
  }

  lemma ToLowerConcat(a: string, b: string)
    ensures ToLower(a + b) == ToLower(a) + ToLower(b)
  {
  }

  /** `strings.ReplaceAll(s, string(from), string(to))` for one-character
      patterns, as used to normalise `.` and `-` to `_`. */
  function ReplaceChar(s: string, from: char, to: char): (r: string)
    ensures |r| == |s|
    ensures forall i :: 0 <= i < |s| ==> r[i] == (if s[i] == from then to else s[i])
  {
    seq(|s|, i requires 0 <= i < |s| => if s[i] == from then to else s[i])
  }

  /* ---------------------------------------------------------------------- */
  /* Prefixes and substrings                                                */
  /* ---------------------------------------------------------------------- */

  /** `strings.HasPrefix` / `str.startswith`. */
  predicate HasPrefix(s: string, p: string) {
    |p| <= |s| && s[..|p|] == p
  }

  /** `sub` occurs in `s` starting at index `i`. */
  predicate OccursAt(s: string, sub: string, i: int) {
    0 <= i && i + |sub| <= |s| && s[i..i + |sub|] == sub
  }

  /** `strings.Contains`. */
  predicate Contains(s: string, sub: string) {
    exists i | 0 <= i <= |s| - |sub| :: OccursAt(s, sub, i)
  }

  /** A substring test can be refuted by one character of the pattern that
      the subject lacks. */
  lemma NotContainsByMissingChar(s: string, sub: string, c: char)
    requires c in sub && c !in s
    ensures !Contains(s, sub)
  {
  }

  /** A substring test can be refuted by the first two characters of the
      pattern never standing side by side in the subject. */
  lemma NotContainsByMissingPair(s: string, sub: string)
    requires |sub| >= 2
    requires forall i :: 0 <= i < |s| - 1 ==> !(s[i] == sub[0] && s[i + 1] == sub[1])
    ensures !Contains(s, sub)
  {
    forall i | 0 <= i <= |s| - |sub| ensures !OccursAt(s, sub, i) {
      assert s[i..i + |sub|][0] == s[i] && s[i..i + |sub|][1] == s[i + 1];
    }
  }

  /** A substring stays a substring when text is added on either side. */
  lemma ContainsInLonger(s: string, t: string, sub: string)
    requires Contains(s, sub)
    ensures Contains(s + t, sub) && Contains(t + s, sub)
  {
    var i :| 0 <= i <= |s| - |sub| && OccursAt(s, sub, i);
    assert (s + t)[i..i + |sub|] == s[i..i + |sub|];
    assert OccursAt(s + t, sub, i);
    assert (t + s)[|t| + i..|t| + i + |sub|] == s[i..i + |sub|];
    assert OccursAt(t + s, sub, |t| + i);
  }

  /* ---------------------------------------------------------------------- */
  /* Character search                                                       */
  /* ---------------------------------------------------------------------- */

  /** `strings.IndexByte`: the first index of `c`, or -1. */
  function IndexOf(s: string, c: char): (r: int)
    ensures -1 <= r < |s|
    ensures r == -1 <==> c !in s
    ensures r >= 0 ==> s[r] == c && c !in s[..r]
  {
    if s == [] then -1
    else if s[0] == c then 0
    else
      var k := IndexOf(s[1..], c);
      if k < 0 then -1 else (assert s[..k + 1] == [s[0]] + s[1..][..k]; k + 1)
  }

  /** The first occurrence is determined by its position: a `c` with no `c`
      before it is the one `IndexOf` finds. */
  lemma IndexOfAt(s: string, c: char, k: int)
    requires 0 <= k < |s| && s[k] == c && c !in s[..k]
    ensures IndexOf(s, c) == k
  {
    var r := IndexOf(s, c);
    assert forall j :: 0 <= j < k ==> s[j] != c by {
      forall j | 0 <= j < k ensures s[j] != c { assert s[..k][j] == s[j]; }
    }
    assert forall j :: 0 <= j < r ==> s[j] != c by {
      forall j | 0 <= j < r ensures s[j] != c { assert s[..r][j] == s[j]; }
    }
  }

  /** `strings.LastIndex(s, string(c))`: the last index of `c`, or -1. */
  function LastIndexOf(s: string, c: char): (r: int)
    ensures -1 <= r < |s|
    ensures r == -1 <==> c !in s
    ensures r >= 0 ==> s[r] == c && c !in s[r + 1..]
  {
    if s == [] then -1
    else if s[|s| - 1] == c then |s| - 1
    else
      var k := LastIndexOf(s[..|s| - 1], c);
      if k < 0 then (assert s == s[..|s| - 1] + [s[|s| - 1]]; -1)
      else (assert s[k + 1..] == s[..|s| - 1][k + 1..] + [s[|s| - 1]]; k)
  }

  /* ---------------------------------------------------------------------- */
  /* Trimming                                                               */
  /* ---------------------------------------------------------------------- */

  /** Drops the longest prefix whose characters all satisfy `cut`. */
  function TrimLeftBy(s: string, cut: char -> bool): (r: string)
    ensures |r| <= |s| && r == s[|s| - |r|..]
    ensures r == [] || !cut(r[0])
    ensures forall i :: 0 <= i < |s| - |r| ==> cut(s[i])
    decreases |s|
  {
    if s != [] && cut(s[0]) then
      var r := TrimLeftBy(s[1..], cut);
      assert forall i :: 1 <= i < |s| - |r| ==> s[i] == s[1..][i - 1];
      r
    else s
  }

  /** Drops the longest suffix whose characters all satisfy `cut`
      (`strings.TrimRight` / `strings.TrimFunc` on the right). */
  function TrimRightBy(s: string, cut: char -> bool): (r: string)
    ensures |r| <= |s| && r == s[..|r|]
    ensures r == [] || !cut(r[|r| - 1])
    ensures forall i :: |r| <= i < |s| ==> cut(s[i])
    decreases |s|
  {
    if s != [] && cut(s[|s| - 1]) then
      var r := TrimRightBy(s[..|s| - 1], cut);
      assert forall i :: |r| <= i < |s| - 1 ==> s[i] == s[..|s| - 1][i];
      r
    else s
  }

  /** Drops `cut` characters from both ends (`strings.TrimFunc`). What is left
      is a substring of `s` with no `cut` character at either end, and it is
      empty exactly when every character of `s` is a `cut` character. */
  function TrimBy(s: string, cut: char -> bool): (r: string)
    ensures |r| <= |s| && Contains(s, r)
    ensures r == [] || (!cut(r[0]) && !cut(r[|r| - 1]))
    ensures r == [] <==> forall i :: 0 <= i < |s| ==> cut(s[i])
  {
    TrimByFacts(s, cut);
    TrimRightBy(TrimLeftBy(s, cut), cut)
  }

  lemma TrimByFacts(s: string, cut: char -> bool)
    ensures var r := TrimRightBy(TrimLeftBy(s, cut), cut);
      && |r| <= |s| && Contains(s, r)
      && (r == [] || (!cut(r[0]) && !cut(r[|r| - 1])))
      && (r == [] <==> forall i :: 0 <= i < |s| ==> cut(s[i]))
  {
    var left := TrimLeftBy(s, cut);
    var r := TrimRightBy(left, cut);
    var d := |s| - |left|;
    assert s[d..d + |r|] == r;
    assert OccursAt(s, r, d);
    if r == [] {
      assert left == [];
      assert d == |s|;
    } else {
      assert r[0] == left[0] == s[d];
      assert !(forall i :: 0 <= i < |s| ==> cut(s[i]));
    }
  }

  /** Trimming never adds a character. */
  lemma TrimByChars(s: string, cut: char -> bool)
    ensures forall c :: c in TrimBy(s, cut) ==> c in s
  {
    var left := TrimLeftBy(s, cut);
    var r := TrimRightBy(left, cut);
    var d := |s| - |left|;
    forall c | c in r ensures c in s {
      var k :| 0 <= k < |r| && r[k] == c;
      assert left[k] == c;
      assert s[d + k] == c;
    }
  }

  /** `strings.TrimSpace`. */
  function TrimSpace(s: string): string {
    TrimBy(s, IsGoSpace)
  }

  /** Python's `str.strip()` with no argument. */
  function PyStrip(s: string): string {
    TrimBy(s, IsPySpace)
  }

  /** A string whose ends are not `cut` characters is left alone by trimming. */
  lemma TrimmedIsFixpoint(s: string, cut: char -> bool)
    requires s == [] || (!cut(s[0]) && !cut(s[|s| - 1]))
    ensures TrimBy(s, cut) == s
  {
  }

  /** Trimming strips exactly the padding around a string whose ends are
      not `cut` characters. */
  lemma TrimPadded(w1: string, s: string, w2: string, cut: char -> bool)
    requires forall i :: 0 <= i < |w1| ==> cut(w1[i])
    requires forall i :: 0 <= i < |w2| ==> cut(w2[i])
    requires s != [] && !cut(s[0]) && !cut(s[|s| - 1])
    ensures TrimBy(w1 + s + w2, cut) == s
  {
    assert w1 + s + w2 == w1 + (s + w2);
    TrimLeftPadding(w1, s + w2, cut);
    TrimRightPadding(s, w2, cut);
  }

  lemma {:induction false} TrimLeftPadding(w: string, s: string, cut: char -> bool)
    requires forall i :: 0 <= i < |w| ==> cut(w[i])
    requires s != [] && !cut(s[0])
    ensures TrimLeftBy(w + s, cut) == s
    decreases |w|
  {
    if w == [] {
      assert w + s == s;
    } else {
      assert (w + s)[0] == w[0] && (w + s)[1..] == w[1..] + s;
      TrimLeftPadding(w[1..], s, cut);
    }
  }

  lemma {:induction false} TrimRightPadding(s: string, w: string, cut: char -> bool)
    requires forall i :: 0 <= i < |w| ==> cut(w[i])
    requires s != [] && !cut(s[|s| - 1])
    ensures TrimRightBy(s + w, cut) == s
    decreases |w|
  {
    if w == [] {
      assert s + w == s;
    } else {
      var v := w[..|w| - 1];
      assert (s + w)[|s + w| - 1] == w[|w| - 1] && (s + w)[..|s + w| - 1] == s + v;
      TrimRightPadding(s, v, cut);
    }
  }

  lemma TrimByIdempotent(s: string, cut: char -> bool)
    ensures TrimBy(TrimBy(s, cut), cut) == TrimBy(s, cut)
  {
    TrimmedIsFixpoint(TrimBy(s, cut), cut);
  }

  lemma TrimSpaceIdempotent(s: string)
    ensures TrimSpace(TrimSpace(s)) == TrimSpace(s)
  {
    TrimByIdempotent(s, IsGoSpace);
  }

  /** Lower-casing never turns a space into a non-space or back. */
  lemma LowerKeepsSpace(c: char)
    ensures IsGoSpace(LowerChar(c)) == IsGoSpace(c)
  {
  }

  lemma {:induction false} TrimLeftLower(s: string)
    ensures TrimLeftBy(ToLower(s), IsGoSpace) == ToLower(TrimLeftBy(s, IsGoSpace))
    decreases |s|
  {
    if s != [] {
      LowerKeepsSpace(s[0]);
      assert ToLower(s)[1..] == ToLower(s[1..]);
      TrimLeftLower(s[1..]);
    }
  }

  lemma {:induction false} TrimRightLower(s: string)
    ensures TrimRightBy(ToLower(s), IsGoSpace) == ToLower(TrimRightBy(s, IsGoSpace))
    decreases |s|
  {
    if s != [] {
      LowerKeepsSpace(s[|s| - 1]);
      assert ToLower(s)[..|s| - 1] == ToLower(s[..|s| - 1]);
      TrimRightLower(s[..|s| - 1]);
    }
  }

  /** Trimming and lower-casing commute. */
  lemma TrimSpaceLower(s: string)
    ensures TrimSpace(ToLower(s)) == ToLower(TrimSpace(s))
  {
    TrimLeftLower(s);
    TrimRightLower(TrimLeftBy(s, IsGoSpace));
  }

  /** Every character is white space: the meaning of the ubiquitous Go test
      `strings.TrimSpace(s) == ""` (see `BlankIffTrimsToEmpty`). */
  predicate IsBlank(s: string) {
    forall i :: 0 <= i < |s| ==> IsGoSpace(s[i])
  }

  lemma BlankIffTrimsToEmpty(s: string)
    ensures IsBlank(s) <==> TrimSpace(s) == []
  {
  }

  /* ---------------------------------------------------------------------- */
  /* Splitting on one separator character                                   */
  /* ---------------------------------------------------------------------- */

  /** `strings.Join(parts, string(sep))`. */
  function Join(parts: seq<string>, sep: char): string {
    if |parts| == 0 then []
    else if |parts| == 1 then parts[0]
    else parts[0] + [sep] + Join(parts[1..], sep)
  }

  /** `strings.Split(s, string(sep))`: always at least one piece. */
  function Split(s: string, sep: char): (parts: seq<string>)
    ensures |parts| >= 1
    decreases |s|
  {
    var k := IndexOf(s, sep);
    if k < 0 then [s]
    else [s[..k]] + Split(s[k + 1..], sep)
  }

  /** No piece of a split holds the separator. */
  lemma {:induction false} SplitPiecesLackSep(s: string, sep: char)
    ensures forall i :: 0 <= i < |Split(s, sep)| ==> sep !in Split(s, sep)[i]
    decreases |s|
  {
    var k := IndexOf(s, sep);
    if k >= 0 {
      SplitPiecesLackSep(s[k + 1..], sep);
      var rest := Split(s[k + 1..], sep);
      assert Split(s, sep) == [s[..k]] + rest;
    }
  }

  /** Splitting inverts joining when no piece holds the separator. */
  lemma {:induction false} SplitJoin(parts: seq<string>, sep: char)
    requires |parts| >= 1
    requires forall i :: 0 <= i < |parts| ==> sep !in parts[i]
    ensures Split(Join(parts, sep), sep) == parts
    decreases |parts|
  {
    if |parts| == 1 {
      assert IndexOf(parts[0], sep) == -1;
    } else {
      var s := Join(parts, sep);
      assert s == parts[0] + [sep] + Join(parts[1..], sep);
      assert s[|parts[0]|] == sep;
      assert s[..|parts[0]|] == parts[0];
      assert IndexOf(s, sep) == |parts[0]|;
      assert s[|parts[0]| + 1..] == Join(parts[1..], sep);
      SplitJoin(parts[1..], sep);
    }
  }
}
